=== FILE: README.md ===
# Docker Pilot deployment core, modelled in Dafny

Docker Pilot is a pair of Python scripts: `dockerpilotv3.py`, an object-oriented
tool, and `dockerpilotv2.py`, an older menu-driven script. They drive a Docker
daemon to list, start, stop and monitor containers and to deploy new image
versions. This project models the decision logic of both scripts:

- **The daemon.** It is a table of named containers (`Docker.Engine`). Name
  clashes and host-port clashes are decided from that table. Every other
  refusal of the daemon is a given boolean, one for a create and one for a
  start.
- **The probes.** The HTTP health probe with retries and the canary soak run
  over given probe outcomes.
- **The five deployment strategies.** These are rolling, blue-green and canary
  in v3, and quick deploy and blue-green in v2. Each is a method over the
  container table and the deployment ledger, and its contract states the table
  on every exit path.
- **Telemetry.** The arithmetic for CPU, memory and network, the trend
  indicator, and the dashboard's 60-sample window.
- **The ledger.** It keeps the newest 100 records in the history file; the
  history view is sorted newest first and cut to a limit.
- **The small parsers and formatters.** Resource limits, port tables, uptime,
  the image-tag rewrite on promotion, and the v2 menu's port-map and
  restart-policy answers.

Modules:

- `Wrappers`, `Text`: Python's `str.strip`, `split`, `lower`, `int()` and `float()` on decimal text
- `Config`: the deployment configuration, port shifting, resource limits, environment promotion
- `Docker`: the container table and the daemon calls
- `Prober`: the health check, the parallel tests, the canary soak
- `Telemetry`, `Dashboard`, `Display`: statistics, trend and window, the listing columns
- `Operations`: `container_operation` and its six operations
- `Ledger`: `_record_deployment` and `show_deployment_history`
- `Deployment`, `Rolling`, `BlueGreen`, `Canary`: the v3 strategies
- `Menu`, `Quick`, `BlueGreenV2`: the v2 menu answers and deployments

Each deployment takes a "world" value. It bundles what the deployment meets
from outside:

- whether the image builds
- the daemon's answers to the create and to the start of each run
- the probe outcomes, as a function from attempt number to outcome, or as a sequence for the soak
- the operator's answers
- the clock readings
- whether the history file could be written

## Model

| member | source | states |
|---|---|---|
| Text.Strip | dockerpilotv2.py:724 | the stripped text is no longer than the input and neither starts nor ends with a character `str.isspace()` accepts, the Unicode spaces included; it is empty exactly when the input is blank |
| Text.StripIdempotent | dockerpilotv2.py:718 | stripping an already stripped answer changes nothing |
| Text.StripPadded | dockerpilotv2.py:742 | any whitespace around a trimmed word is removed exactly |
| Text.Split | dockerpilotv2.py:724-726 | `split` yields at least one piece and no piece contains the separator |
| Text.JoinSplit | dockerpilotv2.py:434 | joining the pieces of a split with the separator gives the input back |
| Text.SplitJoin | dockerpilotv2.py:724 | splitting a join of separator-free pieces gives those pieces back |
| Text.SplitCount | dockerpilotv2.py:434 | a split has one more piece than the text has separators |
| Text.ParseNat | dockerpilotv2.py:727 | a digit string parses, and nothing else does |
| Text.ParseNatLeadingZeros | dockerpilotv2.py:727 | any number of leading zeros in front of a natural's rendering still reads as that natural |
| Text.ParseNatToString | dockerpilotv2.py:727 | the decimal rendering of a natural number parses back to it |
| Text.ParseIntToString | dockerpilotv2.py:555 | `int()` reads back the decimal rendering of a natural number |
| Text.ParseInt | dockerpilotv3.py:1308 | after skipping the whitespace `int()` skips (what `str.isspace()` accepts except the separators U+001C to U+001F), `int()` accepts exactly an optional sign followed by digits, and the sign decides the sign of the value |
| Text.ParseIntPadded | dockerpilotv2.py:727 | number whitespace, an optional sign, digits and number whitespace read as the value of the digits, negated after a minus |
| Text.SeparatorRefused | dockerpilotv3.py:1308 | `strip()` removes a leading U+001C, but `int()` and `float()` refuse a number that starts with it |
| Text.ParseIntSpacedPort | dockerpilotv2.py:555 | `int(" 8080 ")` is 8080 |
| Text.ParseIntSignedExamples | dockerpilotv2.py:648 | `int("-5")` is -5 and `int("+7")` is 7 |
| Text.ParseIntZeroPadded | dockerpilotv2.py:727 | `int("007")` is 7 |
| Text.ParseDecimalPoint | dockerpilotv3.py:1294 | `float()` of "w.f" is the exact value of the digits |
| Text.Truncate | dockerpilotv3.py:1295 | `int()` of a float truncates toward zero |
| Config.HostPorts | dockerpilotv3.py:991 | the set holds exactly the host ports of the mapping |
| Config.ShiftPorts | dockerpilotv3.py:989-992 | every binding keeps its position and container port, and its host port moves by the offset |
| Config.ShiftPortsRoundTrip | dockerpilotv3.py:989-992 | shifting host ports by an offset and back restores the mapping, container ports and order included |
| Config.ShiftPortsDisjoint | dockerpilotv3.py:1123-1125 | the shifted copy shares no host port with the original exactly when no host port lies the offset above another |
| Config.NanoCpus | dockerpilotv3.py:1291-1297 | an empty or missing limit sets nothing; otherwise the value is the truncated product of the parsed decimal and 10^9 |
| Config.ResourceLimits | dockerpilotv3.py:1287-1314 | each key is present only when its limit is given, and equals that limit's conversion |
| Config.MemoryBytes | dockerpilotv3.py:1299-1312 | an empty or missing memory limit sets nothing |
| Config.MemoryWithUnit | dockerpilotv3.py:1302-1308 | a whole number followed by 'g', 'G', 'm' or 'M' is that many GiB or MiB |
| Config.MemoryPlain | dockerpilotv3.py:1307-1308 | a whole number without a unit is that many bytes |
| Config.MemoryUnits | dockerpilotv3.py:1302-1308 | "Ng", "NG", "Nm", "NM" and "N" give N GiB, N MiB and N bytes exactly |
| Config.NanoCpusOf | dockerpilotv3.py:1291-1297 | a given CPU limit that parses as x sets x·10^9 nano-CPUs, truncated |
| Config.CpuUnits | dockerpilotv3.py:1294-1295 | N whole CPUs give N·10^9 nano-CPUs |
| Config.CpuDecimal | dockerpilotv3.py:1294-1295 | "w.f" gives its exact decimal value times 10^9, truncated |
| Config.CpuTenths | dockerpilotv3.py:1294-1295 | "w.f" with one fractional digit is worth exactly w·10^9 + f·10^8 nano-CPUs after truncation |
| Config.CpuTenthsText | dockerpilotv3.py:1291-1297 | the CPU limit text "w.f" with single digits sets w·10^9 + f·10^8 nano-CPUs |
| Config.ParseEnvironment | dockerpilotv3.py:2355-2375 | only "dev", "staging" and "prod" are environments, each named by its own text |
| Config.EnvironmentNames | dockerpilotv3.py:2355-2371 | every environment's name parses back to it |
| Config.MemorySuffixIgnored | dockerpilotv3.py:1302-1308 | a limit ending in 'i' falls to the integer branch and sets no memory limit |
| Config.PromotionMemoryDropped | dockerpilotv3.py:2358-2368 | the promotion table's "512Mi", "1Gi" and "2Gi" all set no memory limit |
| Config.PromotionMemory | dockerpilotv3.py:2358-2368 | with "512m", "1g" and "2g" every environment gets exactly its intended memory |
| Config.PromotionCpu | dockerpilotv3.py:2358-2368 | the CPU limits "0.5", "1.0" and "2.0" set half a CPU, one CPU and two CPUs exactly |
| Config.PromotedTag | dockerpilotv3.py:2393-2394 | the promoted tag keeps the text before the first ':' of the original tag |
| Config.PromotedTagUntagged | dockerpilotv3.py:2393-2394 | an image name without a tag gets ":latest" and the environment's suffix appended |
| Config.PromotedTagIdempotent | dockerpilotv3.py:2393-2394 | promoting twice equals promoting once to the last environment |
| Config.PromotedTagCutsAtFirstColon | dockerpilotv3.py:2393-2394 | everything after the first ':' is replaced, including a registry port |
| Config.PromotionUsesBlueGreen | dockerpilotv3.py:2410 | the promotion deploys blue-green exactly when the target environment's name is "prod", and rolling otherwise |
| Config.PromotionStrategy | dockerpilotv3.py:2410 | for every accepted environment name, blue-green is chosen exactly for "prod" |
| Config.Promote | dockerpilotv3.py:2373-2398 | an unknown source or target is refused; otherwise only the tag and the CPU and memory strings change, to the target's |
| Docker.PortsFreeIgnoresSelf | dockerpilotv3.py:994-1004 | a container's port check does not depend on its own entry |
| Docker.Stopped | dockerpilotv3.py:368-381 | a stopped container is inactive and differs from before in status only |
| Docker.Engine.constructor | dockerpilotv3.py:159-174 | the daemon starts with the given table |
| Docker.Engine.Create | dockerpilotv3.py:797-806 | creation fails exactly when the daemon refuses the request or the name is taken, and then nothing changes; otherwise one created container is added |
| Docker.Engine.Start | dockerpilotv3.py:810 | start succeeds iff the daemon accepts, the container exists and is not paused, and either it is already running or its host ports are free; only its status changes |
| Docker.Engine.Run | dockerpilotv3.py:994-1004 | run is create then start: a taken name or a refused create changes nothing, a refused start leaves a created container, and it runs iff both are accepted with its host ports free |
| Docker.Engine.Stop | dockerpilotv3.py:862 | stop fails only on a missing container, and otherwise leaves it inactive |
| Docker.Engine.Remove | dockerpilotv3.py:863 | an active container is removed only with force; success removes exactly that entry |
| Docker.Engine.Rename | dockerpilotv3.py:865 | rename needs the source present and the target free, and moves the container unchanged |
| Docker.Engine.Pause | dockerpilotv3.py:411-417 | only a running container is paused |
| Docker.Engine.Unpause | dockerpilotv3.py:419-425 | only a paused container is resumed |
| Docker.Engine.Restart | dockerpilotv3.py:383-393 | restart runs an active container again, and an inactive one only if its ports are free |
| Docker.Engine.UpdateRestartPolicy | dockerpilotv2.py:173-183 | only the named container's restart policy changes, and a missing container fails |
| Docker.Engine.StopAndRemove | dockerpilotv2.py:80-91 | whatever held the name is gone and nothing else changes |
| Operations.ParseOperation | dockerpilotv3.py:322-333 | exactly the six operation names dispatch, each to its own operation |
| Operations.OperationNames | dockerpilotv3.py:322-329 | every operation's name dispatches back to it |
| Operations.StartContainer | dockerpilotv3.py:351-366 | equals the operation table's start: a running container succeeds without a call |
| Operations.StopContainer | dockerpilotv3.py:368-381 | equals the operation table's stop: an exited container succeeds without a call |
| Operations.RestartContainer | dockerpilotv3.py:383-393 | equals the operation table's restart |
| Operations.RemoveContainer | dockerpilotv3.py:395-409 | equals the operation table's removal, which passes the caller's `force` even after a confirmation |
| Operations.PauseContainer | dockerpilotv3.py:411-417 | equals the operation table's pause |
| Operations.UnpauseContainer | dockerpilotv3.py:419-425 | equals the operation table's unpause |
| Operations.ContainerOperation | dockerpilotv3.py:320-349 | an unknown operation fails with nothing changed; a known one does what the table says |
| Operations.Apply | dockerpilotv3.py:320-425 | which calls succeed: none on a missing container; start when running or accepted, unpaused and with free ports; stop always; restart when accepted and active or with free ports; removal iff forced or inactive; pause iff running; unpause iff paused |
| Operations.ApplyIsLocal | dockerpilotv3.py:320-425 | an operation succeeds only on an existing container, touches no other container, and changes nothing when it fails |
| Operations.ApplyOutcome | dockerpilotv3.py:351-425 | success leaves the promised state: running after start, restart or unpause, inactive after stop, paused after pause, gone after removal |
| Operations.StartStopIdempotent | dockerpilotv3.py:351-381 | a second start or stop succeeds and changes nothing |
| Operations.PauseUnpauseRoundTrip | dockerpilotv3.py:411-425 | pausing and then resuming a running container restores the table |
| Operations.ConfirmedRemovalRefused | dockerpilotv3.py:395-409 | a running container is not removed without force, whether or not the user confirms |
| Operations.RemoveContainerConfirmed | dockerpilotv3.py:395-409 | with confirmation acting as force, a confirmed removal of a running container succeeds |
| Prober.HealthCheck | dockerpilotv3.py:1263-1285 | healthy iff one of the first `max_retries` probes is 200; no probe after the first 200; one pause between consecutive attempts; all attempts made when unhealthy |
| Prober.RunParallelTests | dockerpilotv3.py:1320-1340 | passes iff every endpoint answers 200, stopping at the first that does not |
| Prober.Errors | dockerpilotv3.py:1353-1363 | errors never exceed requests |
| Prober.MonitorCanary | dockerpilotv3.py:1342-1370 | the verdict equals the soak acceptance rule; errors ≤ requests; the loop stops at the first early abort or at the end of the budget |
| Prober.RateThresholds | dockerpilotv3.py:1357-1370 | the float ratio tests `> 0.1` and `< 0.05` equal the integer tests `10e > t` and `20e < t` |
| Prober.ErrorsOfHealthy | dockerpilotv3.py:1353-1354 | all-200 answers count no errors |
| Prober.ErrorsOfFailing | dockerpilotv3.py:1353-1363 | all-failing answers are all errors |
| Prober.HealthySoakAccepted | dockerpilotv3.py:1342-1370 | a canary that always answers 200 is accepted |
| Prober.UnreachableSoakNeverAborts | dockerpilotv3.py:1361-1363 | an unreachable canary never triggers the early abort, and is rejected unless the soak made no requests |
| Prober.ElevenFailuresAbort | dockerpilotv3.py:1357-1359 | with every answer an error status, the abort fires after the eleventh request and not the tenth |
| Telemetry.CpuFormula | dockerpilotv3.py:495-503 | the result is never negative, is 0 unless `system_delta > 0` and `cpu_delta >= 0`, and otherwise is the cross-multiplied ratio times CPUs times 100 |
| Telemetry.CpuFormulaBounded | dockerpilotv3.py:500-501 | when the container's time grows no faster than the host's, the result is at most 100% per CPU |
| Telemetry.CpuPercent | dockerpilotv3.py:486-505 | never negative; 0 when either `total_usage` is missing; positive only when both deltas are positive |
| Telemetry.CpuPercentExample | dockerpilotv3.py:498 | 50 units over 100 on a four-entry `percpu_usage` is 200% |
| Telemetry.LiveCpuPercent | dockerpilotv2.py:334-355 | never negative, and 0 for the first sample |
| Telemetry.LiveCpuAgrees | dockerpilotv2.py:244-263 | with every key present, the live figure equals the one-shot figure |
| Telemetry.MemoryPercent | dockerpilotv2.py:266-268 | usage/limit·100 when the limit (default 1) is positive, else 0 |
| Telemetry.MemoryPercentInMb | dockerpilotv3.py:458-461 | converting to MB before dividing leaves the percentage unchanged |
| Telemetry.TrafficAppend | dockerpilotv2.py:271-276 | totals over two lists of interfaces add up |
| Telemetry.TrafficPermutation | dockerpilotv2.py:271-276 | the totals do not depend on the interfaces' order |
| Telemetry.NetworkTotals | dockerpilotv2.py:271-276 | the accumulation loop computes the received and sent totals over all interfaces |
| Telemetry.Measure | dockerpilotv3.py:444-484 | the statistics record carries the CPU figure, memory usage and limit in MB with the defaults 0 and 1, the memory percentage, the network totals in MB, and `pids_stats.current` or 0 |
| Telemetry.StatsReport | dockerpilotv2.py:226-296 | no report iff `memory_stats` is missing; otherwise CPU, memory usage and limit in bytes with the defaults 0 and 1, the percentage, the network totals, and a process count iff `pids_stats` is present, 0 when it has no `current` |
| Telemetry.LiveReadingsShape | dockerpilotv2.py:298-396 | one reading per usable sample, none negative, the first reporting 0% CPU |
| Telemetry.MonitorLive | dockerpilotv2.py:298-396 | the monitor loop, which carries the previous sample, yields exactly those readings |
| Dashboard.SumShift | dockerpilotv3.py:621-622 | adding a constant to every sample adds it n times to the sum |
| Dashboard.TrendDiffShift | dockerpilotv3.py:621-624 | the trend difference ignores a common offset |
| Dashboard.TrendDiffNegate | dockerpilotv3.py:621-624 | negating every sample negates the trend difference |
| Dashboard.TrendShiftInvariant | dockerpilotv3.py:616-630 | the indicator does not change when every sample moves by the same amount |
| Dashboard.TrendNegate | dockerpilotv3.py:616-630 | negated samples give the opposite indicator |
| Dashboard.TrendOf | dockerpilotv3.py:616-630 | rising iff there are two samples or more and the mean of the newest two exceeds the mean of the older ones (the first sample when there are only two) by more than 5; falling iff it is below by more than 5; otherwise steady |
| Dashboard.PushTracksStream | dockerpilotv3.py:543-545 | append followed by `pop(0)` beyond 60 keeps exactly the last 60 samples of the stream |
| Dashboard.MetricsHistory.constructor | dockerpilotv3.py:521 | each watched container starts with an empty window |
| Dashboard.MetricsHistory.Observe | dockerpilotv3.py:539-554 | a measurement updates only its container's window, within 60 samples; the trend is taken over the newest five |
| Display.FormatPorts | dockerpilotv3.py:274-288 | "none" for no ports, otherwise every entry joined by ", " |
| Display.PortItemsCount | dockerpilotv3.py:279-286 | one entry per binding and one per unbound port, empty only for no ports |
| Display.PortItemsComplete | dockerpilotv3.py:279-286 | every binding appears as host→container, and every unbound port as itself |
| Display.CalculateUptime | dockerpilotv3.py:298-318 | "N/A" unless running with a readable creation time; each bucket's numbers bound the elapsed time |
| Display.UptimeBuckets | dockerpilotv3.py:307-316 | days from one day up, hours from one hour up, minutes below that |
| Display.UptimeClockSkew | dockerpilotv3.py:304-309 | a start one minute in the future reads as 23h 59m |
| Ledger.Newest | dockerpilotv3.py:1399-1400 | the newest n records, in order, or all of them when there are fewer; the dashboard takes its windows the same way |
| Ledger.AppendToFile | dockerpilotv3.py:1396-1400 | the file stays within 100 records, the new one last, and drops only the oldest when full |
| Ledger.Ledger.constructor | dockerpilotv3.py:78 | the session starts with an empty history and the file as saved, of any length; it is within the capacity only if the file was |
| Ledger.Ledger.Record | dockerpilotv3.py:1372-1406 | the record is appended to the history; the file gains it, trimmed to the newest 100, only when it can be written, so a written file is within the capacity whatever its length before |
| Ledger.InsertDescending | dockerpilotv3.py:1421 | one longer, headed by the new record or the old head |
| Ledger.InsertDescendingPermutes | dockerpilotv3.py:1421 | insertion adds exactly the new record |
| Ledger.InsertDescendingSorted | dockerpilotv3.py:1421 | insertion keeps the list newest first |
| Ledger.SortDescendingCorrect | dockerpilotv3.py:1421 | the sort is newest first and a permutation of the file |
| Ledger.PrefixLength | dockerpilotv3.py:1422 | `[:limit]` takes at most `limit` records, fewer only when the list is shorter; a negative limit drops that many from the end, or all of them |
| Ledger.HistoryView | dockerpilotv3.py:1408-1422 | `[:limit]` many records, newest first, all from the file, and none left out is newer than one shown |
| Ledger.TopOfSorted | dockerpilotv3.py:1421-1422 | a cut sorted list keeps the newest records |
| Ledger.HistoryViewWhole | dockerpilotv3.py:1408-1422 | a limit at least the file's size shows every record |
| Deployment.SpecWith | dockerpilotv3.py:797-806 | the container carries the configured image, restart policy and converted limits |
| Deployment.SuccessRecord | dockerpilotv3.py:1375-1383 | the record names the deployment, its kind, image and container, and is successful |
| Deployment.ShouldRunParallelTests | dockerpilotv3.py:1316-1318 | tests run only when the testing section exists and enables them |
| Deployment.TestEndpoints | dockerpilotv3.py:1322-1323 | "/health" unless the testing section lists endpoints |
| Deployment.TestResponses | dockerpilotv3.py:1327-1330 | one answer per endpoint, in order |
| Deployment.ClearAndRun | dockerpilotv3.py:977-1011 | the name is cleared and run again; it runs iff the create and the start are accepted with its ports free among the rest; a refused create leaves the name empty, a refused start a created container |
| Rolling.TempName | dockerpilotv3.py:794 | the temporary name differs from the service name |
| Rolling.Switch | dockerpilotv3.py:858-870 | as written: the rename succeeds iff the old container was absent or running |
| Rolling.SwitchCorrected | dockerpilotv3.py:858-870 | retiring the old container in any state always hands over the name |
| Rolling.LaunchCandidate | dockerpilotv3.py:793-828 | creation fails iff the daemon refuses it or the temporary name is taken, and then nothing changes; a refused start leaves a created container |
| Rolling.CheckCandidate | dockerpilotv3.py:830-856 | healthy iff there are no ports or a probe passes; an unhealthy candidate is removed and nothing else changes |
| Rolling.Cutover | dockerpilotv3.py:830-870 | an unhealthy candidate is removed and nothing else changes; the switch happens only after a probe passed when ports are published; a stopped or paused old container blocks the rename and leaves the table alone; otherwise the candidate takes the service name |
| Rolling.Stage | dockerpilotv3.py:781-870 | every exit after the build leaves the table in the state its phase promises; success needs a passed probe when ports are published, and leaves the new container running under the service name in place of the old one |
| Rolling.RollingDeploy | dockerpilotv3.py:755-885 | a record only on success; build, create and probe failures leave the table as it was; success needs a passed probe when ports are published and replaces exactly the service container, whose old version was running on disjoint ports |
| BlueGreen.SlotNamesDiffer | dockerpilotv3.py:939-940 | the two slot names differ |
| BlueGreen.ActiveSlot | dockerpilotv3.py:943-961 | blue iff blue runs; green iff blue does not run and green does; the active slot is running |
| BlueGreen.TargetSlot | dockerpilotv3.py:963-964 | the target is never the active slot, and is blue unless blue is active |
| BlueGreen.CheckTrial | dockerpilotv3.py:1013-1048 | the probe runs only with ports, the tests only when enabled; a failure removes only the target |
| BlueGreen.Trial | dockerpilotv3.py:976-1048 | the trial fails to run iff the daemon refuses its create or start or a shifted port is taken, leaving the slot empty or holding a created container; a failed probe or test removes it; passing means a probe passed and every tested endpoint answered |
| BlueGreen.SwitchTraffic | dockerpilotv3.py:1050-1088 | the target is recreated on the production ports, and the old active slot is removed only after the final probe passes |
| BlueGreen.DeployToTarget | dockerpilotv3.py:976-1088 | each exit's table after the build; the live slot survives every failure; success needs a passed trial probe, passing tests when enabled and a passed final probe |
| BlueGreen.BlueGreenDeploy | dockerpilotv3.py:932-1099 | a record only on success; the active slot is untouched on every failure; success needs a passed trial probe, passing tests when enabled and a passed final probe, and leaves exactly the target running on production ports |
| Canary.CanaryName | dockerpilotv3.py:1119 | the canary's name differs from the service's |
| Canary.CanarySpec | dockerpilotv3.py:1123-1145 | the configured environment plus CANARY="true", on host ports shifted by 100 |
| Canary.TryCanary | dockerpilotv3.py:1119-1168 | the canary runs iff its create and start are accepted with its shifted ports free; a rejected soak removes it; only the canary's entry changes |
| Canary.Promote | dockerpilotv3.py:1170-1202 | the service and canary containers are removed, then the service runs iff the daemon accepts the create and the start and its ports are free; a refused create leaves no service container |
| Canary.CanaryDeploy | dockerpilotv3.py:1101-1212 | the service is touched only after an accepted soak; a rejected canary is removed and nothing else changes; each refused run states its refusal and its table; a record only on success |
| Menu.PortMapOf | dockerpilotv2.py:718-732 | no port map iff the stripped answer is empty |
| Menu.ParsePortMap | dockerpilotv2.py:721-732 | the filling loop computes the port-map answer |
| Menu.BadPieceSpoils | dockerpilotv2.py:723-730 | one malformed piece anywhere fails the fill |
| Menu.MalformedPortMap | dockerpilotv2.py:723-730 | one malformed piece rejects the whole answer |
| Menu.RenderShape | dockerpilotv2.py:726-727 | a rendered `host:container` piece reads back as `(container, host)` |
| Menu.FillRendered | dockerpilotv2.py:725-727 | filling from rendered pieces builds their table, later pieces overriding earlier ones |
| Menu.PortMapRoundTrip | dockerpilotv2.py:718-732 | bindings typed as `h:c` and joined by commas read back as their table |
| Menu.ParseRestartPolicy | dockerpilotv2.py:742-745 | accepted iff the stripped answer is one of the four policies |
| Menu.RestartPolicyRoundTrip | dockerpilotv2.py:742-745 | every policy is accepted whatever whitespace surrounds it |
| Menu.SetRestartPolicy | dockerpilotv2.py:737-746 | a blank name or an unknown policy changes nothing; otherwise only the named container's policy changes |
| Quick.ParseQuickPorts | dockerpilotv2.py:431-435 | no mapping iff there is no ':'; a crash iff there is more than one; otherwise two colon-free halves around the one ':' |
| Quick.QuickPortsRoundTrip | dockerpilotv2.py:434 | any `host:container` pair reads back as itself |
| Quick.QuickBindings | dockerpilotv2.py:472-479 | no ports for no mapping; a mapping is published iff its host half is a number |
| Quick.RetireOld | dockerpilotv2.py:451-468 | the old container is gone unless it was paused, in which case removal crashes with nothing changed |
| Quick.QuickDeploy | dockerpilotv2.py:422-495 | each exit's condition as an iff; nothing changes before the old container is retired; success whatever the probe says, with the old container replaced |
| BlueGreenV2.NamesDiffer | dockerpilotv2.py:512-513 | the blue and green names differ |
| BlueGreenV2.Switch | dockerpilotv2.py:589-618 | as written: the switch succeeds only when no blue container existed, and a running blue is left stopped |
| BlueGreenV2.SwitchCorrected | dockerpilotv2.py:589-618 | with the old blue removed first, only the daemon and the ports can refuse the new blue |
| BlueGreenV2.TryGreen | dockerpilotv2.py:554-587 | green runs on the temporary port; it is removed when unhealthy unless the answer is "y" |
| BlueGreenV2.Rollout | dockerpilotv2.py:554-628 | success iff green runs, a green probe passes or the operator answers "y", no blue existed and the new blue runs; the final probes are not among the conditions; the table for each exit |
| BlueGreenV2.DeployOnPort | dockerpilotv2.py:545-628 | after the build: a non-numeric port crashes once green is cleared; otherwise success iff green runs on port+1000, a green probe passes or the answer is "y", no blue existed and the new blue runs; each exit's table |
| BlueGreenV2.BlueGreenDeploy | dockerpilotv2.py:497-634 | success iff the build, a numeric port, green's run, a passed green probe or a "y", no earlier blue and the new blue's run: the final probe never decides; each exit's table; a non-numeric port crashes after green is cleared |

## Left out

- **Image building** (`_build_image_enhanced`, `client.images.build`). It is the `built` flag of each world, false when the Dockerfile is missing or the build raises (dockerpilotv3.py:1224-1262).
- **Volumes, networks, build arguments and commands.** These are passed through to the daemon untouched.
- **Sleeps, timeouts and wall-clock budgets.** The probe budget is the number of retries. The soak budget is the length of the outcome sequence. The health check counts its pauses instead of sleeping.
- **Logging, console rendering, the CLI parser, banners and signal handlers.**
- **Dashboard averages and maxima, alert rules and the metrics file.**
- **File I/O.** The history file is a sequence plus a `saved` flag that says whether it could be written. JSON encoding is not modelled.
- **Timestamps.** ISO timestamps are integers, so their order is the order of the instants. `id[:12]` and the rendering of records are not modelled.
- **Uncaught exceptions.** `TestsCrashed`, `NoCanaryPort`, `PortCrashed`, `PortInputCrashed` and `RemoveCrashed` are exits that stand for exceptions the source does not catch. `NoFinalPort` is the `IndexError` at dockerpilotv3.py:1064, which the surrounding `try` turns into a failed deployment.
- **The v2 `health_check`** (dockerpilotv2.py:400-420) follows the same logic as the v3 health check and is modelled by `Prober.HealthCheck`.
- **`_wait_for_container_status`, `deploy_from_config`, `create_deployment_config`, `_run_pre_promotion_checks` and `_run_post_promotion_validation`.** These are not modelled. `Config.Promote` models only the rewrite of the deployment section, and `Config.PromotionUsesBlueGreen` the choice of strategy.
- Python's `int()` and `float()` extras are not modelled. These are underscores, non-ASCII digits, exponents, "inf" and "nan". The decimal values of `float()` are exact rationals, not binary doubles.
- Config.MemoryBytes: the contract states only the "not given" case; the unit conversions are stated by `Config.MemoryUnits` and `Config.MemorySuffixIgnored`.
- BlueGreen.BlueGreenDeploy, Canary.CanaryDeploy: v3 host ports are text (`port_mapping: Dict[str, str]`), but the model's are integers, so the `ValueError` of `int(host_port)` at dockerpilotv3.py:992 (after the target slot is cleared) and at dockerpilotv3.py:1125 has no exit.
- Text.Lower: lowers ASCII letters only; no other character lowers to the letters the pilot compares against ("y", "g", "m"), but other non-ASCII text is kept as is.
- **The daemon's own reading of port text.** The v2 quick deploy passes the host half as text. The daemon is taken to accept exactly the decimal numbers.
- **test1.py and wakeuplights.py** are not part of this model.

## Findings

| source | as written | input that shows it | evidently intended | confidence | as-written member | corrected member |
|---|---|---|---|---|---|---|
| dockerpilotv2.py:589-618 | the running blue is only stopped before a new container is run under the blue name, and is removed only afterwards | any second deployment: `<svc>-blue` exists, so `containers.run(name=blue_name)` meets a name conflict; green is already removed and blue is stopped | stop and remove the old blue before running the new one | not executed | BlueGreenV2.Switch | BlueGreenV2.SwitchCorrected |
| dockerpilotv3.py:861-865 | the existing container is retired only when its status is "running" | an existing container in state "exited": the rename to `container_name` fails, and the new version keeps its temporary name | retire the existing container whatever its state | not executed | Rolling.Switch | Rolling.SwitchCorrected |
| dockerpilotv3.py:2358-2368 | memory limits "512Mi", "1Gi" and "2Gi" | promoting to any environment: the text ends in 'i', so `int("512mi")` raises and no memory limit is set | "512m", "1g" and "2g", which the conversion understands | not executed | Config.PromotionMemoryDropped | Config.PromotionMemory |
| dockerpilotv3.py:395-409 | after the user confirms removal of a running container, `remove(force=force)` is still called with `force=False` | a running container, `force=False`, answer "yes": the daemon refuses the removal | a confirmed removal is a forced one | not executed | Operations.ConfirmedRemovalRefused | Operations.RemoveContainerConfirmed |

=== FILE: bluegreen.dfy ===
/**
 * `_blue_green_deploy_enhanced`: two slots, `<name>_blue` and
 * `<name>_green`. The new version is tried in the slot that is not live, on
 * host ports shifted by 1000, then re-created there on the real ports; the
 * previously live slot is retired only after that final container answers.
 */
module BlueGreen {
  import opened Wrappers
  import opened Text
  import opened Config
  import opened Docker
  import opened Prober
  import opened Ledger
  import opened Deployment

  datatype Slot = Blue | Green

  function SlotName(service: string, slot: Slot): string
  {
    service + (if slot == Blue then "_blue" else "_green")
  }

  lemma SlotNamesDiffer(service: string)
    ensures SlotName(service, Blue) != SlotName(service, Green)
  {
    assert SlotName(service, Blue)[|service| + 1] != SlotName(service, Green)[|service| + 1];
  }

  predicate RunningIn(cs: map<string, Container>, name: string)
  {
    name in cs && cs[name].status == Running
  }

  /** The live slot: blue when it runs, otherwise green when it runs, otherwise none. */
  function ActiveSlot(cs: map<string, Container>, service: string): (a: Option<Slot>)
    ensures a == Some(Blue) <==> RunningIn(cs, SlotName(service, Blue))
    ensures a == Some(Green) <==> !RunningIn(cs, SlotName(service, Blue)) && RunningIn(cs, SlotName(service, Green))
    ensures a.Some? ==> RunningIn(cs, SlotName(service, a.value))
  {
    if RunningIn(cs, SlotName(service, Blue)) then Some(Blue)
    else if RunningIn(cs, SlotName(service, Green)) then Some(Green)
    else None
  }

  /** The slot the new version goes to: green when blue is live, blue otherwise; never the live slot. */
  function TargetSlot(active: Option<Slot>): (t: Slot)
    ensures active.Some? ==> t != active.value
    ensures active != Some(Blue) ==> t == Blue
  {
    if active == Some(Blue) then Green else Blue
  }

  /** The container name the new version is deployed under. */
  function TargetName(cs: map<string, Container>, service: string): string
  {
    SlotName(service, TargetSlot(ActiveSlot(cs, service)))
  }

  /**
   * What one blue-green deployment meets: the build, the daemon's answers
   * to the create and the start of the two runs, the probes of the trial and of the final container,
   * the testing settings and the endpoints' answers, the clock, the file.
   */
  datatype BlueGreenWorld = BlueGreenWorld(
    built: bool,
    trialCreateAccepted: bool,
    trialAccepted: bool,
    trialRespond: nat -> Probe,
    testing: Option<TestingSettings>,
    answer: string -> Probe,
    finalCreateAccepted: bool,
    finalAccepted: bool,
    finalRespond: nat -> Probe,
    clock: Clock,
    saved: bool)

  /**
   * Where a blue-green deployment stopped. `TestsCrashed` is the one exit by
   * exception: parallel tests with no ports read a port that was never set.
   */
  datatype BlueGreenExit =
    | BuildFailed | TrialRunFailed | TrialUnhealthy | TestsFailed | TestsCrashed
    | FinalRunFailed | NoFinalPort | FinalUnhealthy | Deployed

  const TrialOffset := 1000
  const FinalRetries := 5

  function BlueGreenId(clock: Clock): string
  {
    "bg_deploy_" + NatToString(clock.started)
  }

  function TrialSpec(config: DeploymentConfig): Spec
  {
    SpecWith(config, ShiftPorts(config.portMapping, TrialOffset), config.environment)
  }

  /**
   * Phase 4: with ports published, health-check the trial on its first
   * shifted port, then run the parallel tests when they are switched on. A
   * trial that fails either is stopped and removed; parallel tests without
   * ports crash on the port that was never set.
   */
  method CheckTrial(engine: Engine, config: DeploymentConfig, target: string, w: BlueGreenWorld) returns (exit: Option<BlueGreenExit>)
    requires target in engine.containers
    modifies engine
    ensures exit in {None, Some(TrialUnhealthy), Some(TestsFailed), Some(TestsCrashed)}
    ensures exit == Some(TrialUnhealthy) <==>
              config.portMapping != [] && forall i: nat :: i < config.healthRetries ==> !Healthy(w.trialRespond(i))
    ensures exit == Some(TestsCrashed) <==>
              ShouldRunParallelTests(w.testing) && config.portMapping == []
    ensures exit == Some(TestsFailed) ==>
              ShouldRunParallelTests(w.testing) && exists i :: 0 <= i < |TestEndpoints(w.testing)| && !Healthy(w.answer(TestEndpoints(w.testing)[i]))
    ensures exit == None ==>
              (config.portMapping == [] || exists i: nat :: i < config.healthRetries && Healthy(w.trialRespond(i))) &&
              (ShouldRunParallelTests(w.testing) ==>
                 forall i :: 0 <= i < |TestEndpoints(w.testing)| ==> Healthy(w.answer(TestEndpoints(w.testing)[i])))
    ensures engine.containers == if exit in {Some(TrialUnhealthy), Some(TestsFailed)} then old(engine.containers) - {target} else old(engine.containers)
  {
    if config.portMapping != [] {
      var healthy, attempts, pauses := HealthCheck(w.trialRespond, config.healthRetries);
      if !healthy {
        var _ := engine.StopAndRemove(target);
        return Some(TrialUnhealthy);
      }
    }
    if ShouldRunParallelTests(w.testing) {
      if config.portMapping == [] {
        return Some(TestsCrashed);
      }
      var passed, requests := RunParallelTests(TestResponses(TestEndpoints(w.testing), w.answer));
      if !passed {
        var _ := engine.StopAndRemove(target);
        return Some(TestsFailed);
      }
    }
    return None;
  }

  /**
   * Phases 3 and 4: clear the target slot, run the trial there on the
   * shifted ports and check it. Nothing but the target slot changes.
   */
  method Trial(engine: Engine, config: DeploymentConfig, target: string, w: BlueGreenWorld) returns (exit: Option<BlueGreenExit>)
    modifies engine
    ensures exit in {None, Some(TrialRunFailed), Some(TrialUnhealthy), Some(TestsFailed), Some(TestsCrashed)}
    ensures exit == Some(TrialRunFailed) <==>
              !(w.trialCreateAccepted && w.trialAccepted && PortsFree(old(engine.containers) - {target}, target, TrialSpec(config).ports))
    ensures exit == Some(TrialRunFailed) ==>
              engine.containers == if w.trialCreateAccepted then (old(engine.containers) - {target})[target := Container(TrialSpec(config), Created)]
                                   else old(engine.containers) - {target}
    ensures exit in {Some(TrialUnhealthy), Some(TestsFailed)} ==> engine.containers == old(engine.containers) - {target}
    ensures exit == Some(TrialUnhealthy) ==> config.portMapping != [] && forall i: nat :: i < config.healthRetries ==> !Healthy(w.trialRespond(i))
    ensures exit == Some(TestsFailed) ==>
              ShouldRunParallelTests(w.testing) && exists i :: 0 <= i < |TestEndpoints(w.testing)| && !Healthy(w.answer(TestEndpoints(w.testing)[i]))
    ensures exit == Some(TestsCrashed) ==> ShouldRunParallelTests(w.testing) && config.portMapping == []
    ensures exit in {None, Some(TestsCrashed)} ==>
              engine.containers == (old(engine.containers) - {target})[target := Container(TrialSpec(config), Running)]
    ensures exit == None ==>
              (config.portMapping == [] || exists i: nat :: i < config.healthRetries && Healthy(w.trialRespond(i))) &&
              (ShouldRunParallelTests(w.testing) ==>
                 forall i :: 0 <= i < |TestEndpoints(w.testing)| ==> Healthy(w.answer(TestEndpoints(w.testing)[i])))
  {
    ghost var before := engine.containers;
    var running := ClearAndRun(engine, target, TrialSpec(config), w.trialCreateAccepted, w.trialAccepted);
    if !running {
      return Some(TrialRunFailed);
    }
    exit := CheckTrial(engine, config, target, w);
    if exit in {Some(TrialUnhealthy), Some(TestsFailed)} {
      assert (before - {target})[target := Container(TrialSpec(config), Running)] - {target} == before - {target};
    }
  }

  /**
   * Phase 5: replace the trial by the final container on the configured
   * ports, probe it five times, and only then retire the live slot.
   */
  method SwitchTraffic(engine: Engine, config: DeploymentConfig, target: string, active: Option<string>, w: BlueGreenWorld)
    returns (exit: Option<BlueGreenExit>)
    requires active.Some? ==> active.value != target
    modifies engine
    ensures exit in {None, Some(FinalRunFailed), Some(NoFinalPort), Some(FinalUnhealthy)}
    ensures exit == Some(FinalRunFailed) <==>
              !(w.finalCreateAccepted && w.finalAccepted && PortsFree(old(engine.containers) - {target}, target, config.portMapping))
    ensures exit == Some(FinalRunFailed) ==>
              engine.containers == if w.finalCreateAccepted then (old(engine.containers) - {target})[target := Container(ConfiguredSpec(config), Created)]
                                   else old(engine.containers) - {target}
    ensures exit == Some(NoFinalPort) ==>
              config.portMapping == [] &&
              engine.containers == (old(engine.containers) - {target})[target := Container(ConfiguredSpec(config), Running)]
    ensures exit == Some(FinalUnhealthy) ==>
              (forall i: nat :: i < FinalRetries ==> !Healthy(w.finalRespond(i))) &&
              engine.containers == (old(engine.containers) - {target})[target := Container(ConfiguredSpec(config), Running)]
    ensures exit == None ==>
              config.portMapping != [] && PortsFree(old(engine.containers) - {target}, target, config.portMapping) &&
              (exists i: nat :: i < FinalRetries && Healthy(w.finalRespond(i))) &&
              engine.containers == (old(engine.containers) - {target} - (if active.Some? then {active.value} else {}))
                                     [target := Container(ConfiguredSpec(config), Running)]
  {
    var running := ClearAndRun(engine, target, ConfiguredSpec(config), w.finalCreateAccepted, w.finalAccepted);
    if !running {
      return Some(FinalRunFailed);
    }
    if config.portMapping == [] {
      return Some(NoFinalPort);
    }
    var healthy, attempts, pauses := HealthCheck(w.finalRespond, FinalRetries);
    if !healthy {
      return Some(FinalUnhealthy);
    }
    if active.Some? {
      ghost var live := engine.containers;
      var _ := engine.StopAndRemove(active.value);
      assert engine.containers == live - {active.value};
    }
    return None;
  }

  /**
   * Phases 3 to 5 after a successful build: the trial in the target slot,
   * then the final container on the configured ports and the retirement
   * of the live slot.
   */
  method DeployToTarget(engine: Engine, config: DeploymentConfig, w: BlueGreenWorld) returns (exit: Option<BlueGreenExit>)
    modifies engine
    ensures exit != Some(BuildFailed) && exit != Some(Deployed)
    ensures var target := TargetName(old(engine.containers), config.containerName);
            exit == Some(TrialRunFailed) <==>
              !(w.trialCreateAccepted && w.trialAccepted && PortsFree(old(engine.containers) - {target}, target, TrialSpec(config).ports))
    ensures var target := TargetName(old(engine.containers), config.containerName);
            exit == Some(TrialRunFailed) ==>
              engine.containers == if w.trialCreateAccepted then (old(engine.containers) - {target})[target := Container(TrialSpec(config), Created)]
                                   else old(engine.containers) - {target}
    ensures exit in {Some(TrialUnhealthy), Some(TestsFailed)} ==>
              engine.containers == old(engine.containers) - {TargetName(old(engine.containers), config.containerName)}
    ensures exit == Some(TrialUnhealthy) ==> config.portMapping != [] && forall i: nat :: i < config.healthRetries ==> !Healthy(w.trialRespond(i))
    ensures exit == Some(TestsFailed) ==>
              ShouldRunParallelTests(w.testing) && exists i :: 0 <= i < |TestEndpoints(w.testing)| && !Healthy(w.answer(TestEndpoints(w.testing)[i]))
    ensures exit == Some(TestsCrashed) ==>
              ShouldRunParallelTests(w.testing) && config.portMapping == [] &&
              engine.containers == (old(engine.containers) - {TargetName(old(engine.containers), config.containerName)})
                                     [TargetName(old(engine.containers), config.containerName) := Container(TrialSpec(config), Running)]
    ensures var target := TargetName(old(engine.containers), config.containerName);
            exit == Some(FinalRunFailed) ==>
              !(w.finalCreateAccepted && w.finalAccepted && PortsFree(old(engine.containers) - {target}, target, config.portMapping)) &&
              engine.containers == if w.finalCreateAccepted then (old(engine.containers) - {target})[target := Container(ConfiguredSpec(config), Created)]
                                   else old(engine.containers) - {target}
    ensures exit in {Some(NoFinalPort), Some(FinalUnhealthy)} ==>
              engine.containers == (old(engine.containers) - {TargetName(old(engine.containers), config.containerName)})
                                     [TargetName(old(engine.containers), config.containerName) := Container(ConfiguredSpec(config), Running)]
    ensures exit == Some(FinalUnhealthy) ==> forall i: nat :: i < FinalRetries ==> !Healthy(w.finalRespond(i))
    ensures var active := ActiveSlot(old(engine.containers), config.containerName);
            active.Some? && exit.Some? ==>
              var live := SlotName(config.containerName, active.value);
              live in engine.containers && engine.containers[live] == old(engine.containers)[live]
    ensures exit == None ==>
              (exists i: nat :: i < config.healthRetries && Healthy(w.trialRespond(i))) &&
              (ShouldRunParallelTests(w.testing) ==>
                 forall i :: 0 <= i < |TestEndpoints(w.testing)| ==> Healthy(w.answer(TestEndpoints(w.testing)[i]))) &&
              (exists i: nat :: i < FinalRetries && Healthy(w.finalRespond(i)))
    ensures var active := ActiveSlot(old(engine.containers), config.containerName);
            var target := SlotName(config.containerName, TargetSlot(active));
            exit == None ==>
              config.portMapping != [] &&
              engine.containers == (old(engine.containers) - {target} -
                                     (if active.Some? then {SlotName(config.containerName, active.value)} else {}))
                                   [target := Container(ConfiguredSpec(config), Running)]
    ensures var active := ActiveSlot(old(engine.containers), config.containerName);
            exit == None && active.Some? ==>
              HostPorts(old(engine.containers)[SlotName(config.containerName, active.value)].spec.ports) !! HostPorts(config.portMapping)
  {
    var service := config.containerName;
    var active := ActiveSlot(engine.containers, service);
    var target := TargetSlot(active);
    var targetName := SlotName(service, target);
    var activeName := if active.Some? then Some(SlotName(service, active.value)) else None;
    SlotNamesDiffer(service);
    ghost var before := engine.containers;
    assert targetName == TargetName(before, service);
    exit := Trial(engine, config, targetName, w);
    if exit.Some? {
      if active.Some? {
        assert SlotName(service, active.value) != targetName;
      }
      return;
    }
    ghost var tried := engine.containers;
    exit := SwitchTraffic(engine, config, targetName, activeName, w);
    assert tried - {targetName} == before - {targetName};
    if exit == None && active.Some? {
      var live := SlotName(service, active.value);
      assert live in before - {targetName} && Active(before[live].status);
    }
  }

  /**
   * `_blue_green_deploy_enhanced`. The live slot is never touched unless
   * the whole deployment succeeds; on success the trial passed its probe
   * and the tests, the final container passed its probe, the target slot
   * runs the new version on the configured ports and the previously live
   * slot is gone.
   */
  method BlueGreenDeploy(engine: Engine, ledger: Ledger, config: DeploymentConfig, w: BlueGreenWorld)
    returns (ok: bool, exit: BlueGreenExit)
    modifies engine, ledger
    ensures ledger.Valid() <==> old(ledger.Valid()) || (ok && w.saved)
    ensures ok <==> exit == Deployed
    ensures ok ==> ledger.history == old(ledger.history) + [SuccessRecord(BlueGreenId(w.clock), BlueGreen, config, w.clock)]
    ensures ok ==> ledger.file == if w.saved then Newest(old(ledger.file) + [SuccessRecord(BlueGreenId(w.clock), BlueGreen, config, w.clock)], FileCapacity) else old(ledger.file)
    ensures !ok ==> ledger.history == old(ledger.history) && ledger.file == old(ledger.file)
    ensures exit == BuildFailed <==> !w.built
    ensures exit == BuildFailed ==> engine.containers == old(engine.containers)
    ensures var target := TargetName(old(engine.containers), config.containerName);
            exit == TrialRunFailed <==>
              w.built && !(w.trialCreateAccepted && w.trialAccepted && PortsFree(old(engine.containers) - {target}, target, TrialSpec(config).ports))
    ensures var target := TargetName(old(engine.containers), config.containerName);
            exit == TrialRunFailed ==>
              engine.containers == if w.trialCreateAccepted then (old(engine.containers) - {target})[target := Container(TrialSpec(config), Created)]
                                   else old(engine.containers) - {target}
    ensures exit in {TrialUnhealthy, TestsFailed} ==>
              engine.containers == old(engine.containers) - {TargetName(old(engine.containers), config.containerName)}
    ensures exit == TrialUnhealthy ==> config.portMapping != [] && forall i: nat :: i < config.healthRetries ==> !Healthy(w.trialRespond(i))
    ensures exit == TestsFailed ==>
              ShouldRunParallelTests(w.testing) && exists i :: 0 <= i < |TestEndpoints(w.testing)| && !Healthy(w.answer(TestEndpoints(w.testing)[i]))
    ensures exit == TestsCrashed ==>
              ShouldRunParallelTests(w.testing) && config.portMapping == [] &&
              engine.containers == (old(engine.containers) - {TargetName(old(engine.containers), config.containerName)})
                                     [TargetName(old(engine.containers), config.containerName) := Container(TrialSpec(config), Running)]
    ensures var target := TargetName(old(engine.containers), config.containerName);
            exit == FinalRunFailed ==>
              !(w.finalCreateAccepted && w.finalAccepted && PortsFree(old(engine.containers) - {target}, target, config.portMapping)) &&
              engine.containers == if w.finalCreateAccepted then (old(engine.containers) - {target})[target := Container(ConfiguredSpec(config), Created)]
                                   else old(engine.containers) - {target}
    ensures exit in {NoFinalPort, FinalUnhealthy} ==>
              engine.containers == (old(engine.containers) - {TargetName(old(engine.containers), config.containerName)})
                                     [TargetName(old(engine.containers), config.containerName) := Container(ConfiguredSpec(config), Running)]
    ensures exit == FinalUnhealthy ==> forall i: nat :: i < FinalRetries ==> !Healthy(w.finalRespond(i))
    ensures var active := ActiveSlot(old(engine.containers), config.containerName);
            active.Some? && !ok ==>
              var live := SlotName(config.containerName, active.value);
              live in engine.containers && engine.containers[live] == old(engine.containers)[live]
    ensures ok ==>
              (exists i: nat :: i < config.healthRetries && Healthy(w.trialRespond(i))) &&
              (ShouldRunParallelTests(w.testing) ==>
                 forall i :: 0 <= i < |TestEndpoints(w.testing)| ==> Healthy(w.answer(TestEndpoints(w.testing)[i]))) &&
              (exists i: nat :: i < FinalRetries && Healthy(w.finalRespond(i)))
    ensures var active := ActiveSlot(old(engine.containers), config.containerName);
            var target := SlotName(config.containerName, TargetSlot(active));
            ok ==> config.portMapping != [] &&
                   engine.containers == (old(engine.containers) - {target} -
                                          (if active.Some? then {SlotName(config.containerName, active.value)} else {}))
                                        [target := Container(ConfiguredSpec(config), Running)]
    ensures var active := ActiveSlot(old(engine.containers), config.containerName);
            ok && active.Some? ==>
              HostPorts(old(engine.containers)[SlotName(config.containerName, active.value)].spec.ports) !! HostPorts(config.portMapping)
  {
    if !w.built {
      return false, BuildFailed;
    }
    var deployed := DeployToTarget(engine, config, w);
    if deployed.Some? {
      return false, deployed.value;
    }
    ledger.Record(SuccessRecord(BlueGreenId(w.clock), BlueGreen, config, w.clock), w.saved);
    return true, Deployed;
  }
}

=== FILE: bluegreen_v2.dfy ===
/**
 * The v2 script's `blue_green_deploy`: the new version is started as
 * `<service>-green` on the port plus 1000, probed, and then started again
 * as `<service>-blue` on the port itself.
 */
module BlueGreenV2 {
  import opened Wrappers
  import opened Text
  import opened Config
  import opened Docker
  import opened Prober
  import opened Menu

  function BlueName(service: string): string
  {
    service + "-blue"
  }

  function GreenName(service: string): string
  {
    service + "-green"
  }

  lemma NamesDiffer(service: string)
    ensures BlueName(service) != GreenName(service)
  {
    assert BlueName(service)[|service| + 1] != GreenName(service)[|service| + 1];
  }

  const TempOffset := 1000
  const GreenRetries := 10
  const FinalRetries := 5

  /** The v2 containers: a single published port, no environment, no limits, restart policy "unless-stopped". */
  function SlotSpec(image: string, containerPort: string, hostPort: int): Spec
  {
    Spec(image, [PortBinding(containerPort, hostPort)], map[], "unless-stopped", Limits(None, None))
  }

  /**
   * What one v2 blue-green deployment meets: the build, the daemon's answers
   * to the create and the start of the two runs, the probes of green, the operator's answer when green
   * is unhealthy, and the final probes.
   */
  datatype V2World = V2World(
    built: bool,
    greenCreateAccepted: bool,
    greenAccepted: bool,
    greenRespond: nat -> Probe,
    answer: string,
    blueCreateAccepted: bool,
    blueAccepted: bool,
    finalRespond: nat -> Probe)

  /** Where a v2 blue-green deployment stopped. `PortCrashed` ends the script: the port is not a number. */
  datatype V2Exit = BuildFailed | PortCrashed | GreenRunFailed | RolledBack | SwitchFailed | Deployed

  /** The operator goes on with an unhealthy green only by answering "y" or "Y". */
  predicate Continues(answer: string)
  {
    Lower(answer) == "y"
  }

  /**
   * The switch as written. The running blue is only stopped, never
   * removed, before a new container is run under its name, so the run
   * meets a name conflict whenever any blue container exists: the switch
   * can only succeed on a first deployment, and a running blue is left
   * stopped with green gone.
   */
  method Switch(engine: Engine, blue: string, green: string, current: bool, spec: Spec, createAccepted: bool, accepted: bool) returns (ok: bool)
    requires blue != green
    requires current <==> blue in engine.containers && engine.containers[blue].status == Running
    modifies engine
    ensures ok <==> blue !in old(engine.containers) && createAccepted && accepted && PortsFree(old(engine.containers) - {green}, blue, spec.ports)
    ensures blue in old(engine.containers) ==>
              engine.containers == (old(engine.containers) - {green})
                                     [blue := if current then Stopped(old(engine.containers)[blue]) else old(engine.containers)[blue]]
    ensures blue !in old(engine.containers) ==>
              engine.containers == if createAccepted then (old(engine.containers) - {green})[blue := Container(spec, if ok then Running else Created)]
                                   else old(engine.containers) - {green}
    ensures current ==> !ok && engine.containers[blue].status == Exited
  {
    if current {
      var _ := engine.Stop(blue);
    }
    ghost var stopped := engine.containers;
    var _ := engine.StopAndRemove(green);
    if blue in old(engine.containers) {
      assert blue in engine.containers;
    } else {
      assert stopped - {green} == old(engine.containers) - {green};
    }
    ok := engine.Run(blue, spec, createAccepted, accepted);
  }

  /**
   * The switch as intended: the old blue is stopped and removed before the
   * new blue is run, so only the daemon and the other containers' ports can
   * stop it, and the name is never in the way.
   */
  method SwitchCorrected(engine: Engine, blue: string, green: string, spec: Spec, createAccepted: bool, accepted: bool) returns (ok: bool)
    requires blue != green
    modifies engine
    ensures ok <==> createAccepted && accepted && PortsFree(old(engine.containers) - {green, blue}, blue, spec.ports)
    ensures engine.containers == if createAccepted then (old(engine.containers) - {green, blue})[blue := Container(spec, if ok then Running else Created)]
                                 else old(engine.containers) - {green, blue}
  {
    var _ := engine.StopAndRemove(blue);
    var _ := engine.StopAndRemove(green);
    assert engine.containers == old(engine.containers) - {green, blue};
    ok := engine.Run(blue, spec, createAccepted, accepted);
  }

  /**
   * Steps 4 and 5: run green on the temporary port and probe it ten times.
   * An unhealthy green is kept only when the operator answers "y";
   * otherwise it is stopped and removed.
   */
  method TryGreen(engine: Engine, green: string, spec: Spec, w: V2World) returns (exit: Option<V2Exit>)
    requires green !in engine.containers
    modifies engine
    ensures exit in {None, Some(GreenRunFailed), Some(RolledBack)}
    ensures exit == Some(GreenRunFailed) <==> !(w.greenCreateAccepted && w.greenAccepted && PortsFree(old(engine.containers), green, spec.ports))
    ensures exit == Some(GreenRunFailed) ==>
              engine.containers == if w.greenCreateAccepted then old(engine.containers)[green := Container(spec, Created)] else old(engine.containers)
    ensures exit == Some(RolledBack) ==>
              (forall i: nat :: i < GreenRetries ==> !Healthy(w.greenRespond(i))) && !Continues(w.answer) &&
              engine.containers == old(engine.containers)
    ensures exit == None ==>
              ((exists i: nat :: i < GreenRetries && Healthy(w.greenRespond(i))) || Continues(w.answer)) &&
              engine.containers == old(engine.containers)[green := Container(spec, Running)]
  {
    var running := engine.Run(green, spec, w.greenCreateAccepted, w.greenAccepted);
    if !running {
      return Some(GreenRunFailed);
    }
    var healthy, attempts, pauses := HealthCheck(w.greenRespond, GreenRetries);
    if !healthy && !Continues(w.answer) {
      var _ := engine.StopAndRemove(green);
      assert engine.containers == old(engine.containers);
      return Some(RolledBack);
    }
    return None;
  }

  /**
   * Steps 4 to 6 once green's slot is clear: try green, then switch. The
   * final probes are made but never consulted: the outcome is decided by
   * green's run and probes, the operator's answer and the run of blue.
   */
  method Rollout(engine: Engine, blue: string, green: string, current: bool, trial: Spec, final: Spec, w: V2World)
    returns (exit: V2Exit)
    requires blue != green && green !in engine.containers
    requires current <==> blue in engine.containers && engine.containers[blue].status == Running
    modifies engine
    ensures exit in {GreenRunFailed, RolledBack, SwitchFailed, Deployed}
    ensures exit == Deployed <==>
              w.greenCreateAccepted && w.greenAccepted && PortsFree(old(engine.containers), green, trial.ports) &&
              ((exists i: nat :: i < GreenRetries && Healthy(w.greenRespond(i))) || Continues(w.answer)) &&
              blue !in old(engine.containers) && w.blueCreateAccepted && w.blueAccepted && PortsFree(old(engine.containers), blue, final.ports)
    ensures exit == GreenRunFailed <==> !(w.greenCreateAccepted && w.greenAccepted && PortsFree(old(engine.containers), green, trial.ports))
    ensures exit == GreenRunFailed ==>
              engine.containers == if w.greenCreateAccepted then old(engine.containers)[green := Container(trial, Created)] else old(engine.containers)
    ensures exit == RolledBack ==>
              (forall i: nat :: i < GreenRetries ==> !Healthy(w.greenRespond(i))) && !Continues(w.answer) &&
              engine.containers == old(engine.containers)
    ensures exit == SwitchFailed && blue in old(engine.containers) ==>
              engine.containers == old(engine.containers)[blue := if current then Stopped(old(engine.containers)[blue]) else old(engine.containers)[blue]]
    ensures exit == Deployed ==>
              blue !in old(engine.containers) && engine.containers == old(engine.containers)[blue := Container(final, Running)]
  {
    var tried := TryGreen(engine, green, trial, w);
    if tried.Some? {
      return tried.value;
    }
    var ok := Switch(engine, blue, green, current, final, w.blueCreateAccepted, w.blueAccepted);
    assert old(engine.containers)[green := Container(trial, Running)] - {green} == old(engine.containers);
    if !ok {
      return SwitchFailed;
    }
    var healthy, attempts, pauses := HealthCheck(w.finalRespond, FinalRetries);
    return Deployed;
  }

  /**
   * Everything after a successful build: the green slot is cleared, the
   * port answer is read, and the rollout runs on it.
   */
  method DeployOnPort(engine: Engine, image: string, service: string, port: string, w: V2World)
    returns (exit: V2Exit)
    modifies engine
    ensures exit in {PortCrashed, GreenRunFailed, RolledBack, SwitchFailed, Deployed}
    ensures exit == PortCrashed <==> ParseInt(port).None?
    ensures var green := GreenName(service);
            exit in {PortCrashed, RolledBack} ==> engine.containers == old(engine.containers) - {green}
    ensures exit == RolledBack ==> (forall i: nat :: i < GreenRetries ==> !Healthy(w.greenRespond(i))) && !Continues(w.answer)
    ensures var blue := BlueName(service);
            exit == SwitchFailed && blue in old(engine.containers) ==>
              engine.containers == (old(engine.containers) - {GreenName(service)})
                                     [blue := if old(engine.containers)[blue].status == Running then Stopped(old(engine.containers)[blue]) else old(engine.containers)[blue]]
    ensures var rest := old(engine.containers) - {GreenName(service)};
            exit == Deployed <==>
              ParseInt(port).Some? &&
              w.greenCreateAccepted && w.greenAccepted && PortsFree(rest, GreenName(service), [PortBinding(port, ParseInt(port).value + TempOffset)]) &&
              ((exists i: nat :: i < GreenRetries && Healthy(w.greenRespond(i))) || Continues(w.answer)) &&
              BlueName(service) !in old(engine.containers) && w.blueCreateAccepted && w.blueAccepted &&
              PortsFree(rest, BlueName(service), [PortBinding(port, ParseInt(port).value)])
    ensures var rest := old(engine.containers) - {GreenName(service)};
            exit == GreenRunFailed ==>
              ParseInt(port).Some? &&
              !(w.greenCreateAccepted && w.greenAccepted && PortsFree(rest, GreenName(service), [PortBinding(port, ParseInt(port).value + TempOffset)])) &&
              engine.containers == if w.greenCreateAccepted
                                   then rest[GreenName(service) := Container(SlotSpec(image, port, ParseInt(port).value + TempOffset), Created)]
                                   else rest
    ensures exit == Deployed ==>
              BlueName(service) !in old(engine.containers) && ParseInt(port).Some? &&
              engine.containers == (old(engine.containers) - {GreenName(service)})
                                     [BlueName(service) := Container(SlotSpec(image, port, ParseInt(port).value), Running)]
  {
    var blue, green := BlueName(service), GreenName(service);
    NamesDiffer(service);
    var current := blue in engine.containers && engine.containers[blue].status == Running;
    var _ := engine.StopAndRemove(green);
    var parsed := ParseInt(port);
    if parsed.None? {
      return PortCrashed;
    }
    var p := parsed.value;
    exit := Rollout(engine, blue, green, current, SlotSpec(image, port, p + TempOffset), SlotSpec(image, port, p), w);
  }

  /**
   * `blue_green_deploy` with the answers to its three prompts. It returns
   * true only when no blue container existed beforehand, whatever the final
   * probes say; with a running blue it either stops before the switch or
   * leaves the service with no running container.
   */
  method BlueGreenDeploy(engine: Engine, imageAnswer: string, serviceAnswer: string, portAnswer: string, w: V2World)
    returns (ok: bool, exit: V2Exit)
    modifies engine
    ensures ok <==> exit == Deployed
    ensures exit == BuildFailed <==> !w.built
    ensures exit == BuildFailed ==> engine.containers == old(engine.containers)
    ensures exit == PortCrashed <==> w.built && ParseInt(OrDefault(portAnswer, "8080")).None?
    ensures var green := GreenName(OrDefault(serviceAnswer, "myapp"));
            exit in {PortCrashed, RolledBack} ==> engine.containers == old(engine.containers) - {green}
    ensures exit == RolledBack ==> (forall i: nat :: i < GreenRetries ==> !Healthy(w.greenRespond(i))) && !Continues(w.answer)
    ensures var service := OrDefault(serviceAnswer, "myapp");
            var blue := BlueName(service);
            exit == SwitchFailed && blue in old(engine.containers) ==>
              engine.containers == (old(engine.containers) - {GreenName(service)})
                                     [blue := if old(engine.containers)[blue].status == Running then Stopped(old(engine.containers)[blue]) else old(engine.containers)[blue]]
    ensures var service := OrDefault(serviceAnswer, "myapp");
            var port := OrDefault(portAnswer, "8080");
            var rest := old(engine.containers) - {GreenName(service)};
            ok <==>
              w.built && ParseInt(port).Some? &&
              w.greenCreateAccepted && w.greenAccepted && PortsFree(rest, GreenName(service), [PortBinding(port, ParseInt(port).value + TempOffset)]) &&
              ((exists i: nat :: i < GreenRetries && Healthy(w.greenRespond(i))) || Continues(w.answer)) &&
              BlueName(service) !in old(engine.containers) && w.blueCreateAccepted && w.blueAccepted &&
              PortsFree(rest, BlueName(service), [PortBinding(port, ParseInt(port).value)])
    ensures var service := OrDefault(serviceAnswer, "myapp");
            var port := OrDefault(portAnswer, "8080");
            var rest := old(engine.containers) - {GreenName(service)};
            exit == GreenRunFailed ==>
              ParseInt(port).Some? &&
              !(w.greenCreateAccepted && w.greenAccepted && PortsFree(rest, GreenName(service), [PortBinding(port, ParseInt(port).value + TempOffset)])) &&
              engine.containers == if w.greenCreateAccepted
                                   then rest[GreenName(service) := Container(SlotSpec(OrDefault(imageAnswer, "myapp:latest"), port, ParseInt(port).value + TempOffset), Created)]
                                   else rest
    ensures var service := OrDefault(serviceAnswer, "myapp");
            var port := OrDefault(portAnswer, "8080");
            ok ==> BlueName(service) !in old(engine.containers) && ParseInt(port).Some? &&
                   engine.containers == (old(engine.containers) - {GreenName(service)})
                                          [BlueName(service) := Container(SlotSpec(OrDefault(imageAnswer, "myapp:latest"), port, ParseInt(port).value), Running)]
  {
    if !w.built {
      return false, BuildFailed;
    }
    exit := DeployOnPort(engine, OrDefault(imageAnswer, "myapp:latest"), OrDefault(serviceAnswer, "myapp"), OrDefault(portAnswer, "8080"), w);
    ok := exit == Deployed;
  }
}

=== FILE: canary.dfy ===
/**
 * `_canary_deploy`: run the new version beside the service as
 * `<name>_canary`, on host ports shifted by 100 and marked `CANARY=true`,
 * watch its error rate for the soak period, then replace the service
 * container by the new version.
 */
module Canary {
  import opened Wrappers
  import opened Text
  import opened Config
  import opened Docker
  import opened Prober
  import opened Ledger
  import opened Deployment

  /**
   * What one canary deployment meets: the build, the daemon's answers to
   * the create and the start of the two runs, the canary's answers during the soak (one per second of
   * it), the clock and the history file.
   */
  datatype CanaryWorld = CanaryWorld(
    built: bool,
    canaryCreateAccepted: bool,
    canaryAccepted: bool,
    soak: seq<Probe>,
    promoteCreateAccepted: bool,
    promoteAccepted: bool,
    clock: Clock,
    saved: bool)

  /**
   * Where a canary deployment stopped. `NoCanaryPort` is an exit by
   * exception: with no ports there is no canary port to watch.
   */
  datatype CanaryExit = BuildFailed | CanaryRunFailed | NoCanaryPort | CanaryRejected | PromotionFailed | Deployed

  const CanaryOffset := 100

  function CanaryName(service: string): (n: string)
    ensures n != service
  {
    var n := service + "_canary";
    assert |n| > |service|;
    n
  }

  function CanaryId(clock: Clock): string
  {
    "canary_" + NatToString(clock.started)
  }

  /** The canary container: the configured one on shifted ports, with `CANARY` set to "true" on top of the environment. */
  function CanarySpec(config: DeploymentConfig): (s: Spec)
    ensures s.env.Keys == config.environment.Keys + {"CANARY"} && s.env["CANARY"] == "true"
    ensures forall k :: k in config.environment && k != "CANARY" ==> s.env[k] == config.environment[k]
    ensures s.ports == ShiftPorts(config.portMapping, CanaryOffset)
  {
    SpecWith(config, ShiftPorts(config.portMapping, CanaryOffset), config.environment["CANARY" := "true"])
  }

  /**
   * The promotion: the service container and the canary are both stopped
   * and removed, then the new version runs under the service name on the
   * configured ports. When that run is refused the service has no running
   * container left: none at all when the create is refused, a created one
   * when the start is.
   */
  method Promote(engine: Engine, config: DeploymentConfig, createAccepted: bool, accepted: bool) returns (ok: bool)
    modifies engine
    ensures var rest := old(engine.containers) - {config.containerName, CanaryName(config.containerName)};
            ok <==> createAccepted && accepted && PortsFree(rest, config.containerName, config.portMapping)
    ensures var rest := old(engine.containers) - {config.containerName, CanaryName(config.containerName)};
            engine.containers == if createAccepted then rest[config.containerName := Container(ConfiguredSpec(config), if ok then Running else Created)]
                                 else rest
  {
    var _ := engine.StopAndRemove(config.containerName);
    var _ := engine.StopAndRemove(CanaryName(config.containerName));
    assert engine.containers == old(engine.containers) - {config.containerName, CanaryName(config.containerName)};
    ok := engine.Run(config.containerName, ConfiguredSpec(config), createAccepted, accepted);
  }

  /**
   * The canary's trial: clear its name, run it on the shifted ports and
   * watch it for the soak period; a rejected canary is stopped and removed.
   * Nothing but the canary's entry changes.
   */
  method TryCanary(engine: Engine, config: DeploymentConfig, w: CanaryWorld) returns (exit: Option<CanaryExit>)
    modifies engine
    ensures exit in {None, Some(CanaryRunFailed), Some(NoCanaryPort), Some(CanaryRejected)}
    ensures var canary := CanaryName(config.containerName);
            exit == Some(CanaryRunFailed) <==>
              !(w.canaryCreateAccepted && w.canaryAccepted && PortsFree(old(engine.containers) - {canary}, canary, CanarySpec(config).ports))
    ensures var canary := CanaryName(config.containerName);
            exit == Some(CanaryRunFailed) ==>
              engine.containers == if w.canaryCreateAccepted then (old(engine.containers) - {canary})[canary := Container(CanarySpec(config), Created)]
                                   else old(engine.containers) - {canary}
    ensures exit == Some(NoCanaryPort) ==> config.portMapping == []
    ensures exit == Some(CanaryRejected) ==>
              !SoakAccepted(w.soak) && engine.containers == old(engine.containers) - {CanaryName(config.containerName)}
    ensures exit == None ==> SoakAccepted(w.soak) && config.portMapping != []
    ensures exit in {None, Some(NoCanaryPort)} ==>
              engine.containers == (old(engine.containers) - {CanaryName(config.containerName)})
                                     [CanaryName(config.containerName) := Container(CanarySpec(config), Running)]
  {
    var canary := CanaryName(config.containerName);
    var running := ClearAndRun(engine, canary, CanarySpec(config), w.canaryCreateAccepted, w.canaryAccepted);
    if !running {
      return Some(CanaryRunFailed);
    }
    if config.portMapping == [] {
      return Some(NoCanaryPort);
    }
    var accepted, errors, total := MonitorCanary(w.soak);
    if !accepted {
      var _ := engine.StopAndRemove(canary);
      assert engine.containers == old(engine.containers) - {canary};
      return Some(CanaryRejected);
    }
    return None;
  }

  /**
   * `_canary_deploy`. The service container is only touched once the
   * canary has passed its soak; a rejected canary is removed and leaves
   * everything else as it was.
   */
  method CanaryDeploy(engine: Engine, ledger: Ledger, config: DeploymentConfig, w: CanaryWorld)
    returns (ok: bool, exit: CanaryExit)
    modifies engine, ledger
    ensures ledger.Valid() <==> old(ledger.Valid()) || (ok && w.saved)
    ensures ok <==> exit == Deployed
    ensures ok ==> ledger.history == old(ledger.history) + [SuccessRecord(CanaryId(w.clock), Canary, config, w.clock)]
    ensures ok ==> ledger.file == if w.saved then Newest(old(ledger.file) + [SuccessRecord(CanaryId(w.clock), Canary, config, w.clock)], FileCapacity) else old(ledger.file)
    ensures !ok ==> ledger.history == old(ledger.history) && ledger.file == old(ledger.file)
    ensures exit == BuildFailed <==> !w.built
    ensures exit == BuildFailed ==> engine.containers == old(engine.containers)
    ensures var canary := CanaryName(config.containerName);
            exit == CanaryRunFailed <==>
              w.built && !(w.canaryCreateAccepted && w.canaryAccepted && PortsFree(old(engine.containers) - {canary}, canary, CanarySpec(config).ports))
    ensures var canary := CanaryName(config.containerName);
            exit == CanaryRunFailed ==>
              engine.containers == if w.canaryCreateAccepted then (old(engine.containers) - {canary})[canary := Container(CanarySpec(config), Created)]
                                   else old(engine.containers) - {canary}
    ensures exit == NoCanaryPort ==>
              config.portMapping == [] &&
              engine.containers == (old(engine.containers) - {CanaryName(config.containerName)})
                                     [CanaryName(config.containerName) := Container(CanarySpec(config), Running)]
    ensures exit == CanaryRejected ==>
              !SoakAccepted(w.soak) && engine.containers == old(engine.containers) - {CanaryName(config.containerName)}
    ensures var rest := old(engine.containers) - {config.containerName, CanaryName(config.containerName)};
            exit == PromotionFailed ==>
              SoakAccepted(w.soak) &&
              !(w.promoteCreateAccepted && w.promoteAccepted && PortsFree(rest, config.containerName, config.portMapping)) &&
              engine.containers == if w.promoteCreateAccepted then rest[config.containerName := Container(ConfiguredSpec(config), Created)]
                                   else rest
    ensures ok ==>
              SoakAccepted(w.soak) && config.portMapping != [] &&
              engine.containers == (old(engine.containers) - {CanaryName(config.containerName)})
                                     [config.containerName := Container(ConfiguredSpec(config), Running)]
  {
    var service := config.containerName;
    var canary := CanaryName(service);
    if !w.built {
      return false, BuildFailed;
    }
    ghost var before := engine.containers;
    var tried := TryCanary(engine, config, w);
    if tried.Some? {
      return false, tried.value;
    }
    ghost var soaked := engine.containers;
    ok := Promote(engine, config, w.promoteCreateAccepted, w.promoteAccepted);
    assert soaked - {service, canary} == before - {service, canary};
    if !ok {
      return false, PromotionFailed;
    }
    assert (before - {service, canary})[service := Container(ConfiguredSpec(config), Running)]
        == (before - {canary})[service := Container(ConfiguredSpec(config), Running)];
    ledger.Record(SuccessRecord(CanaryId(w.clock), Canary, config, w.clock), w.saved);
    exit := Deployed;
  }
}

=== FILE: config.dfy ===
/**
 * A deployment's configuration: the container it describes, the host ports
 * it publishes, the resource limits handed to the Docker API, and the
 * per-environment settings used when a deployment is promoted.
 */
module Config {
  import opened Wrappers
  import opened Text

  /** One entry of `port_mapping`: container port (such as "80/tcp") to host port. */
  datatype PortBinding = PortBinding(containerPort: string, hostPort: int)

  /**
   * `DeploymentConfig`. The port mapping keeps the order of the
   * dictionary it comes from; volumes, build arguments and the network
   * name are passed through to Docker untouched and are not kept here.
   */
  datatype DeploymentConfig = DeploymentConfig(
    imageTag: string,
    containerName: string,
    portMapping: seq<PortBinding>,
    environment: map<string, string>,
    restartPolicy: string,
    healthEndpoint: string,
    healthTimeout: int,
    healthRetries: int,
    cpuLimit: Option<string>,
    memoryLimit: Option<string>)

  /** The set of host ports a mapping publishes. */
  function HostPorts(ports: seq<PortBinding>): (hs: set<int>)
    ensures forall i :: 0 <= i < |ports| ==> ports[i].hostPort in hs
    ensures forall h :: h in hs ==> exists i :: 0 <= i < |ports| && ports[i].hostPort == h
  {
    set i | 0 <= i < |ports| :: ports[i].hostPort
  }

  /**
   * The mapping used for a container that runs beside the live one: the
   * same container ports, every host port moved by `offset` (1000 for a
   * blue-green slot, 100 for a canary).
   */
  function ShiftPorts(ports: seq<PortBinding>, offset: int): (r: seq<PortBinding>)
    ensures |r| == |ports|
    ensures forall i :: 0 <= i < |ports| ==> r[i].containerPort == ports[i].containerPort && r[i].hostPort == ports[i].hostPort + offset
  {
    seq(|ports|, i requires 0 <= i < |ports| => PortBinding(ports[i].containerPort, ports[i].hostPort + offset))
  }

  /** Shifting back by the same offset restores the mapping: the container ports and their order are untouched. */
  lemma ShiftPortsRoundTrip(ports: seq<PortBinding>, offset: int)
    ensures ShiftPorts(ShiftPorts(ports, offset), -offset) == ports
  {
  }

  /** No host port of `ports` lies `offset` above another one. */
  predicate NoPortsApart(ports: seq<PortBinding>, offset: int)
  {
    forall i, j :: 0 <= i < |ports| && 0 <= j < |ports| ==> ports[i].hostPort + offset != ports[j].hostPort
  }

  /**
   * The shifted copy can run beside the original exactly when no host port
   * of the mapping lies `offset` above another one.
   */
  lemma ShiftPortsDisjoint(ports: seq<PortBinding>, offset: int)
    ensures HostPorts(ports) !! HostPorts(ShiftPorts(ports, offset)) <==> NoPortsApart(ports, offset)
  {
    var shifted := ShiftPorts(ports, offset);
    if NoPortsApart(ports, offset) {
      forall h | h in HostPorts(shifted)
        ensures h !in HostPorts(ports)
      {
        var i :| 0 <= i < |shifted| && shifted[i].hostPort == h;
        forall j | 0 <= j < |ports|
          ensures ports[j].hostPort != h
        {
          assert ports[i].hostPort + offset != ports[j].hostPort;
        }
      }
    } else {
      var i, j :| 0 <= i < |ports| && 0 <= j < |ports| && ports[i].hostPort + offset == ports[j].hostPort;
      assert shifted[i].hostPort in HostPorts(shifted) && ports[j].hostPort in HostPorts(ports);
    }
  }

  // ---------------------------------------------------------------------
  // Resource limits
  // ---------------------------------------------------------------------

  /** The keyword arguments `_get_resource_limits` adds: `nano_cpus` and `mem_limit`, each possibly absent. */
  datatype Limits = Limits(nanoCpus: Option<int>, memLimit: Option<int>)

  const GiB: int := 1073741824
  const MiB: int := 1048576

  /** A limit string that is missing or empty is falsy and ignored. */
  predicate Given(s: Option<string>) {
    s.Some? && s.value != []
  }

  /** `int(x * factor)` of a parsed decimal `x`; nothing when the text did not parse (the exception is swallowed). */
  function Scaled(parsed: Option<real>, factor: real): Option<int>
  {
    match parsed
    case Some(x) => Some(Truncate(x * factor))
    case None => None
  }

  /** `float(cpu_limit) * 1e9`, truncated; a value that does not parse leaves the key out. */
  function NanoCpus(cpuLimit: Option<string>): (r: Option<int>)
    ensures !Given(cpuLimit) ==> r.None?
    ensures r.Some? ==> exists x :: ParseDecimal(cpuLimit.value) == Some(x) && r.value == Truncate(x * 1000000000.0)
  {
    if !Given(cpuLimit) then None else Scaled(ParseDecimal(cpuLimit.value), 1000000000.0)
  }

  /** The byte count of a lower-cased memory limit: a trailing 'g' or 'm' scales a decimal, anything else must be an integer. */
  function MemoryText(s: string): Option<int>
    requires s != []
  {
    var unit := s[|s| - 1];
    if unit == 'g' then Scaled(ParseDecimal(s[..|s| - 1]), GiB as real)
    else if unit == 'm' then Scaled(ParseDecimal(s[..|s| - 1]), MiB as real)
    else ParseInt(s)
  }

  /** The byte count of a memory limit, its unit letter in either case. */
  function MemoryBytes(memoryLimit: Option<string>): (r: Option<int>)
    ensures !Given(memoryLimit) ==> r.None?
  {
    if !Given(memoryLimit) then None else MemoryText(Lower(memoryLimit.value))
  }

  /** `_get_resource_limits`. */
  function ResourceLimits(config: DeploymentConfig): (r: Limits)
    ensures r.nanoCpus == NanoCpus(config.cpuLimit) && r.memLimit == MemoryBytes(config.memoryLimit)
    ensures r.nanoCpus.Some? ==> Given(config.cpuLimit)
    ensures r.memLimit.Some? ==> Given(config.memoryLimit)
  {
    Limits(NanoCpus(config.cpuLimit), MemoryBytes(config.memoryLimit))
  }

  lemma LowerDigits(s: string)
    requires AllDigits(s)
    ensures Lower(s) == s
  {
  }

  lemma ParseDecimalOfNat(n: nat)
    ensures ParseDecimal(NatToString(n)) == Some(n as real)
  {
    ParseDecimalDigits(NatToString(n));
    ParseNatToString(n);
  }

  /** Lower-casing a number with a unit letter lower-cases the letter only. */
  lemma LowerUnit(d: string, u: char)
    requires AllDigits(d)
    ensures Lower(d + [u]) == d + [LowerChar(u)]
  {
  }

  lemma ScaledWhole(n: nat, unit: int)
    requires unit > 0
    ensures Truncate(n as real * unit as real) == n * unit
  {
    assert n as real * unit as real == (n * unit) as real;
    TruncateWhole(n * unit);
  }

  /** A whole number scaled by a whole factor is exact. */
  lemma ScaledNat(n: nat, factor: int)
    requires factor > 0
    ensures Scaled(Some(n as real), factor as real) == Some(n * factor)
  {
    ScaledWhole(n, factor);
  }

  /** A CPU limit that parses as `x` gives `x` seconds of CPU time per second in nanoseconds, truncated. */
  lemma NanoCpusOf(v: string, x: real)
    requires v != [] && ParseDecimal(v) == Some(x)
    ensures NanoCpus(Some(v)) == Some(Truncate(x * 1000000000.0))
  {
  }

  /** A number followed by the unit letter is scaled by that unit. */
  lemma MemoryTextUnit(t: string, unit: char)
    requires unit == 'g' || unit == 'm'
    ensures MemoryText(t + [unit]) == Scaled(ParseDecimal(t), (if unit == 'g' then GiB else MiB) as real)
  {
    var s := t + [unit];
    assert s[..|s| - 1] == t;
  }

  /** A whole number with a unit letter in either case is that many GiB or MiB. */
  lemma MemoryWithUnit(n: nat, letter: char)
    requires LowerChar(letter) == 'g' || LowerChar(letter) == 'm'
    ensures MemoryBytes(Some(NatToString(n) + [letter])) == Some(n * (if LowerChar(letter) == 'g' then GiB else MiB))
  {
    var d := NatToString(n);
    LowerUnit(d, letter);
    MemoryTextUnit(d, LowerChar(letter));
    ParseDecimalOfNat(n);
    ScaledNat(n, if LowerChar(letter) == 'g' then GiB else MiB);
  }

  /** A plain whole number is a byte count. */
  lemma MemoryPlain(n: nat)
    ensures MemoryBytes(Some(NatToString(n))) == Some(n)
  {
    var d := NatToString(n);
    LowerDigits(d);
    ParseIntToString(n);
    assert d[|d| - 1] != 'g' && d[|d| - 1] != 'm' by {
      assert IsDigit(d[|d| - 1]);
    }
  }

  /**
   * Whole gibibytes and mebibytes, written with either unit letter in
   * either case, and plain byte counts, all come out as the exact number
   * of bytes.
   */
  lemma MemoryUnits(n: nat)
    ensures MemoryBytes(Some(NatToString(n) + "g")) == Some(n * GiB)
    ensures MemoryBytes(Some(NatToString(n) + "G")) == Some(n * GiB)
    ensures MemoryBytes(Some(NatToString(n) + "m")) == Some(n * MiB)
    ensures MemoryBytes(Some(NatToString(n) + "M")) == Some(n * MiB)
    ensures MemoryBytes(Some(NatToString(n))) == Some(n)
  {
    MemoryWithUnit(n, 'g');
    MemoryWithUnit(n, 'G');
    MemoryWithUnit(n, 'm');
    MemoryWithUnit(n, 'M');
    MemoryPlain(n);
  }

  /** Whole CPUs give a whole number of nanoseconds per second of CPU time. */
  lemma CpuUnits(n: nat)
    ensures NanoCpus(Some(NatToString(n))) == Some(n * 1000000000)
  {
    ParseDecimalOfNat(n);
    NanoCpusOf(NatToString(n), n as real);
    ScaledWhole(n, 1000000000);
  }

  /** A CPU count written "w.f" gives its exact value in nanoseconds, truncated. */
  lemma CpuDecimal(w: string, f: string)
    requires w != [] && AllDigits(w) && f != [] && AllDigits(f)
    ensures NanoCpus(Some(w + "." + f)) == Some(Truncate(DecimalValue(w, f) * 1000000000.0))
  {
    ParseDecimalPoint(w, f);
    NanoCpusOf(w + "." + f, DecimalValue(w, f));
  }

  /** `w` and `f` tenths of a CPU are a whole number of nanoseconds. */
  lemma TenthsNanos(w: nat, f: nat)
    ensures Truncate((w as real + f as real / 10.0) * 1000000000.0) == w * 1000000000 + f * 100000000
  {
    assert (w as real + f as real / 10.0) * 1000000000.0 == (w * 1000000000 + f * 100000000) as real;
    TruncateWhole(w * 1000000000 + f * 100000000);
  }

  lemma TenthsValue(w: nat, f: nat)
    requires w < 10 && f < 10
    ensures DecimalValue([DigitChar(w)], [DigitChar(f)]) == w as real + f as real / 10.0
  {
    var ws, fs := [DigitChar(w)], [DigitChar(f)];
    assert ws[..0] == [] && fs[..0] == [];
    assert DigitsValue(ws) == w && DigitsValue(fs) == f;
    assert Shifted(f, 0) == f as real;
    assert Shifted(f, 1) == f as real / 10.0;
  }

  /** "w.f" with one fractional digit is exactly w·10^9 + f·10^8 nanoseconds. */
  lemma CpuTenths(w: nat, f: nat)
    requires w < 10 && f < 10
    ensures Truncate(DecimalValue([DigitChar(w)], [DigitChar(f)]) * 1000000000.0) == w * 1000000000 + f * 100000000
  {
    TenthsValue(w, f);
    TenthsNanos(w, f);
  }

  // ---------------------------------------------------------------------
  // Environment promotion
  // ---------------------------------------------------------------------

  datatype Environment = Dev | Staging | Prod

  function ParseEnvironment(name: string): (r: Option<Environment>)
    ensures r.Some? ==> EnvironmentName(r.value) == name
  {
    if name == "dev" then Some(Dev)
    else if name == "staging" then Some(Staging)
    else if name == "prod" then Some(Prod)
    else None
  }

  function EnvironmentName(e: Environment): string
  {
    match e
    case Dev => "dev"
    case Staging => "staging"
    case Prod => "prod"
  }

  lemma EnvironmentNames(e: Environment)
    ensures ParseEnvironment(EnvironmentName(e)) == Some(e)
  {
  }

  /** The per-environment settings a promotion writes into the deployment section. */
  datatype EnvironmentSettings = EnvironmentSettings(cpu: string, memory: string, tagSuffix: string)

  /** The settings table as the source writes it, with Kubernetes-style memory units. */
  function SettingsAsWritten(e: Environment): EnvironmentSettings
  {
    match e
    case Dev => EnvironmentSettings("0.5", "512Mi", "-dev")
    case Staging => EnvironmentSettings("1.0", "1Gi", "-staging")
    case Prod => EnvironmentSettings("2.0", "2Gi", "")
  }

  /** The same table with memory written in the units the limit conversion understands. */
  function Settings(e: Environment): EnvironmentSettings
  {
    match e
    case Dev => EnvironmentSettings("0.5", "512m", "-dev")
    case Staging => EnvironmentSettings("1.0", "1g", "-staging")
    case Prod => EnvironmentSettings("2.0", "2g", "")
  }

  /** The memory each environment is meant to get. */
  function IntendedMemory(e: Environment): int
  {
    match e
    case Dev => 512 * MiB
    case Staging => GiB
    case Prod => 2 * GiB
  }

  /** A limit that starts with a digit and ends in 'i' (either case) is no integer, so it sets no memory limit. */
  lemma MemorySuffixIgnored(v: string)
    requires v != [] && IsDigit(v[0]) && LowerChar(v[|v| - 1]) == 'i'
    ensures MemoryBytes(Some(v)) == None
  {
    var s := Lower(v);
    assert s[0] == v[0] && IsDigit(s[0]);
    assert s[|s| - 1] == 'i';
    StripKeepsTrimmed(s, NumberBlanks);
    assert !IsDigit(s[|s| - 1]);
  }

  /** "512Mi", "1Gi" and "2Gi" end in 'i': they fall to the integer branch, fail to parse, and the memory limit is dropped. */
  lemma PromotionMemoryDropped(e: Environment)
    ensures MemoryBytes(Some(SettingsAsWritten(e).memory)) == None
  {
    MemorySuffixIgnored(SettingsAsWritten(e).memory);
  }

  /** With the units fixed, every environment gets exactly its intended memory. */
  lemma PromotionMemory(e: Environment)
    ensures MemoryBytes(Some(Settings(e).memory)) == Some(IntendedMemory(e))
  {
    match e
    case Dev =>
      NatToString512();
      MemoryUnits(512);
    case Staging =>
      assert NatToString(1) + "g" == "1g";
      MemoryUnits(1);
    case Prod =>
      assert NatToString(2) + "g" == "2g";
      MemoryUnits(2);
  }

  /** A CPU limit "w.f" written with single digits. */
  lemma CpuTenthsText(w: nat, f: nat, text: string)
    requires w < 10 && f < 10 && text == [DigitChar(w)] + "." + [DigitChar(f)]
    ensures NanoCpus(Some(text)) == Some(w * 1000000000 + f * 100000000)
  {
    CpuDecimal([DigitChar(w)], [DigitChar(f)]);
    CpuTenths(w, f);
  }

  /** Every environment gets half a CPU, one CPU or two CPUs. */
  lemma PromotionCpu(e: Environment)
    ensures NanoCpus(Some(Settings(e).cpu)) == Some(match e case Dev => 500000000 case Staging => 1000000000 case Prod => 2000000000)
  {
    match e
    case Dev =>
      assert [DigitChar(0)] + "." + [DigitChar(5)] == "0.5";
      CpuTenthsText(0, 5, "0.5");
    case Staging =>
      assert [DigitChar(1)] + "." + [DigitChar(0)] == "1.0";
      CpuTenthsText(1, 0, "1.0");
    case Prod =>
      assert [DigitChar(2)] + "." + [DigitChar(0)] == "2.0";
      CpuTenthsText(2, 0, "2.0");
  }

  lemma NatToString512()
    ensures NatToString(512) + "m" == "512m"
  {
    assert NatToString(5) == "5";
    assert NatToString(51) == "51";
  }

  /** The image tag a promotion deploys: the text before the first ':' followed by ":latest" and the environment's suffix. */
  function PromotedTag(imageTag: string, target: Environment): (r: string)
    ensures Split(r, ':')[0] == Split(imageTag, ':')[0]
  {
    var base := Split(imageTag, ':')[0];
    var rest := "latest" + SettingsAsWritten(target).tagSuffix;
    SplitFirst(base, rest);
    assert base + ":latest" + SettingsAsWritten(target).tagSuffix == base + ":" + rest;
    base + ":" + rest
  }

  lemma {:induction false} SplitFirst(base: string, rest: string)
    requires ':' !in base
    ensures Split(base + ":" + rest, ':')[0] == base
  {
    if base != [] {
      SplitFirst(base[1..], rest);
      assert (base + ":" + rest)[1..] == base[1..] + ":" + rest;
    } else {
      assert base + ":" + rest == [':'] + rest;
    }
  }

  /** Promoting twice is the same as promoting once to the last environment. */
  lemma PromotedTagIdempotent(imageTag: string, first: Environment, second: Environment)
    ensures PromotedTag(PromotedTag(imageTag, first), second) == PromotedTag(imageTag, second)
  {
  }

  /** An image name without a tag gets ":latest" and the environment's suffix appended. */
  lemma PromotedTagUntagged(name: string, target: Environment)
    requires ':' !in name
    ensures PromotedTag(name, target) == name + ":latest" + SettingsAsWritten(target).tagSuffix
  {
    SplitNoSep(name, ':');
  }

  /**
   * Everything after the first ':' is dropped, so a reference whose
   * registry carries a port ("localhost:5000/app:v1") keeps only the
   * registry host ("localhost:latest" for production).
   */
  lemma PromotedTagCutsAtFirstColon(host: string, rest: string, target: Environment)
    requires ':' !in host
    ensures PromotedTag(host + ":" + rest, target) == host + ":latest" + SettingsAsWritten(target).tagSuffix
  {
    SplitFirst(host, rest);
  }

  /**
   * The deployment section a promotion produces from the loaded one: the
   * new tag and the target's CPU and memory strings; `None` when either
   * environment name is unknown.
   */
  function Promote(source: string, target: string, config: DeploymentConfig): (r: Option<DeploymentConfig>)
    ensures r.Some? <==> ParseEnvironment(source).Some? && ParseEnvironment(target).Some?
    ensures r.Some? ==> r.value == config.(imageTag := PromotedTag(config.imageTag, ParseEnvironment(target).value),
                                            cpuLimit := Some(SettingsAsWritten(ParseEnvironment(target).value).cpu),
                                            memoryLimit := Some(SettingsAsWritten(ParseEnvironment(target).value).memory))
  {
    match (ParseEnvironment(source), ParseEnvironment(target))
    case (Some(_), Some(t)) =>
      var settings := SettingsAsWritten(t);
      Some(config.(imageTag := PromotedTag(config.imageTag, t), cpuLimit := Some(settings.cpu), memoryLimit := Some(settings.memory)))
    case _ => None
  }

  /** Production is reached by blue-green, every other environment by a rolling deployment. */
  function PromotionUsesBlueGreen(target: Environment): (blueGreen: bool)
    ensures blueGreen <==> EnvironmentName(target) == "prod"
  {
    target == Prod
  }

  /** The choice made on the environment's name, as the promotion compares it: blue-green exactly for "prod". */
  lemma PromotionStrategy(name: string)
    requires ParseEnvironment(name).Some?
    ensures PromotionUsesBlueGreen(ParseEnvironment(name).value) <==> name == "prod"
  {
  }
}

=== FILE: dashboard.dfy ===
/**
 * The v3 monitoring dashboard's per-container state: a sliding window of
 * the last 60 measurements, and the trend arrow drawn next to the CPU
 * figure from the last five of them.
 */
module Dashboard {
  import opened Wrappers
  import opened Telemetry
  import opened Ledger

  /** `_get_trend_indicator`'s three arrows. */
  datatype Trend = Rising | Falling | Steady

  function Sum(xs: seq<real>): real
  {
    if xs == [] then 0.0 else Sum(xs[..|xs| - 1]) + xs[|xs| - 1]
  }

  /**
   * The mean of the last two values minus the mean of the ones before them
   * (the first value standing in for the latter when there are only two).
   */
  function TrendDiff(values: seq<real>): real
    requires |values| >= 2
  {
    var n := |values|;
    var recent := (values[n - 2] + values[n - 1]) / 2.0;
    var older := if n > 2 then Sum(values[..n - 2]) / (n - 2) as real else values[0];
    recent - older
  }

  /**
   * `_get_trend_indicator`: fewer than two values are steady; otherwise a
   * difference of the means beyond 5 in either direction is a trend.
   */
  function TrendOf(values: seq<real>): (t: Trend)
    ensures t == Rising <==> |values| >= 2 && TrendDiff(values) > 5.0
    ensures t == Falling <==> |values| >= 2 && TrendDiff(values) < -5.0
  {
    if |values| < 2 then Steady
    else if TrendDiff(values) > 5.0 then Rising
    else if TrendDiff(values) < -5.0 then Falling
    else Steady
  }

  function Shift(xs: seq<real>, c: real): (ys: seq<real>)
    ensures |ys| == |xs| && forall i :: 0 <= i < |xs| ==> ys[i] == xs[i] + c
  {
    seq(|xs|, i requires 0 <= i < |xs| => xs[i] + c)
  }

  function Negate(xs: seq<real>): (ys: seq<real>)
    ensures |ys| == |xs| && forall i :: 0 <= i < |xs| ==> ys[i] == -xs[i]
  {
    seq(|xs|, i requires 0 <= i < |xs| => -xs[i])
  }

  function Opposite(t: Trend): Trend
  {
    match t
    case Rising => Falling
    case Falling => Rising
    case Steady => Steady
  }

  lemma {:induction false} SumShift(xs: seq<real>, c: real)
    ensures Sum(Shift(xs, c)) == Sum(xs) + c * |xs| as real
  {
    if xs != [] {
      SumShift(xs[..|xs| - 1], c);
      assert Shift(xs, c)[..|xs| - 1] == Shift(xs[..|xs| - 1], c);
    }
  }

  lemma {:induction false} SumNegate(xs: seq<real>)
    ensures Sum(Negate(xs)) == -Sum(xs)
  {
    if xs != [] {
      SumNegate(xs[..|xs| - 1]);
      assert Negate(xs)[..|xs| - 1] == Negate(xs[..|xs| - 1]);
    }
  }

  lemma DivShift(total: real, c: real, k: real)
    requires k > 0.0
    ensures (total + c * k) / k == total / k + c
  {
    assert (total / k + c) * k == total + c * k;
  }

  /** Shifting the samples shifts the mean of the older ones. */
  lemma OlderShift(values: seq<real>, c: real)
    requires |values| > 2
    ensures var k := (|values| - 2) as real;
            Sum(Shift(values, c)[..|values| - 2]) / k == Sum(values[..|values| - 2]) / k + c
  {
    var older := values[..|values| - 2];
    var k := |older| as real;
    assert Shift(values, c)[..|values| - 2] == Shift(older, c);
    SumShift(older, c);
    assert Sum(Shift(values, c)[..|values| - 2]) == Sum(older) + c * k;
    DivShift(Sum(older), c, k);
  }

  lemma TrendDiffShift(values: seq<real>, c: real)
    requires |values| >= 2
    ensures TrendDiff(Shift(values, c)) == TrendDiff(values)
  {
    var n := |values|;
    var ys := Shift(values, c);
    assert (ys[n - 2] + ys[n - 1]) / 2.0 == (values[n - 2] + values[n - 1]) / 2.0 + c;
    if n > 2 {
      OlderShift(values, c);
    } else {
      assert ys[0] == values[0] + c;
    }
  }

  lemma TrendDiffNegate(values: seq<real>)
    requires |values| >= 2
    ensures TrendDiff(Negate(values)) == -TrendDiff(values)
  {
    var n := |values|;
    if n > 2 {
      assert Negate(values)[..n - 2] == Negate(values[..n - 2]);
      SumNegate(values[..n - 2]);
      var k := (n - 2) as real;
      assert (-Sum(values[..n - 2])) / k == -(Sum(values[..n - 2]) / k);
    }
  }

  /** Adding the same amount to every sample leaves the arrow unchanged: only the change matters. */
  lemma TrendShiftInvariant(values: seq<real>, c: real)
    ensures TrendOf(Shift(values, c)) == TrendOf(values)
  {
    if |values| >= 2 {
      TrendDiffShift(values, c);
    }
  }

  /** Mirroring every sample mirrors the arrow. */
  lemma TrendNegate(values: seq<real>)
    ensures TrendOf(Negate(values)) == Opposite(TrendOf(values))
  {
    if |values| >= 2 {
      TrendDiffNegate(values);
    }
  }

  /** Append a measurement, then drop the oldest when the window grew past 60 (`append` then `pop(0)`). */
  function Push(window: seq<ContainerStats>, s: ContainerStats): seq<ContainerStats>
  {
    var w := window + [s];
    if |w| > 60 then w[1..] else w
  }

  /**
   * The window always holds exactly the last 60 (or fewer) measurements of
   * everything observed so far, newest last.
   */
  lemma PushTracksStream(stream: seq<ContainerStats>, s: ContainerStats)
    ensures Push(Newest(stream, 60), s) == Newest(stream + [s], 60)
  {
    var w := Newest(stream, 60) + [s];
    if |stream| >= 60 {
      assert w[1..] == (stream + [s])[|stream| + 1 - 60..];
    }
  }

  function CpuSeries(window: seq<ContainerStats>): (xs: seq<real>)
    ensures |xs| == |window| && forall i :: 0 <= i < |window| ==> xs[i] == window[i].cpuPercent
  {
    seq(|window|, i requires 0 <= i < |window| => window[i].cpuPercent)
  }

  /** The dashboard's `metrics_history`: one window per monitored container. */
  class MetricsHistory {
    var windows: map<string, seq<ContainerStats>>

    ghost predicate Valid()
      reads this
    {
      forall name :: name in windows ==> |windows[name]| <= 60
    }

    /** One empty window per container to monitor. */
    constructor (names: set<string>)
      ensures Valid()
      ensures windows.Keys == names && forall name :: name in names ==> windows[name] == []
    {
      windows := map name | name in names :: [];
    }

    /**
     * One refresh of one container's row: a measurement extends its window
     * and yields the CPU trend over the last five measurements; a failed
     * measurement or a vanished container (`None`) leaves the window alone.
     */
    method Observe(name: string, measured: Option<ContainerStats>) returns (trend: Option<Trend>)
      requires Valid() && name in windows
      modifies this
      ensures Valid()
      ensures measured.None? ==> windows == old(windows) && trend.None?
      ensures measured.Some? ==> windows == old(windows)[name := Push(old(windows)[name], measured.value)]
      ensures measured.Some? ==> trend == Some(TrendOf(CpuSeries(Newest(windows[name], 5))))
    {
      if measured.None? {
        return None;
      }
      var w := windows[name] + [measured.value];
      if |w| > 60 {
        w := w[1..];
      }
      windows := windows[name := w];
      trend := Some(TrendOf(CpuSeries(Newest(w, 5))));
    }
  }
}

=== FILE: deployment.dfy ===
/**
 * What every deployment strategy shares: the container it creates from a
 * configuration, the clock readings it records, and the testing settings.
 */
module Deployment {
  import opened Wrappers
  import opened Text
  import opened Config
  import opened Docker
  import opened Prober
  import opened Ledger

  /**
   * The two clock readings of a deployment: its start, in whole seconds
   * (which also names it), and the moment its record is written.
   */
  datatype Clock = Clock(started: nat, finished: int)

  /** The container a configuration describes, with the given ports and environment. */
  function SpecWith(config: DeploymentConfig, ports: seq<PortBinding>, env: map<string, string>): (s: Spec)
    ensures s.image == config.imageTag && s.ports == ports && s.env == env
    ensures s.restartPolicy == config.restartPolicy && s.limits == ResourceLimits(config)
  {
    Spec(config.imageTag, ports, env, config.restartPolicy, ResourceLimits(config))
  }

  /** The container a configuration describes, as configured. */
  function ConfiguredSpec(config: DeploymentConfig): Spec
  {
    SpecWith(config, config.portMapping, config.environment)
  }

  /** The record `_record_deployment` writes for a successful deployment. */
  function SuccessRecord(id: string, kind: DeploymentKind, config: DeploymentConfig, clock: Clock): (r: DeploymentRecord)
    ensures r.success && r.id == id && r.kind == kind && r.timestamp == clock.finished
    ensures r.imageTag == config.imageTag && r.containerName == config.containerName
  {
    DeploymentRecord(id, clock.finished, kind, config.imageTag, config.containerName, true, (clock.finished - clock.started) as real)
  }

  /** The `testing` section of the tool's own configuration. */
  datatype TestingSettings = TestingSettings(parallelTestsEnabled: Option<bool>, endpoints: Option<seq<string>>)

  /** `_should_run_parallel_tests`: off unless the section exists and switches them on. */
  function ShouldRunParallelTests(testing: Option<TestingSettings>): (r: bool)
    ensures r <==> testing.Some? && testing.value.parallelTestsEnabled == Some(true)
  {
    match testing
    case None => false
    case Some(t) => t.parallelTestsEnabled.GetOr(false)
  }

  /** The endpoints `_run_parallel_tests` visits: "/health" unless the section lists others. */
  function TestEndpoints(testing: Option<TestingSettings>): (eps: seq<string>)
    ensures testing.None? || testing.value.endpoints.None? ==> eps == ["/health"]
    ensures testing.Some? && testing.value.endpoints.Some? ==> eps == testing.value.endpoints.value
  {
    match testing
    case None => ["/health"]
    case Some(t) => t.endpoints.GetOr(["/health"])
  }

  /** The answers the endpoints give, in the order they are visited. */
  function TestResponses(endpoints: seq<string>, answer: string -> Probe): (rs: seq<Probe>)
    ensures |rs| == |endpoints|
    ensures forall i :: 0 <= i < |endpoints| ==> rs[i] == answer(endpoints[i])
  {
    seq(|endpoints|, i requires 0 <= i < |endpoints| => answer(endpoints[i]))
  }

  /**
   * Clear `name` (stop and remove whatever holds it), then run a new
   * container from `spec` under it: nothing is left under the name when the
   * daemon refuses the create, a created container when it refuses the start.
   */
  method ClearAndRun(engine: Engine, name: string, spec: Spec, createAccepted: bool, startAccepted: bool) returns (running: bool)
    modifies engine
    ensures running <==> createAccepted && startAccepted && PortsFree(old(engine.containers) - {name}, name, spec.ports)
    ensures !createAccepted ==> engine.containers == old(engine.containers) - {name}
    ensures createAccepted ==>
              engine.containers == (old(engine.containers) - {name})[name := Container(spec, if running then Running else Created)]
  {
    var _ := engine.StopAndRemove(name);
    running := engine.Run(name, spec, createAccepted, startAccepted);
  }
}

=== FILE: display.dfy ===
/**
 * The two per-container columns of the container listing: the published
 * ports and the uptime.
 */
module Display {
  import opened Wrappers
  import opened Text

  /**
   * One entry of a container's port table: the container port (such as
   * "80/tcp") and the host ports bound to it, in order. An unbound port
   * (no bindings, or `None`) has an empty sequence.
   */
  datatype ExposedPort = ExposedPort(containerPort: string, hostPorts: seq<string>)

  /** The separator between host and container port, as the source file stores it (a UTF-8 arrow read back as Mac Roman). */
  const Arrow: string := "\U{201A}\U{00DC}\U{00ED}"

  /** The entries one container port contributes: one per binding, or the bare port. */
  function ItemsOf(p: ExposedPort): (items: seq<string>)
    ensures |items| == if p.hostPorts == [] then 1 else |p.hostPorts|
  {
    if p.hostPorts == [] then [p.containerPort]
    else seq(|p.hostPorts|, i requires 0 <= i < |p.hostPorts| => p.hostPorts[i] + Arrow + p.containerPort)
  }

  /** All entries of the port table, in table order. */
  function PortItems(ports: seq<ExposedPort>): seq<string>
  {
    if ports == [] then [] else PortItems(ports[..|ports| - 1]) + ItemsOf(ports[|ports| - 1])
  }

  /** How many entries the table yields: one per binding, and one for each unbound port. */
  function ItemCount(ports: seq<ExposedPort>): nat
  {
    if ports == [] then 0
    else ItemCount(ports[..|ports| - 1]) + (if ports[|ports| - 1].hostPorts == [] then 1 else |ports[|ports| - 1].hostPorts|)
  }

  /** The text shown for a table: "none" when it is empty, the entries joined by ", " otherwise. */
  function PortsText(items: seq<string>): string
  {
    if items == [] then "none" else Join(items, ", ")
  }

  /** `_format_ports`: walks every container port and every binding of it. */
  method FormatPorts(ports: seq<ExposedPort>) returns (text: string)
    ensures text == PortsText(PortItems(ports))
    ensures ports == [] ==> text == "none"
  {
    if ports == [] {
      return "none";
    }
    var items: seq<string> := [];
    var i := 0;
    while i < |ports|
      invariant 0 <= i <= |ports|
      invariant items == PortItems(ports[..i])
    {
      var p := ports[i];
      if p.hostPorts != [] {
        var j := 0;
        while j < |p.hostPorts|
          invariant 0 <= j <= |p.hostPorts|
          invariant items == PortItems(ports[..i]) + ItemsOf(p)[..j]
        {
          items := items + [p.hostPorts[j] + Arrow + p.containerPort];
          j := j + 1;
        }
        assert ItemsOf(p)[..j] == ItemsOf(p);
      } else {
        items := items + [p.containerPort];
      }
      assert ports[..i + 1][..i] == ports[..i];
      i := i + 1;
    }
    assert ports[..i] == ports;
    text := if items == [] then "none" else Join(items, ", ");
  }

  /** The table has exactly one entry per binding plus one per unbound port, so it is empty only for no ports. */
  lemma {:induction false} PortItemsCount(ports: seq<ExposedPort>)
    ensures |PortItems(ports)| == ItemCount(ports)
    ensures ItemCount(ports) >= |ports|
    ensures PortItems(ports) == [] <==> ports == []
  {
    if ports != [] {
      PortItemsCount(ports[..|ports| - 1]);
    }
  }

  /** Every binding of every port shows up as "host arrow container", and every unbound port shows up bare. */
  lemma {:induction false} PortItemsComplete(ports: seq<ExposedPort>, k: int)
    requires 0 <= k < |ports|
    ensures ports[k].hostPorts == [] ==> ports[k].containerPort in PortItems(ports)
    ensures forall h :: h in ports[k].hostPorts ==> h + Arrow + ports[k].containerPort in PortItems(ports)
  {
    var last := |ports| - 1;
    if k < last {
      PortItemsComplete(ports[..last], k);
      assert ports[..last][k] == ports[k];
    } else {
      forall h | h in ports[k].hostPorts
        ensures h + Arrow + ports[k].containerPort in PortItems(ports)
      {
        var j :| 0 <= j < |ports[k].hostPorts| && ports[k].hostPorts[j] == h;
        assert ItemsOf(ports[k])[j] == h + Arrow + ports[k].containerPort;
      }
      if ports[k].hostPorts == [] {
        assert ItemsOf(ports[k])[0] == ports[k].containerPort;
      }
    }
  }

  /** What the uptime column shows. */
  datatype Uptime = NotAvailable | DaysHours(days: nat, hours: nat) | HoursMinutes(hours: nat, minutes: nat) | Minutes(minutes: nat)

  const Day := 86400
  const Hour := 3600

  /**
   * `_calculate_uptime`: `elapsed` is the whole seconds between the
   * container's creation and now, or `None` when the creation time cannot
   * be read. A timedelta keeps a day count rounded toward minus infinity
   * and a remainder in [0, 86400); hours and minutes come from the
   * remainder only.
   */
  function CalculateUptime(running: bool, elapsed: Option<int>): (u: Uptime)
    ensures !running || elapsed.None? ==> u == NotAvailable
    ensures u.DaysHours? ==> (running && elapsed.Some? && u.days >= 1 && u.hours < 24 &&
                              u.days * Day + u.hours * Hour <= elapsed.value < u.days * Day + (u.hours + 1) * Hour)
    ensures u.HoursMinutes? ==> (running && elapsed.Some? && 1 <= u.hours < 24 && u.minutes < 60 &&
                                 u.hours * Hour + u.minutes * 60 <= elapsed.value % Day < u.hours * Hour + (u.minutes + 1) * 60)
    ensures u.Minutes? ==> (running && elapsed.Some? && u.minutes < 60 &&
                            u.minutes * 60 <= elapsed.value % Day < (u.minutes + 1) * 60)
  {
    if !running || elapsed.None? then NotAvailable
    else
      var days := elapsed.value / Day;
      var seconds := elapsed.value % Day;
      var hours := seconds / Hour;
      var minutes := (seconds % Hour) / 60;
      if days > 0 then DaysHours(days, hours)
      else if hours > 0 then HoursMinutes(hours, minutes)
      else Minutes(minutes)
  }

  /** For a running container created in the past, the format is chosen by the age alone. */
  lemma UptimeBuckets(elapsed: int)
    requires elapsed >= 0
    ensures CalculateUptime(true, Some(elapsed)).DaysHours? <==> elapsed >= Day
    ensures CalculateUptime(true, Some(elapsed)).HoursMinutes? <==> Hour <= elapsed < Day
    ensures CalculateUptime(true, Some(elapsed)).Minutes? <==> elapsed < Hour
  {
    if elapsed < Day {
      assert elapsed / Day == 0 && elapsed % Day == elapsed;
    }
  }

  /** A creation time slightly in the future (clock skew) reads as almost a full day, not as zero. */
  lemma UptimeClockSkew()
    ensures CalculateUptime(true, Some(-60)) == HoursMinutes(23, 59)
  {
    assert -60 / Day == -1 && -60 % Day == 86340;
  }

  /** The rendered column: "Nd Mh", "Nh Mm", "Nm" or "N/A". */
  function UptimeText(u: Uptime): string
  {
    match u
    case NotAvailable => "N/A"
    case DaysHours(d, h) => NatToString(d) + "d " + NatToString(h) + "h"
    case HoursMinutes(h, m) => NatToString(h) + "h " + NatToString(m) + "m"
    case Minutes(m) => NatToString(m) + "m"
  }
}

=== FILE: docker.dfy ===
/**
 * The part of the Docker daemon the deployment code talks to: a table of
 * named containers and the calls that create, start, stop, remove, rename,
 * pause and restart them. Name clashes and host-port clashes are decided
 * here; every other refusal of the daemon is an argument of the call: one
 * for the create (an unknown network, an invalid limit or mount) and one
 * for the start (an entrypoint that cannot start).
 */
module Docker {
  import opened Wrappers
  import opened Config

  datatype Status = Created | Running | Paused | Exited

  /** A running or paused container holds its host ports and cannot be removed without force. */
  predicate Active(s: Status) {
    s == Running || s == Paused
  }

  /** What a container is created from: image, published ports, environment, restart policy and resource limits. */
  datatype Spec = Spec(image: string, ports: seq<PortBinding>, env: map<string, string>, restartPolicy: string, limits: Limits)

  datatype Container = Container(spec: Spec, status: Status)

  /** No other active container publishes one of `ports`' host ports. */
  predicate PortsFree(cs: map<string, Container>, name: string, ports: seq<PortBinding>)
  {
    forall other :: other in cs && other != name && Active(cs[other].status) ==> HostPorts(cs[other].spec.ports) !! HostPorts(ports)
  }

  /** Whether a container's ports are free does not depend on the container's own entry. */
  lemma PortsFreeIgnoresSelf(cs: map<string, Container>, name: string, c: Container, ports: seq<PortBinding>)
    ensures PortsFree(cs[name := c], name, ports) <==> PortsFree(cs, name, ports)
  {
    var updated := cs[name := c];
    if PortsFree(updated, name, ports) {
      forall other | other in cs && other != name && Active(cs[other].status)
        ensures HostPorts(cs[other].spec.ports) !! HostPorts(ports)
      {
        assert updated[other] == cs[other];
      }
    }
    if PortsFree(cs, name, ports) {
      forall other | other in updated && other != name && Active(updated[other].status)
        ensures HostPorts(updated[other].spec.ports) !! HostPorts(ports)
      {
        assert updated[other] == cs[other];
      }
    }
  }

  /** The container after `stop`: an active one has exited, any other is as it was. */
  function Stopped(c: Container): (d: Container)
    ensures !Active(d.status)
    ensures d.(status := c.status) == c
    ensures !Active(c.status) ==> d == c
  {
    if Active(c.status) then c.(status := Exited) else c
  }

  class Engine {
    /** Every container the daemon knows, by name. */
    var containers: map<string, Container>

    constructor (initial: map<string, Container>)
      ensures containers == initial
    {
      containers := initial;
    }

    /**
     * `containers.create`: refused when the name is taken, or when the daemon
     * rejects the request itself (`accepted` false: an unknown network, an
     * invalid limit or mount); a refused create leaves nothing behind, and
     * the new container is created, not started.
     */
    method Create(name: string, spec: Spec, accepted: bool) returns (ok: bool)
      modifies this
      ensures ok == (accepted && name !in old(containers))
      ensures containers == if ok then old(containers)[name := Container(spec, Created)] else old(containers)
    {
      if !accepted || name in containers {
        return false;
      }
      containers := containers[name := Container(spec, Created)];
      return true;
    }

    /**
     * `container.start`: refused for a missing or paused container, or when
     * another active container holds one of its host ports; starting a
     * running container changes nothing.
     */
    method Start(name: string, accepted: bool) returns (ok: bool)
      modifies this
      ensures ok == (accepted && name in old(containers) && old(containers)[name].status != Paused &&
                     (old(containers)[name].status == Running || PortsFree(old(containers), name, old(containers)[name].spec.ports)))
      ensures containers == if ok then old(containers)[name := old(containers)[name].(status := Running)] else old(containers)
    {
      if !accepted || name !in containers {
        return false;
      }
      var c := containers[name];
      if c.status == Paused || (c.status != Running && !PortsFree(containers, name, c.spec.ports)) {
        return false;
      }
      containers := containers[name := c.(status := Running)];
      return true;
    }

    /**
     * `containers.run`: create, then start. A refused create leaves nothing;
     * a refused start leaves the created container behind under the name.
     */
    method Run(name: string, spec: Spec, createAccepted: bool, startAccepted: bool) returns (ok: bool)
      modifies this
      ensures ok == (name !in old(containers) && createAccepted && startAccepted && PortsFree(old(containers), name, spec.ports))
      ensures name in old(containers) || !createAccepted ==> containers == old(containers)
      ensures name !in old(containers) && createAccepted ==>
                containers == old(containers)[name := Container(spec, if ok then Running else Created)]
    {
      var created := Create(name, spec, createAccepted);
      if !created {
        return false;
      }
      assert forall other :: other in containers && other != name ==> other in old(containers) && containers[other] == old(containers)[other];
      ok := Start(name, startAccepted);
    }

    /** `container.stop`: fails only for a missing container. */
    method Stop(name: string) returns (ok: bool)
      modifies this
      ensures ok == (name in old(containers))
      ensures containers == if ok then old(containers)[name := Stopped(old(containers)[name])] else old(containers)
    {
      if name !in containers {
        return false;
      }
      containers := containers[name := Stopped(containers[name])];
      return true;
    }

    /** `container.remove(force=...)`: an active container is removed only with force. */
    method Remove(name: string, force: bool) returns (ok: bool)
      modifies this
      ensures ok == (name in old(containers) && (force || !Active(old(containers)[name].status)))
      ensures containers == if ok then old(containers) - {name} else old(containers)
    {
      if name !in containers || (!force && Active(containers[name].status)) {
        return false;
      }
      containers := containers - {name};
      return true;
    }

    /** `container.rename`: the container keeps everything but its name; the new name must be free. */
    method Rename(from: string, to: string) returns (ok: bool)
      modifies this
      ensures ok == (from in old(containers) && to !in old(containers))
      ensures containers == if ok then (old(containers) - {from})[to := old(containers)[from]] else old(containers)
    {
      if from !in containers || to in containers {
        return false;
      }
      containers := (containers - {from})[to := containers[from]];
      return true;
    }

    /** `container.pause`: only a running container can be paused. */
    method Pause(name: string) returns (ok: bool)
      modifies this
      ensures ok == (name in old(containers) && old(containers)[name].status == Running)
      ensures containers == if ok then old(containers)[name := old(containers)[name].(status := Paused)] else old(containers)
    {
      if name !in containers || containers[name].status != Running {
        return false;
      }
      containers := containers[name := containers[name].(status := Paused)];
      return true;
    }

    /** `container.unpause`: only a paused container can be resumed. */
    method Unpause(name: string) returns (ok: bool)
      modifies this
      ensures ok == (name in old(containers) && old(containers)[name].status == Paused)
      ensures containers == if ok then old(containers)[name := old(containers)[name].(status := Running)] else old(containers)
    {
      if name !in containers || containers[name].status != Paused {
        return false;
      }
      containers := containers[name := containers[name].(status := Running)];
      return true;
    }

    /**
     * `container.restart`: stops the container if it is active and starts
     * it again; an inactive one needs its host ports free.
     */
    method Restart(name: string, accepted: bool) returns (ok: bool)
      modifies this
      ensures ok == (accepted && name in old(containers) &&
                     (Active(old(containers)[name].status) || PortsFree(old(containers), name, old(containers)[name].spec.ports)))
      ensures containers == if ok then old(containers)[name := old(containers)[name].(status := Running)] else old(containers)
    {
      if !accepted || name !in containers {
        return false;
      }
      var c := containers[name];
      if !Active(c.status) && !PortsFree(containers, name, c.spec.ports) {
        return false;
      }
      containers := containers[name := c.(status := Running)];
      return true;
    }
  
    /** `container.update(restart_policy=...)`: fails only for a missing container. */
    method UpdateRestartPolicy(name: string, policy: string) returns (ok: bool)
      modifies this
      ensures ok == (name in old(containers))
      ensures containers == if ok then old(containers)[name := old(containers)[name].(spec := old(containers)[name].spec.(restartPolicy := policy))] else old(containers)
    {
      if name !in containers {
        return false;
      }
      var c := containers[name];
      containers := containers[name := c.(spec := c.spec.(restartPolicy := policy))];
      return true;
    }

    /** `containers.get(name)` followed by `stop()` and `remove()`, skipped when there is no such container. */
    method StopAndRemove(name: string) returns (found: bool)
      modifies this
      ensures found == (name in old(containers))
      ensures containers == old(containers) - {name}
    {
      found := Stop(name);
      if found {
        var removed := Remove(name, false);
        assert removed;
      } else {
        assert containers == old(containers) - {name};
      }
    }
  }
}

=== FILE: ledger.dfy ===
/**
 * The deployment ledger: every successful deployment is appended to an
 * in-memory history and to a history file that keeps the newest 100
 * records; the history view lists the file newest first.
 */
module Ledger {
  datatype DeploymentKind = Rolling | BlueGreen | Canary

  function KindName(k: DeploymentKind): string
  {
    match k
    case Rolling => "rolling"
    case BlueGreen => "blue-green"
    case Canary => "canary"
  }

  /**
   * One record. `timestamp` is the moment of recording; the file stores it
   * as an ISO-8601 text, whose order is the order of the moments.
   */
  datatype DeploymentRecord = DeploymentRecord(
    id: string,
    timestamp: int,
    kind: DeploymentKind,
    imageTag: string,
    containerName: string,
    success: bool,
    durationSeconds: real)

  /** How many records the file keeps. */
  const FileCapacity := 100

  /** The newest `n` elements: Python's `s[-n:]` once `s` is longer than `n`, for the history file and the dashboard windows alike. */
  function Newest<T>(s: seq<T>, n: nat): (r: seq<T>)
    ensures |r| == if |s| > n then n else |s|
    ensures r == s[|s| - |r|..]
  {
    if |s| > n then s[|s| - n..] else s
  }

  /**
   * Appending to a file that respects the capacity keeps it within the
   * capacity, puts the new record last, drops exactly the oldest record
   * when the file was full and nothing when it was not.
   */
  lemma AppendToFile(file: seq<DeploymentRecord>, r: DeploymentRecord)
    requires |file| <= FileCapacity
    ensures var after := Newest(file + [r], FileCapacity);
            |after| <= FileCapacity &&
            after[|after| - 1] == r &&
            (|file| < FileCapacity ==> after == file + [r]) &&
            (|file| == FileCapacity ==> after == file[1..] + [r])
  {
    var after := Newest(file + [r], FileCapacity);
    if |file| == FileCapacity {
      assert after == file[1..] + [r];
    }
  }

  class Ledger {
    /** `self.deployment_history`: every record of this session. */
    var history: seq<DeploymentRecord>
    /** The records in the history file. */
    var file: seq<DeploymentRecord>

    ghost predicate Valid()
      reads this
    {
      |file| <= FileCapacity
    }

    /** A file longer than the capacity is accepted as loaded; the next write trims it. */
    constructor (saved: seq<DeploymentRecord>)
      ensures Valid() <==> |saved| <= FileCapacity
      ensures history == [] && file == saved
    {
      history := [];
      file := saved;
    }

    /**
     * `_record_deployment`. `saved` says whether the file could be read and
     * written; when it could not, the error is logged and only the
     * in-memory history grows.
     */
    method Record(r: DeploymentRecord, saved: bool)
      modifies this
      ensures Valid() <==> saved || old(Valid())
      ensures history == old(history) + [r]
      ensures file == if saved then Newest(old(file) + [r], FileCapacity) else old(file)
    {
      history := history + [r];
      if saved {
        var data := file + [r];
        if |data| > FileCapacity {
          data := data[|data| - FileCapacity..];
        }
        file := data;
      }
    }
  }

  // ---------------------------------------------------------------------
  // The history view
  // ---------------------------------------------------------------------

  /** Newest first. */
  predicate Descending(s: seq<DeploymentRecord>)
  {
    forall i, j :: 0 <= i < j < |s| ==> s[i].timestamp >= s[j].timestamp
  }

  /** Places `x` before the first record strictly older than it, so records with equal stamps keep their order. */
  function InsertDescending(x: DeploymentRecord, s: seq<DeploymentRecord>): (r: seq<DeploymentRecord>)
    ensures |r| == |s| + 1
    ensures r[0] == x || (s != [] && r[0] == s[0])
  {
    if s == [] then [x]
    else if s[0].timestamp < x.timestamp then [x] + s
    else [s[0]] + InsertDescending(x, s[1..])
  }

  lemma {:induction false} InsertDescendingPermutes(x: DeploymentRecord, s: seq<DeploymentRecord>)
    ensures multiset(InsertDescending(x, s)) == multiset(s) + multiset{x}
  {
    if s != [] && s[0].timestamp >= x.timestamp {
      InsertDescendingPermutes(x, s[1..]);
      assert s == [s[0]] + s[1..];
    }
  }

  lemma {:induction false} InsertDescendingSorted(x: DeploymentRecord, s: seq<DeploymentRecord>)
    requires Descending(s)
    ensures Descending(InsertDescending(x, s))
  {
    if s != [] && s[0].timestamp >= x.timestamp {
      var rest := InsertDescending(x, s[1..]);
      InsertDescendingSorted(x, s[1..]);
      assert rest[0].timestamp <= s[0].timestamp;
      var r := [s[0]] + rest;
      forall i, j | 0 <= i < j < |r|
        ensures r[i].timestamp >= r[j].timestamp
      {
        if i > 0 {
          assert r[i] == rest[i - 1] && r[j] == rest[j - 1];
        } else if j > 1 {
          assert r[j] == rest[j - 1];
        }
      }
    }
  }

  /** `sort(key=timestamp, reverse=True)`, a stable sort, as an insertion sort. */
  function SortDescending(s: seq<DeploymentRecord>): (r: seq<DeploymentRecord>)
    ensures |r| == |s|
  {
    if s == [] then [] else InsertDescending(s[|s| - 1], SortDescending(s[..|s| - 1]))
  }

  /** The sort orders the records newest first and neither loses nor invents one. */
  lemma {:induction false} SortDescendingCorrect(s: seq<DeploymentRecord>)
    ensures Descending(SortDescending(s))
    ensures multiset(SortDescending(s)) == multiset(s)
  {
    if s != [] {
      var init := s[..|s| - 1];
      SortDescendingCorrect(init);
      InsertDescendingSorted(s[|s| - 1], SortDescending(init));
      InsertDescendingPermutes(s[|s| - 1], SortDescending(init));
      assert s == init + [s[|s| - 1]];
    }
  }

  /**
   * The length of Python's `s[:limit]` for a sequence of length `n`: at
   * most `limit` items, fewer only when there are fewer; a negative limit
   * drops that many items from the end, or all of them.
   */
  function PrefixLength(n: nat, limit: int): (k: nat)
    ensures k <= n
    ensures limit >= 0 ==> k <= limit && (k == limit || k == n)
    ensures limit < 0 ==> k >= n + limit && (k == 0 || k == n + limit)
  {
    if limit >= 0 then (if limit < n then limit else n)
    else if n + limit > 0 then n + limit else 0
  }

  /** `show_deployment_history(limit)`: the file sorted newest first, cut to `[:limit]`. */
  function HistoryView(file: seq<DeploymentRecord>, limit: int): (r: seq<DeploymentRecord>)
    ensures |r| == PrefixLength(|file|, limit)
    ensures Descending(r)
    ensures multiset(r) <= multiset(file)
    ensures forall x, y :: x in multiset(file) - multiset(r) && y in r ==> x.timestamp <= y.timestamp
  {
    var sorted := SortDescending(file);
    var k := PrefixLength(|file|, limit);
    SortDescendingCorrect(file);
    TopOfSorted(sorted, k);
    sorted[..k]
  }

  lemma MultisetCut<T>(s: seq<T>, k: nat)
    requires k <= |s|
    ensures multiset(s) - multiset(s[..k]) == multiset(s[k..])
    ensures multiset(s[..k]) <= multiset(s)
  {
    assert s == s[..k] + s[k..];
  }

  /** In a descending sequence, a prefix is descending and everything past the cut is no newer than anything before it. */
  lemma TopOfSorted(s: seq<DeploymentRecord>, k: nat)
    requires Descending(s) && k <= |s|
    ensures Descending(s[..k])
    ensures multiset(s[..k]) <= multiset(s)
    ensures forall x, y :: x in multiset(s) - multiset(s[..k]) && y in s[..k] ==> x.timestamp <= y.timestamp
  {
    MultisetCut(s, k);
    forall x, y | x in multiset(s) - multiset(s[..k]) && y in s[..k]
      ensures x.timestamp <= y.timestamp
    {
      var tail := s[k..];
      assert x in multiset(tail);
      var i :| 0 <= i < |tail| && tail[i] == x;
      var j :| 0 <= j < k && s[..k][j] == y;
      assert s[j] == y && s[k + i] == x;
    }
  }

  /** A limit at least the file's length shows every record, newest first. */
  lemma HistoryViewWhole(file: seq<DeploymentRecord>, limit: int)
    requires limit >= |file|
    ensures multiset(HistoryView(file, limit)) == multiset(file)
  {
    SortDescendingCorrect(file);
    assert SortDescending(file)[..|file|] == SortDescending(file);
  }
}

=== FILE: menu.dfy ===
/**
 * The answers the v2 script's interactive menu parses itself: the port map
 * of "run a new container" and the restart policy of "update restart
 * policy", and the update that policy leads to.
 */
module Menu {
  import opened Wrappers
  import opened Text
  import opened Docker

  /** `input(prompt) or default`: an empty answer takes the default. */
  function OrDefault(answer: string, default: string): string
  {
    if answer == [] then default else answer
  }

  // ---------------------------------------------------------------------
  // Port map: "8080:80, 9090:90"
  // ---------------------------------------------------------------------

  /** The comma-separated pieces of a port map, each stripped, the empty ones dropped. */
  function Pieces(parts: seq<string>): (ps: seq<string>)
    ensures |ps| <= |parts|
    ensures forall i :: 0 <= i < |ps| ==> ps[i] != []
  {
    if parts == [] then []
    else (if Strip(parts[0]) == [] then [] else [Strip(parts[0])]) + Pieces(parts[1..])
  }

  /** One `host:container` piece, read as `(container, host)`: exactly two halves, both integers. */
  function Binding(piece: string): Option<(int, int)>
  {
    var halves := Split(piece, ':');
    if |halves| != 2 then None
    else match (ParseInt(halves[1]), ParseInt(halves[0]))
      case (Some(c), Some(h)) => Some((c, h))
      case _ => None
  }

  /**
   * The `ports` dictionary filled from the pieces in order: a later piece
   * for the same container port overrides an earlier one, and one bad piece
   * spoils the whole answer.
   */
  function Fill(ports: map<int, int>, pieces: seq<string>): Option<map<int, int>>
    decreases |pieces|
  {
    if pieces == [] then Some(ports)
    else match Binding(pieces[0])
      case None => None
      case Some(b) => Fill(ports[b.0 := b.1], pieces[1..])
  }

  /** What the menu makes of the port-map answer: no ports, a table from container to host port, or an error message. */
  datatype PortMapAnswer = NoPortMap | PortMap(ports: map<int, int>) | Malformed

  function PortMapOf(input: string): (r: PortMapAnswer)
    ensures r == NoPortMap <==> Strip(input) == []
  {
    var text := Strip(input);
    if text == [] then NoPortMap
    else match Fill(map[], Pieces(Split(text, ',')))
      case Some(ports) => PortMap(ports)
      case None => Malformed
  }

  /** The menu's port-map loop, filling `ports` piece by piece. */
  method ParsePortMap(input: string) returns (answer: PortMapAnswer)
    ensures answer == PortMapOf(input)
  {
    var text := Strip(input);
    if text == [] {
      return NoPortMap;
    }
    var pieces := Pieces(Split(text, ','));
    var ports: map<int, int> := map[];
    var i := 0;
    while i < |pieces|
      invariant 0 <= i <= |pieces|
      invariant Fill(map[], pieces) == Fill(ports, pieces[i..])
    {
      var b := Binding(pieces[i]);
      if b.None? {
        return Malformed;
      }
      assert pieces[i..][1..] == pieces[i + 1..];
      ports := ports[b.value.0 := b.value.1];
      i := i + 1;
    }
    return PortMap(ports);
  }

  /** A bad piece anywhere makes the fill fail, whatever the pieces around it. */
  lemma {:induction false} BadPieceSpoils(ports: map<int, int>, pieces: seq<string>, k: int)
    requires 0 <= k < |pieces| && Binding(pieces[k]).None?
    ensures Fill(ports, pieces) == None
    decreases |pieces|
  {
    var b := Binding(pieces[0]);
    if k > 0 && b.Some? {
      assert pieces[1..][k - 1] == pieces[k];
      BadPieceSpoils(ports[b.value.0 := b.value.1], pieces[1..], k - 1);
      assert Fill(ports, pieces) == Fill(ports[b.value.0 := b.value.1], pieces[1..]);
    }
  }


  /** A port map with one malformed piece is rejected as a whole. */
  lemma MalformedPortMap(input: string, k: int)
    requires Strip(input) != []
    requires 0 <= k < |Pieces(Split(Strip(input), ','))| && Binding(Pieces(Split(Strip(input), ','))[k]).None?
    ensures PortMapOf(input) == Malformed
  {
    BadPieceSpoils(map[], Pieces(Split(Strip(input), ',')), k);
  }

  /** The text a user types for one binding of host port `b.0` to container port `b.1`. */
  function Render(b: (nat, nat)): string
  {
    NatToString(b.0) + ":" + NatToString(b.1)
  }

  function RenderAll(bindings: seq<(nat, nat)>): (rs: seq<string>)
    ensures |rs| == |bindings|
    ensures forall i :: 0 <= i < |bindings| ==> rs[i] == Render(bindings[i])
  {
    seq(|bindings|, i requires 0 <= i < |bindings| => Render(bindings[i]))
  }

  /** The table the bindings describe, later ones overriding earlier ones. */
  function Table(ports: map<int, int>, bindings: seq<(nat, nat)>): map<int, int>
    decreases |bindings|
  {
    if bindings == [] then ports else Table(ports[bindings[0].1 := bindings[0].0], bindings[1..])
  }

  lemma RenderShape(b: (nat, nat))
    ensures var r := Render(b); r != [] && IsDigit(r[0]) && IsDigit(r[|r| - 1]) && ',' !in r
    ensures Binding(Render(b)) == Some((b.1 as int, b.0 as int))
  {
    var h, c := NatToString(b.0), NatToString(b.1);
    assert IsDigit(h[0]) && IsDigit(c[|c| - 1]);
    DigitsLackChar(h, ':');
    DigitsLackChar(c, ':');
    DigitsLackChar(h, ',');
    DigitsLackChar(c, ',');
    SplitAround(h, c, ':');
    SplitNoSep(c, ':');
    assert Split(Render(b), ':') == [h, c];
    ParseIntToString(b.0);
    ParseIntToString(b.1);
  }

  lemma {:induction false} FillRendered(ports: map<int, int>, bindings: seq<(nat, nat)>)
    ensures Fill(ports, RenderAll(bindings)) == Some(Table(ports, bindings))
    decreases |bindings|
  {
    if bindings != [] {
      var rs := RenderAll(bindings);
      RenderShape(bindings[0]);
      assert rs[0] == Render(bindings[0]);
      assert rs[1..] == RenderAll(bindings[1..]);
      FillRendered(ports[bindings[0].1 := bindings[0].0], bindings[1..]);
    }
  }

  lemma {:induction false} PiecesOfTrimmed(parts: seq<string>)
    requires forall i :: 0 <= i < |parts| ==> parts[i] != [] && !IsSpace(parts[i][0]) && !IsSpace(parts[i][|parts[i]| - 1])
    ensures Pieces(parts) == parts
  {
    if parts != [] {
      StripKeepsTrimmed(parts[0], StrBlanks);
      PiecesOfTrimmed(parts[1..]);
    }
  }

  /** Bindings typed as `host:container` and joined by commas read back as the table they describe. */
  lemma PortMapRoundTrip(bindings: seq<(nat, nat)>)
    requires bindings != []
    ensures PortMapOf(Join(RenderAll(bindings), ",")) == PortMap(Table(map[], bindings))
  {
    var rs := RenderAll(bindings);
    forall i | 0 <= i < |rs|
      ensures rs[i] != [] && IsDigit(rs[i][0]) && IsDigit(rs[i][|rs[i]| - 1]) && ',' !in rs[i]
    {
      RenderShape(bindings[i]);
    }
    var text := Join(rs, ",");
    JoinEnds(rs, ",");
    StripKeepsTrimmed(text, StrBlanks);
    SplitJoin(rs, ',');
    PiecesOfTrimmed(rs);
    FillRendered(map[], bindings);
  }

  // ---------------------------------------------------------------------
  // Restart policy
  // ---------------------------------------------------------------------

  const RestartPolicies: set<string> := {"no", "on-failure", "always", "unless-stopped"}

  /** The stripped answer, when it names one of the four restart policies Docker knows. */
  function ParseRestartPolicy(input: string): (r: Option<string>)
    ensures r.Some? <==> Strip(input) in RestartPolicies
    ensures r.Some? ==> r.value == Strip(input)
  {
    var policy := Strip(input);
    if policy in RestartPolicies then Some(policy) else None
  }

  /** Each policy is accepted however much whitespace surrounds it. */
  lemma RestartPolicyRoundTrip(left: string, policy: string, right: string)
    requires policy in RestartPolicies
    requires forall i :: 0 <= i < |left| ==> IsSpace(left[i])
    requires forall i :: 0 <= i < |right| ==> IsSpace(right[i])
    ensures ParseRestartPolicy(left + policy + right) == Some(policy)
  {
    assert policy != [] && !IsSpace(policy[0]) && !IsSpace(policy[|policy| - 1]);
    StripPadded(left, policy, right, StrBlanks);
  }

  datatype PolicyOutcome = NoName | InvalidPolicy | NotFound | Updated

  /**
   * Menu choice 9 and `update_restart_policy`: a blank name or an unknown
   * policy returns to the menu before the daemon is asked anything; a
   * missing container is reported; otherwise the policy is changed.
   */
  method SetRestartPolicy(engine: Engine, nameInput: string, policyInput: string) returns (outcome: PolicyOutcome)
    modifies engine
    ensures outcome == NoName <==> Strip(nameInput) == []
    ensures outcome == InvalidPolicy <==> Strip(nameInput) != [] && Strip(policyInput) !in RestartPolicies
    ensures outcome == Updated <==>
              Strip(nameInput) != [] && Strip(policyInput) in RestartPolicies && Strip(nameInput) in old(engine.containers)
    ensures outcome != Updated ==> engine.containers == old(engine.containers)
    ensures outcome == Updated ==>
              var name := Strip(nameInput);
              var c := old(engine.containers)[name];
              engine.containers == old(engine.containers)[name := c.(spec := c.spec.(restartPolicy := Strip(policyInput)))]
  {
    var name := Strip(nameInput);
    if name == [] {
      return NoName;
    }
    var policy := ParseRestartPolicy(policyInput);
    if policy.None? {
      return InvalidPolicy;
    }
    var found := engine.UpdateRestartPolicy(name, policy.value);
    outcome := if found then Updated else NotFound;
  }
}

=== FILE: operations.dfy ===
/**
 * `container_operation`: one named operation on one named container. Every
 * daemon error is caught by the error handler, logged and turned into a
 * falsy result; the table of containers is then left as the failing call
 * left it.
 */
module Operations {
  import opened Wrappers
  import opened Config
  import opened Docker

  datatype Operation = StartOp | StopOp | RestartOp | RemoveOp | PauseOp | UnpauseOp

  function OperationName(op: Operation): string
  {
    match op
    case StartOp => "start"
    case StopOp => "stop"
    case RestartOp => "restart"
    case RemoveOp => "remove"
    case PauseOp => "pause"
    case UnpauseOp => "unpause"
  }

  /** The dispatch table lookup: exactly the six operation names are known. */
  function ParseOperation(name: string): (r: Option<Operation>)
    ensures r.Some? ==> OperationName(r.value) == name
    ensures r.None? ==> forall op :: OperationName(op) != name
  {
    if name == "start" then Some(StartOp)
    else if name == "stop" then Some(StopOp)
    else if name == "restart" then Some(RestartOp)
    else if name == "remove" then Some(RemoveOp)
    else if name == "pause" then Some(PauseOp)
    else if name == "unpause" then Some(UnpauseOp)
    else None
  }

  lemma OperationNames(op: Operation)
    ensures ParseOperation(OperationName(op)) == Some(op)
  {
  }

  /**
   * What an operation does to the table: whether it reports success and
   * the table afterwards. `force` and `confirmed` matter to removal only
   * (the flag, and the answer to the prompt for a running container);
   * `accepted` is the daemon's answer to a start or restart.
   */
  function Apply(op: Operation, cs: map<string, Container>, name: string, force: bool, confirmed: bool, accepted: bool): (r: (bool, map<string, Container>))
    ensures r.0 ==> name in cs
    ensures name in cs && op == StartOp ==>
              (r.0 <==> cs[name].status == Running || (accepted && cs[name].status != Paused && PortsFree(cs, name, cs[name].spec.ports)))
    ensures name in cs && op == StopOp ==> r.0
    ensures name in cs && op == RestartOp ==> (r.0 <==> accepted && (Active(cs[name].status) || PortsFree(cs, name, cs[name].spec.ports)))
    ensures name in cs && op == RemoveOp ==> (r.0 <==> force || !Active(cs[name].status))
    ensures name in cs && op == PauseOp ==> (r.0 <==> cs[name].status == Running)
    ensures name in cs && op == UnpauseOp ==> (r.0 <==> cs[name].status == Paused)
  {
    if name !in cs then (false, cs)
    else
      var c := cs[name];
      match op
      case StartOp =>
        if c.status == Running then (true, cs)
        else if accepted && c.status != Paused && PortsFree(cs, name, c.spec.ports) then (true, cs[name := c.(status := Running)])
        else (false, cs)
      case StopOp => (true, cs[name := Stopped(c)])
      case RestartOp =>
        if accepted && (Active(c.status) || PortsFree(cs, name, c.spec.ports)) then (true, cs[name := c.(status := Running)])
        else (false, cs)
      case RemoveOp =>
        if c.status == Running && !force && !confirmed then (false, cs)
        else if force || !Active(c.status) then (true, cs - {name})
        else (false, cs)
      case PauseOp =>
        if c.status == Running then (true, cs[name := c.(status := Paused)]) else (false, cs)
      case UnpauseOp =>
        if c.status == Paused then (true, cs[name := c.(status := Running)]) else (false, cs)
  }

  /** `_start_container`: a running container is reported as started without a call. */
  method StartContainer(engine: Engine, name: string, accepted: bool) returns (ok: bool)
    modifies engine
    ensures (ok, engine.containers) == Apply(StartOp, old(engine.containers), name, false, false, accepted)
  {
    if name !in engine.containers {
      return false;
    }
    if engine.containers[name].status == Running {
      return true;
    }
    ok := engine.Start(name, accepted);
  }

  /** `_stop_container`: an exited container is reported as stopped without a call. */
  method StopContainer(engine: Engine, name: string) returns (ok: bool)
    modifies engine
    ensures (ok, engine.containers) == Apply(StopOp, old(engine.containers), name, false, false, false)
  {
    if name !in engine.containers {
      return false;
    }
    if engine.containers[name].status == Exited {
      assert engine.containers[name := Stopped(engine.containers[name])] == engine.containers;
      return true;
    }
    ok := engine.Stop(name);
  }

  /** `_restart_container`. */
  method RestartContainer(engine: Engine, name: string, accepted: bool) returns (ok: bool)
    modifies engine
    ensures (ok, engine.containers) == Apply(RestartOp, old(engine.containers), name, false, false, accepted)
  {
    ok := engine.Restart(name, accepted);
  }

  /**
   * `_remove_container`: a running container without `force` needs the
   * user's confirmation, but a confirmed removal still asks the daemon
   * with the original `force`.
   */
  method RemoveContainer(engine: Engine, name: string, force: bool, confirmed: bool) returns (ok: bool)
    modifies engine
    ensures (ok, engine.containers) == Apply(RemoveOp, old(engine.containers), name, force, confirmed, false)
  {
    if name !in engine.containers {
      return false;
    }
    if engine.containers[name].status == Running && !force && !confirmed {
      return false;
    }
    ok := engine.Remove(name, force);
  }

  /** `_pause_container`. */
  method PauseContainer(engine: Engine, name: string) returns (ok: bool)
    modifies engine
    ensures (ok, engine.containers) == Apply(PauseOp, old(engine.containers), name, false, false, false)
  {
    ok := engine.Pause(name);
  }

  /** `_unpause_container`. */
  method UnpauseContainer(engine: Engine, name: string) returns (ok: bool)
    modifies engine
    ensures (ok, engine.containers) == Apply(UnpauseOp, old(engine.containers), name, false, false, false)
  {
    ok := engine.Unpause(name);
  }

  /** `container_operation`: an unknown name fails without touching anything. */
  method ContainerOperation(engine: Engine, operation: string, name: string, force: bool, confirmed: bool, accepted: bool)
    returns (ok: bool)
    modifies engine
    ensures ParseOperation(operation).None? ==> !ok && engine.containers == old(engine.containers)
    ensures ParseOperation(operation).Some? ==>
              (ok, engine.containers) == Apply(ParseOperation(operation).value, old(engine.containers), name, force, confirmed, accepted)
  {
    var op := ParseOperation(operation);
    if op.None? {
      return false;
    }
    match op.value
    case StartOp => ok := StartContainer(engine, name, accepted);
    case StopOp => ok := StopContainer(engine, name);
    case RestartOp => ok := RestartContainer(engine, name, accepted);
    case RemoveOp => ok := RemoveContainer(engine, name, force, confirmed);
    case PauseOp => ok := PauseContainer(engine, name);
    case UnpauseOp => ok := UnpauseContainer(engine, name);
  }

  /**
   * Every operation touches the named container only, succeeds only on a
   * container that exists, and a failed operation changes nothing.
   */
  lemma ApplyIsLocal(op: Operation, cs: map<string, Container>, name: string, force: bool, confirmed: bool, accepted: bool)
    ensures var (ok, after) := Apply(op, cs, name, force, confirmed, accepted);
            (ok ==> name in cs) &&
            (!ok ==> after == cs) &&
            (forall n :: n != name ==> (n in after <==> n in cs)) &&
            (forall n :: n != name && n in cs ==> after[n] == cs[n])
  {
  }

  /** What a successful operation leaves behind: the status each operation promises, or no container for a removal. */
  lemma ApplyOutcome(op: Operation, cs: map<string, Container>, name: string, force: bool, confirmed: bool, accepted: bool)
    requires Apply(op, cs, name, force, confirmed, accepted).0
    ensures var after := Apply(op, cs, name, force, confirmed, accepted).1;
            (op == RemoveOp <==> name !in after) &&
            (op in {StartOp, RestartOp, UnpauseOp} ==> after[name].status == Running) &&
            (op == StopOp ==> !Active(after[name].status)) &&
            (op == PauseOp ==> after[name].status == Paused)
  {
  }

  /** Stopping and starting are idempotent: a second call reports success and changes nothing. */
  lemma StartStopIdempotent(cs: map<string, Container>, name: string, accepted: bool)
    ensures var (ok, after) := Apply(StopOp, cs, name, false, false, false);
            ok ==> Apply(StopOp, after, name, false, false, false) == (true, after)
    ensures var (ok, after) := Apply(StartOp, cs, name, false, false, accepted);
            ok ==> Apply(StartOp, after, name, false, false, accepted) == (true, after)
  {
    var after := Apply(StopOp, cs, name, false, false, false).1;
    if name in cs {
      assert after[name := Stopped(after[name])] == after;
    }
  }

  /** Pausing a running container and resuming it gives the original table back. */
  lemma PauseUnpauseRoundTrip(cs: map<string, Container>, name: string)
    requires name in cs && cs[name].status == Running
    ensures var (ok, paused) := Apply(PauseOp, cs, name, false, false, false);
            ok && Apply(UnpauseOp, paused, name, false, false, false) == (true, cs)
  {
    var paused := Apply(PauseOp, cs, name, false, false, false).1;
    assert paused[name := paused[name].(status := Running)] == cs;
  }

  /**
   * As written, the answer to the confirmation prompt never matters: a
   * running container removed without `force` stays, whether the user
   * confirms or not.
   */
  lemma ConfirmedRemovalRefused(cs: map<string, Container>, name: string)
    requires name in cs && cs[name].status == Running
    ensures Apply(RemoveOp, cs, name, false, true, false) == (false, cs)
    ensures Apply(RemoveOp, cs, name, false, false, false) == (false, cs)
  {
  }

  /** The removal the prompt asks for: a confirmed removal of a running container is a forced one. */
  method RemoveContainerConfirmed(engine: Engine, name: string, force: bool, confirmed: bool) returns (ok: bool)
    modifies engine
    ensures ok == (name in old(engine.containers) &&
                   (force || !Active(old(engine.containers)[name].status) || (confirmed && old(engine.containers)[name].status == Running)))
    ensures engine.containers == if ok then old(engine.containers) - {name} else old(engine.containers)
  {
    if name !in engine.containers {
      return false;
    }
    var running := engine.containers[name].status == Running;
    if running && !force && !confirmed {
      return false;
    }
    ok := engine.Remove(name, force || (running && confirmed));
  }
}

=== FILE: prober.dfy ===
/**
 * The health prober: bounded, retried HTTP liveness checks against a
 * candidate container, the optional endpoint tests of a blue-green
 * deployment, and the canary soak that keeps a running error rate.
 *
 * The network is not modelled: what the service answers is an input.
 * A retry loop sees the answer to attempt `i` as `respond(i)`; a soak,
 * whose length is bounded by wall-clock time in the pilot, sees the
 * sequence of answers it managed to collect within its time budget.
 */
module Prober {

  /** The outcome of one HTTP GET: a status code, or a raised request exception. */
  datatype Probe = Response(status: int) | NetworkError

  /** Only status 200 ("OK", section 15.3.1 of RFC 9110) counts as healthy. */
  predicate Healthy(p: Probe) {
    p.Response? && p.status == 200
  }

  /**
   * Up to `maxRetries` GETs, stopping at the first 200; a 3-second pause
   * follows each failed attempt except the last. `attempts` and `pauses`
   * count the requests issued and the sleeps taken.
   */
  method HealthCheck(respond: nat -> Probe, maxRetries: int) returns (healthy: bool, attempts: nat, pauses: nat)
    ensures healthy <==> exists i: nat :: i < maxRetries && Healthy(respond(i))
    ensures healthy ==> 1 <= attempts <= maxRetries && Healthy(respond(attempts - 1))
    ensures forall i: nat :: i + 1 < attempts ==> !Healthy(respond(i))
    ensures !healthy ==> attempts == (if maxRetries > 0 then maxRetries else 0)
    ensures pauses == (if attempts == 0 then 0 else attempts - 1)
  {
    var attempt: nat := 0;
    healthy, attempts, pauses := false, 0, 0;
    while attempt < maxRetries
      invariant maxRetries > 0 ==> attempt <= maxRetries
      invariant maxRetries <= 0 ==> attempt == 0
      invariant forall i: nat :: i < attempt ==> !Healthy(respond(i))
      invariant pauses == (if attempt == maxRetries && attempt > 0 then attempt - 1 else attempt)
    {
      if Healthy(respond(attempt)) {
        healthy, attempts := true, attempt + 1;
        return;
      }
      if attempt < maxRetries - 1 {
        pauses := pauses + 1;
      }
      attempt := attempt + 1;
    }
    attempts := attempt;
  }

  /**
   * The optional parallel tests: one GET per configured endpoint, in order,
   * failing at the first answer that is not 200. `requests` counts the GETs.
   */
  method RunParallelTests(responses: seq<Probe>) returns (passed: bool, requests: nat)
    ensures passed <==> forall i :: 0 <= i < |responses| ==> Healthy(responses[i])
    ensures requests <= |responses|
    ensures passed ==> requests == |responses|
    ensures !passed ==> 1 <= requests && !Healthy(responses[requests - 1])
    ensures forall i :: 0 <= i < requests - 1 ==> Healthy(responses[i])
  {
    requests := 0;
    while requests < |responses|
      invariant requests <= |responses|
      invariant forall i :: 0 <= i < requests ==> Healthy(responses[i])
    {
      if !Healthy(responses[requests]) {
        requests := requests + 1;
        return false, requests;
      }
      requests := requests + 1;
    }
    passed := true;
  }

  /** The number of answers in `s` that are not a 200 (error statuses and exceptions alike). */
  function Errors(s: seq<Probe>): (e: nat)
    ensures e <= |s|
  {
    if s == [] then 0 else Errors(s[..|s| - 1]) + (if Healthy(s[|s| - 1]) then 0 else 1)
  }

  /**
   * The soak aborts right after answer `k` when that answer was an HTTP
   * response (the exception path does not check), more than 10 requests
   * have been made, and more than 10% of them failed.
   */
  predicate AbortsAt(soak: seq<Probe>, k: int)
  {
    0 <= k < |soak| && soak[k].Response? && k + 1 > 10 && 10 * Errors(soak[..k + 1]) > k + 1
  }

  /**
   * The canary is accepted when the soak never aborts and the final error
   * rate is under 5% (a soak with no requests has rate 0).
   */
  ghost predicate SoakAccepted(soak: seq<Probe>)
  {
    && (forall k :: 0 <= k < |soak| ==> !AbortsAt(soak, k))
    && (|soak| == 0 || 20 * Errors(soak) < |soak|)
  }

  /**
   * The soak loop: one GET per second until the time budget (the length of
   * `soak`) is used up or the early-abort rule fires.
   */
  method MonitorCanary(soak: seq<Probe>) returns (accepted: bool, errors: nat, total: nat)
    ensures accepted == SoakAccepted(soak)
    ensures errors <= total <= |soak|
    ensures errors == Errors(soak[..total])
    ensures forall k :: 0 <= k < total - 1 ==> !AbortsAt(soak, k)
    ensures total == |soak| || (total > 0 && AbortsAt(soak, total - 1))
  {
    errors, total := 0, 0;
    while total < |soak|
      invariant total <= |soak|
      invariant errors == Errors(soak[..total])
      invariant forall k :: 0 <= k < total ==> !AbortsAt(soak, k)
    {
      assert soak[..total + 1][..total] == soak[..total];
      match soak[total]
      case Response(status) =>
        total := total + 1;
        if status != 200 {
          errors := errors + 1;
        }
        if total > 10 && 10 * errors > total {
          assert AbortsAt(soak, total - 1);
          return false, errors, total;
        }
      case NetworkError =>
        errors, total := errors + 1, total + 1;
    }
    assert soak[..total] == soak;
    accepted := total == 0 || 20 * errors < total;
  }

  /** The pilot's float tests `e / t > 0.1` and `e / t < 0.05` are the cross-multiplied integer tests. */
  lemma RateThresholds(e: nat, t: nat)
    requires t > 0
    ensures (e as real / t as real > 0.1) <==> 10 * e > t
    ensures (e as real / t as real < 0.05) <==> 20 * e < t
  {
    var r, x, y := e as real / t as real, e as real, t as real;
    assert r * y == x;
    assert (r - 0.1) * y == x - 0.1 * y;
    assert (r - 0.05) * y == x - 0.05 * y;
    SignOfProduct(r - 0.1, y);
    SignOfProduct(r - 0.05, y);
  }

  lemma SignOfProduct(a: real, b: real)
    requires b > 0.0
    ensures a > 0.0 <==> a * b > 0.0
    ensures a < 0.0 <==> a * b < 0.0
  {
  }

  lemma {:induction false} ErrorsOfHealthy(s: seq<Probe>)
    requires forall i :: 0 <= i < |s| ==> Healthy(s[i])
    ensures Errors(s) == 0
  {
    if s != [] {
      ErrorsOfHealthy(s[..|s| - 1]);
    }
  }

  lemma {:induction false} ErrorsOfFailing(s: seq<Probe>)
    requires forall i :: 0 <= i < |s| ==> !Healthy(s[i])
    ensures Errors(s) == |s|
  {
    if s != [] {
      ErrorsOfFailing(s[..|s| - 1]);
    }
  }

  /** A canary that always answers 200 is accepted, whatever the soak length. */
  lemma HealthySoakAccepted(soak: seq<Probe>)
    requires forall i :: 0 <= i < |soak| ==> Healthy(soak[i])
    ensures SoakAccepted(soak)
  {
    ErrorsOfHealthy(soak);
    forall k | 0 <= k < |soak|
      ensures !AbortsAt(soak, k)
    {
      ErrorsOfHealthy(soak[..k + 1]);
    }
  }

  /**
   * A canary whose every request raises never trips the early abort, since
   * the exception path skips the check; it runs the whole budget and is then
   * rejected by the final rule unless no request was made at all.
   */
  lemma UnreachableSoakNeverAborts(soak: seq<Probe>)
    requires forall i :: 0 <= i < |soak| ==> soak[i] == NetworkError
    ensures forall k :: 0 <= k < |soak| ==> !AbortsAt(soak, k)
    ensures SoakAccepted(soak) <==> |soak| == 0
  {
    ErrorsOfFailing(soak);
  }

  /**
   * Eleven failing HTTP responses in a row abort the soak at the eleventh
   * request, whatever would come afterwards; ten do not.
   */
  lemma ElevenFailuresAbort(soak: seq<Probe>)
    requires |soak| >= 11
    requires forall i :: 0 <= i < 11 ==> soak[i] == Response(500)
    ensures !AbortsAt(soak, 9)
    ensures AbortsAt(soak, 10)
    ensures !SoakAccepted(soak)
  {
    ErrorsOfFailing(soak[..11]);
    assert AbortsAt(soak, 10);
  }
}

=== FILE: quick.dfy ===
/**
 * The v2 script's `quick_deploy`: build, stop the old container, remove
 * it, run the new one with restart policy "unless-stopped", and probe it
 * without letting the probe decide anything.
 */
module Quick {
  import opened Wrappers
  import opened Text
  import opened Config
  import opened Docker
  import opened Prober
  import opened Menu

  /** The port answer: no mapping, one `host:container` pair, or more than one colon (an unpacking error that ends the script). */
  datatype QuickPorts = NoPorts | OnePort(host: string, container: string) | TooManyColons

  /** Only an answer with a colon maps a port, and it must split into exactly two halves. */
  function ParseQuickPorts(input: string): (r: QuickPorts)
    ensures r == NoPorts <==> ':' !in input
    ensures r == TooManyColons <==> ':' in input && Count(input, ':') != 1
    ensures r.OnePort? ==> r.host + ":" + r.container == input && ':' !in r.host && ':' !in r.container
  {
    if ':' !in input then NoPorts
    else
      var halves := Split(input, ':');
      SplitCount(input, ':');
      if |halves| != 2 then TooManyColons
      else
        JoinSplit(input, ':');
        assert Join(halves, ":") == halves[0] + ":" + halves[1];
        OnePort(halves[0], halves[1])
  }

  /** Any `host:container` pair without further colons is read back as that pair. */
  lemma QuickPortsRoundTrip(host: string, container: string)
    requires ':' !in host && ':' !in container
    ensures ParseQuickPorts(host + ":" + container) == OnePort(host, container)
  {
    SplitAround(host, container, ':');
    SplitNoSep(container, ':');
    assert Split(host + ":" + container, ':') == [host, container];
  }

  /**
   * The published ports: the daemon takes the host half as a port number
   * and refuses the container outright when it is not one.
   */
  function QuickBindings(ports: QuickPorts): (r: Option<seq<PortBinding>>)
    requires !ports.TooManyColons?
    ensures ports == NoPorts ==> r == Some([])
    ensures ports.OnePort? ==> (r.Some? <==> ParseNat(ports.host).Some?)
    ensures ports.OnePort? && r.Some? ==> r.value == [PortBinding(ports.container, ParseNat(ports.host).value)]
  {
    match ports
    case NoPorts => Some([])
    case OnePort(host, container) =>
      (match ParseNat(host)
       case Some(n) => Some([PortBinding(container, n)])
       case None => None)
  }

  /** The container `quick_deploy` runs: no environment, no limits, restart policy "unless-stopped". */
  function QuickSpec(image: string, ports: seq<PortBinding>): Spec
  {
    Spec(image, ports, map[], "unless-stopped", Limits(None, None))
  }

  const QuickRetries := 5

  /** What one quick deployment meets: the build, the daemon's answers to the create and the start of the run, the probes. */
  datatype QuickWorld = QuickWorld(built: bool, createAccepted: bool, runAccepted: bool, respond: nat -> Probe)

  /** Where a quick deployment stopped. The two `Crashed` exits end the script with an exception. */
  datatype QuickExit = PortInputCrashed | BuildFailed | RemoveCrashed | RunFailed | Deployed

  /**
   * Steps 2 and 3: stop the old container when it runs, then remove it
   * without force. A paused one is neither stopped nor removable, and the
   * daemon's refusal is not caught.
   */
  method RetireOld(engine: Engine, name: string) returns (crashed: bool)
    modifies engine
    ensures crashed <==> name in old(engine.containers) && old(engine.containers)[name].status == Paused
    ensures engine.containers == if crashed then old(engine.containers) else old(engine.containers) - {name}
  {
    if name in engine.containers && engine.containers[name].status == Running {
      var _ := engine.Stop(name);
    }
    if name in engine.containers {
      if Active(engine.containers[name].status) {
        return true;
      }
      var removed := engine.Remove(name, false);
    }
    return false;
  }

  /**
   * `quick_deploy` with the three answers to its prompts. The old container
   * is gone whenever the new one runs, whatever its state was, unless it
   * was paused; the health probe never changes the outcome.
   */
  method QuickDeploy(engine: Engine, imageAnswer: string, nameAnswer: string, portAnswer: string, w: QuickWorld)
    returns (ok: bool, exit: QuickExit)
    modifies engine
    ensures ok <==> exit == Deployed
    ensures exit == PortInputCrashed <==> ':' in portAnswer && Count(portAnswer, ':') != 1
    ensures exit == BuildFailed <==> ParseQuickPorts(portAnswer) != TooManyColons && !w.built
    ensures exit in {PortInputCrashed, BuildFailed, RemoveCrashed} ==> engine.containers == old(engine.containers)
    ensures var name := OrDefault(nameAnswer, "myapp");
            exit == RemoveCrashed <==>
              ParseQuickPorts(portAnswer) != TooManyColons && w.built &&
              name in old(engine.containers) && old(engine.containers)[name].status == Paused
    ensures var name := OrDefault(nameAnswer, "myapp");
            exit == RunFailed ==> engine.containers - {name} == old(engine.containers) - {name} &&
                                  (name !in engine.containers || engine.containers[name].status == Created)
    ensures var name := OrDefault(nameAnswer, "myapp");
            var ports := ParseQuickPorts(portAnswer);
            ok <==> ports != TooManyColons && w.built &&
                    !(name in old(engine.containers) && old(engine.containers)[name].status == Paused) &&
                    QuickBindings(ports).Some? && w.createAccepted && w.runAccepted &&
                    PortsFree(old(engine.containers) - {name}, name, QuickBindings(ports).value)
    ensures var name := OrDefault(nameAnswer, "myapp");
            var ports := ParseQuickPorts(portAnswer);
            ok ==> engine.containers == (old(engine.containers) - {name})
                                          [name := Container(QuickSpec(OrDefault(imageAnswer, "myapp:latest"), QuickBindings(ports).value), Running)]
  {
    var image := OrDefault(imageAnswer, "myapp:latest");
    var name := OrDefault(nameAnswer, "myapp");
    var ports := ParseQuickPorts(portAnswer);
    if ports == TooManyColons {
      return false, PortInputCrashed;
    }
    if !w.built {
      return false, BuildFailed;
    }
    var crashed := RetireOld(engine, name);
    if crashed {
      return false, RemoveCrashed;
    }
    var bindings := QuickBindings(ports);
    if bindings.None? {
      return false, RunFailed;
    }
    ok := engine.Run(name, QuickSpec(image, bindings.value), w.createAccepted, w.runAccepted);
    if !ok {
      return false, RunFailed;
    }
    if bindings.value != [] {
      var healthy, attempts, pauses := HealthCheck(w.respond, QuickRetries);
    }
    exit := Deployed;
  }
}

=== FILE: rolling.dfy ===
/**
 * `_rolling_deploy`: build, start the new version under a temporary name,
 * health-check it, then retire the old container and give the new one the
 * service name.
 */
module Rolling {
  import opened Wrappers
  import opened Text
  import opened Config
  import opened Docker
  import opened Prober
  import opened Ledger
  import opened Deployment

  /**
   * What one rolling deployment meets: the build, the daemon's answers to
   * the create and to the start, the health probes, the clock, the history file.
   */
  datatype RollingWorld = RollingWorld(built: bool, createAccepted: bool, startAccepted: bool, respond: nat -> Probe, clock: Clock, saved: bool)

  /** Where a rolling deployment stopped. */
  datatype RollingExit = BuildFailed | CreateFailed | StartFailed | Unhealthy | SwitchFailed | Deployed

  function RollingId(clock: Clock): string
  {
    "deploy_" + NatToString(clock.started)
  }

  /** The name the new version runs under until the switch. */
  function TempName(name: string, id: string): (t: string)
    ensures t != name
  {
    name + "_new_" + id
  }

  /**
   * The traffic switch as written: the old container is retired only when
   * it was seen running, and the new one is renamed to the service name.
   * `existing` is what the lookup at the start of the deployment saw.
   */
  method Switch(engine: Engine, name: string, temp: string, existing: Option<Container>) returns (ok: bool)
    requires name != temp && temp in engine.containers
    requires existing == if name in engine.containers then Some(engine.containers[name]) else None
    modifies engine
    ensures ok <==> existing.None? || existing.value.status == Running
    ensures ok ==> engine.containers == (old(engine.containers) - {name, temp})[name := old(engine.containers)[temp]]
    ensures !ok ==> engine.containers == old(engine.containers)
  {
    if existing.Some? && existing.value.status == Running {
      var stopped := engine.Stop(name);
      var removed := engine.Remove(name, false);
      assert removed;
    }
    ok := engine.Rename(temp, name);
  }

  /** The switch with the old container retired whatever its state: it always hands the service name to the new version. */
  method SwitchCorrected(engine: Engine, name: string, temp: string, existing: Option<Container>) returns (ok: bool)
    requires name != temp && temp in engine.containers
    requires existing == if name in engine.containers then Some(engine.containers[name]) else None
    modifies engine
    ensures ok
    ensures engine.containers == (old(engine.containers) - {name, temp})[name := old(engine.containers)[temp]]
  {
    if existing.Some? {
      var found := engine.StopAndRemove(name);
    }
    ok := engine.Rename(temp, name);
  }

  /** Phase 3: create the new version under the temporary name and start it. */
  method LaunchCandidate(engine: Engine, temp: string, spec: Spec, createAccepted: bool, accepted: bool) returns (exit: Option<RollingExit>)
    modifies engine
    ensures exit in {None, Some(CreateFailed), Some(StartFailed)}
    ensures exit == Some(CreateFailed) <==> !createAccepted || temp in old(engine.containers)
    ensures exit == Some(CreateFailed) ==> engine.containers == old(engine.containers)
    ensures exit == Some(StartFailed) ==>
              !(accepted && PortsFree(old(engine.containers), temp, spec.ports)) &&
              engine.containers == old(engine.containers)[temp := Container(spec, Created)]
    ensures exit == None ==>
              PortsFree(old(engine.containers), temp, spec.ports) &&
              engine.containers == old(engine.containers)[temp := Container(spec, Running)]
  {
    var created := engine.Create(temp, spec, createAccepted);
    if !created {
      return Some(CreateFailed);
    }
    var started := engine.Start(temp, accepted);
    if !started {
      PortsFreeIgnoresSelf(old(engine.containers), temp, Container(spec, Created), spec.ports);
      return Some(StartFailed);
    }
    PortsFreeIgnoresSelf(old(engine.containers), temp, Container(spec, Created), spec.ports);
    return None;
  }

  /** Phase 4: with ports published, probe the first host port; an unhealthy candidate is stopped and removed. */
  method CheckCandidate(engine: Engine, temp: string, config: DeploymentConfig, respond: nat -> Probe) returns (healthy: bool)
    requires temp in engine.containers
    modifies engine
    ensures healthy <==> config.portMapping == [] || exists i: nat :: i < config.healthRetries && Healthy(respond(i))
    ensures engine.containers == if healthy then old(engine.containers) else old(engine.containers) - {temp}
  {
    healthy := true;
    if config.portMapping != [] {
      var attempts, pauses;
      healthy, attempts, pauses := HealthCheck(respond, config.healthRetries);
      if !healthy {
        var _ := engine.StopAndRemove(temp);
      }
    }
  }

  /**
   * Phases 4 and 5 once the candidate runs: probe it, then switch. An
   * unhealthy candidate is removed; a refused switch leaves both containers.
   */
  method Cutover(engine: Engine, name: string, temp: string, existing: Option<Container>, config: DeploymentConfig, respond: nat -> Probe)
    returns (exit: Option<RollingExit>)
    requires name != temp && temp in engine.containers
    requires existing == if name in engine.containers then Some(engine.containers[name]) else None
    modifies engine
    ensures exit in {None, Some(Unhealthy), Some(SwitchFailed)}
    ensures exit == Some(Unhealthy) ==>
              config.portMapping != [] && (forall i: nat :: i < config.healthRetries ==> !Healthy(respond(i))) &&
              engine.containers == old(engine.containers) - {temp}
    ensures exit == Some(SwitchFailed) ==>
              existing.Some? && existing.value.status != Running && engine.containers == old(engine.containers)
    ensures exit == None ==>
              (config.portMapping == [] || exists i: nat :: i < config.healthRetries && Healthy(respond(i))) &&
              (existing.None? || existing.value.status == Running) &&
              engine.containers == (old(engine.containers) - {name, temp})[name := old(engine.containers)[temp]]
  {
    var healthy := CheckCandidate(engine, temp, config, respond);
    if !healthy {
      return Some(Unhealthy);
    }
    var switched := Switch(engine, name, temp, existing);
    if !switched {
      return Some(SwitchFailed);
    }
    return None;
  }

  /** Handing a fresh temporary entry over to `name` is the same as writing it under `name` directly. */
  lemma HandOver(before: map<string, Container>, name: string, temp: string, x: Container)
    requires name != temp && temp !in before
    ensures (before[temp := x] - {name, temp})[name := before[temp := x][temp]] == before[name := x]
  {
    var after := (before[temp := x] - {name, temp})[name := x];
    assert forall k :: k in after <==> k in before[name := x];
    assert forall k :: k in after ==> after[k] == before[name := x][k];
  }

  /**
   * Phases 2 to 5 after a successful build: look up the service container,
   * launch the candidate from `spec`, probe it and switch.
   */
  method Stage(engine: Engine, config: DeploymentConfig, spec: Spec, temp: string, w: RollingWorld) returns (exit: Option<RollingExit>)
    requires temp != config.containerName && spec.ports == config.portMapping
    modifies engine
    ensures exit in {None, Some(CreateFailed), Some(StartFailed), Some(Unhealthy), Some(SwitchFailed)}
    ensures exit in {Some(CreateFailed), Some(Unhealthy)} ==> engine.containers == old(engine.containers)
    ensures exit == Some(CreateFailed) <==> !w.createAccepted || temp in old(engine.containers)
    ensures exit == Some(StartFailed) ==>
              !(w.startAccepted && PortsFree(old(engine.containers), temp, spec.ports)) &&
              engine.containers == old(engine.containers)[temp := Container(spec, Created)]
    ensures exit == Some(Unhealthy) ==> config.portMapping != [] && forall i: nat :: i < config.healthRetries ==> !Healthy(w.respond(i))
    ensures exit == Some(SwitchFailed) ==>
              config.containerName in old(engine.containers) && old(engine.containers)[config.containerName].status != Running &&
              engine.containers == old(engine.containers)[temp := Container(spec, Running)]
    ensures exit == None ==> config.portMapping == [] || exists i: nat :: i < config.healthRetries && Healthy(w.respond(i))
    ensures exit == None ==> engine.containers == old(engine.containers)[config.containerName := Container(spec, Running)]
    ensures exit == None && config.containerName in old(engine.containers) ==>
              old(engine.containers)[config.containerName].status == Running &&
              HostPorts(old(engine.containers)[config.containerName].spec.ports) !! HostPorts(spec.ports)
  {
    var name := config.containerName;
    ghost var before := engine.containers;
    var existing := if name in engine.containers then Some(engine.containers[name]) else None;
    exit := LaunchCandidate(engine, temp, spec, w.createAccepted, w.startAccepted);
    if exit.Some? {
      return;
    }
    ghost var running := engine.containers;
    assert existing == if name in running then Some(running[name]) else None;
    exit := Cutover(engine, name, temp, existing, config, w.respond);
    if exit == Some(Unhealthy) {
      assert running - {temp} == before;
    } else if exit == None {
      HandOver(before, name, temp, Container(spec, Running));
      if name in before {
        assert Active(before[name].status);
      }
    }
  }

  /**
   * `_rolling_deploy`. The new version only ever replaces the service
   * container on success; on every failure the service container is as it
   * was, and only a refused start leaves the temporary container behind.
   * With ports published, success means one of the candidate's probes passed.
   */
  method RollingDeploy(engine: Engine, ledger: Ledger, config: DeploymentConfig, w: RollingWorld)
    returns (ok: bool, exit: RollingExit)
    modifies engine, ledger
    ensures ledger.Valid() <==> old(ledger.Valid()) || (ok && w.saved)
    ensures ok <==> exit == Deployed
    ensures ok ==> ledger.history == old(ledger.history) + [SuccessRecord(RollingId(w.clock), Rolling, config, w.clock)]
    ensures ok ==> ledger.file == if w.saved then Newest(old(ledger.file) + [SuccessRecord(RollingId(w.clock), Rolling, config, w.clock)], FileCapacity) else old(ledger.file)
    ensures !ok ==> ledger.history == old(ledger.history) && ledger.file == old(ledger.file)
    ensures exit == BuildFailed <==> !w.built
    ensures exit in {BuildFailed, CreateFailed, Unhealthy} ==> engine.containers == old(engine.containers)
    ensures exit == CreateFailed <==> w.built && (!w.createAccepted || TempName(config.containerName, RollingId(w.clock)) in old(engine.containers))
    ensures exit == StartFailed ==>
              !(w.startAccepted && PortsFree(old(engine.containers), TempName(config.containerName, RollingId(w.clock)), config.portMapping)) &&
              engine.containers == old(engine.containers)[TempName(config.containerName, RollingId(w.clock)) := Container(ConfiguredSpec(config), Created)]
    ensures exit == Unhealthy ==> config.portMapping != [] && forall i: nat :: i < config.healthRetries ==> !Healthy(w.respond(i))
    ensures exit == SwitchFailed ==>
              config.containerName in old(engine.containers) && old(engine.containers)[config.containerName].status != Running &&
              engine.containers == old(engine.containers)[TempName(config.containerName, RollingId(w.clock)) := Container(ConfiguredSpec(config), Running)]
    ensures ok ==> config.portMapping == [] || exists i: nat :: i < config.healthRetries && Healthy(w.respond(i))
    ensures ok ==> engine.containers == old(engine.containers)[config.containerName := Container(ConfiguredSpec(config), Running)]
    ensures ok && config.containerName in old(engine.containers) ==>
              old(engine.containers)[config.containerName].status == Running &&
              HostPorts(old(engine.containers)[config.containerName].spec.ports) !! HostPorts(config.portMapping)
  {
    var name := config.containerName;
    var id := RollingId(w.clock);
    if !w.built {
      return false, BuildFailed;
    }
    var staged := Stage(engine, config, ConfiguredSpec(config), TempName(name, id), w);
    if staged.Some? {
      return false, staged.value;
    }
    ledger.Record(SuccessRecord(id, Rolling, config, w.clock), w.saved);
    ok, exit := true, Deployed;
  }
}

=== FILE: telemetry.dfy ===
/**
 * The telemetry sampler: turns two raw resource-usage snapshots reported by
 * the container engine into CPU, memory and network figures, as the v3
 * dashboard (`get_container_stats`, `_calculate_cpu_percent`) and the v2
 * statistics screens (`stats_container`, `monitor_container_live`) do.
 *
 * A snapshot is the engine's JSON document; every key the pilot reads may be
 * absent, so each is an `Option`. Ratios are exact `real`s.
 */
module Telemetry {
  import opened Wrappers

  datatype CpuUsage = CpuUsage(totalUsage: Option<int>, percpuUsage: Option<seq<int>>)
  datatype CpuStats = CpuStats(cpuUsage: Option<CpuUsage>, systemCpuUsage: Option<int>)
  datatype MemoryStats = MemoryStats(usage: Option<int>, limit: Option<int>)
  datatype NetworkIface = NetworkIface(rxBytes: Option<int>, txBytes: Option<int>)
  datatype PidsStats = PidsStats(current: Option<int>)
  datatype Snapshot = Snapshot(
    cpuStats: Option<CpuStats>,
    memoryStats: Option<MemoryStats>,
    networks: Option<seq<NetworkIface>>,
    pidsStats: Option<PidsStats>)

  /** `pids_stats.current`, 0 when either key is absent. */
  function Pids(s: Snapshot): int
  {
    s.pidsStats.GetOr(PidsStats(None)).current.GetOr(0)
  }

  /** One dashboard measurement (the pilot's `ContainerStats`), sizes in MB. */
  datatype ContainerStats = ContainerStats(
    cpuPercent: real,
    memoryUsageMb: real,
    memoryLimitMb: real,
    memoryPercent: real,
    networkRxMb: real,
    networkTxMb: real,
    pids: int,
    timestamp: int)

  const MB: real := 1048576.0

  /** `len(percpu_usage)`, or 1 when the key is absent. */
  function OnlineCpus(u: CpuUsage): nat
  {
    match u.percpuUsage
    case Some(per) => |per|
    case None => 1
  }

  /**
   * The guarded CPU formula shared by every screen:
   * `(cpu_delta / system_delta) * online_cpus * 100` when the system clock
   * advanced and the container's usage did not go backwards, else 0.
   */
  function CpuFormula(cpuDelta: int, systemDelta: int, onlineCpus: nat): (r: real)
    ensures r >= 0.0
    ensures systemDelta <= 0 || cpuDelta < 0 ==> r == 0.0
    ensures systemDelta > 0 && cpuDelta >= 0 ==> r * systemDelta as real == (cpuDelta * onlineCpus * 100) as real
  {
    if systemDelta > 0 && cpuDelta >= 0 then
      var q := cpuDelta as real / systemDelta as real;
      assert q * systemDelta as real == cpuDelta as real;
      assert q >= 0.0;
      q * onlineCpus as real * 100.0
    else 0.0
  }

  /** A container that used no more CPU time than the whole host reports at most 100% per core. */
  lemma CpuFormulaBounded(cpuDelta: int, systemDelta: int, onlineCpus: nat)
    requires 0 <= cpuDelta <= systemDelta && systemDelta > 0
    ensures CpuFormula(cpuDelta, systemDelta, onlineCpus) <= 100.0 * onlineCpus as real
  {
    var q := cpuDelta as real / systemDelta as real;
    assert q * systemDelta as real == cpuDelta as real;
    assert q <= 1.0;
    assert q * (onlineCpus as real * 100.0) <= onlineCpus as real * 100.0;
  }

  /** The `total_usage` reading, when every key on the way to it is present. */
  function TotalUsage(s: Snapshot): Option<int>
  {
    if s.cpuStats.Some? && s.cpuStats.value.cpuUsage.Some? then s.cpuStats.value.cpuUsage.value.totalUsage
    else None
  }

  /** `cpu_stats.get('system_cpu_usage', 0)`. */
  function SystemUsage(c: CpuStats): int
  {
    c.systemCpuUsage.GetOr(0)
  }

  /**
   * `_calculate_cpu_percent` (and the same code in v2 `stats_container`):
   * a missing `cpu_stats`, `cpu_usage` or `total_usage` key raises `KeyError`,
   * which is answered with 0; `system_cpu_usage` defaults to 0.
   */
  function CpuPercent(prev: Snapshot, curr: Snapshot): (r: real)
    ensures r >= 0.0
    ensures TotalUsage(prev).None? || TotalUsage(curr).None? ==> r == 0.0
    ensures r > 0.0 ==> SystemUsage(curr.cpuStats.value) > SystemUsage(prev.cpuStats.value)
    ensures r > 0.0 ==> TotalUsage(curr).value > TotalUsage(prev).value
  {
    if TotalUsage(prev).Some? && TotalUsage(curr).Some? then
      CpuFormula(TotalUsage(curr).value - TotalUsage(prev).value,
                 SystemUsage(curr.cpuStats.value) - SystemUsage(prev.cpuStats.value),
                 OnlineCpus(curr.cpuStats.value.cpuUsage.value))
    else 0.0
  }

  /**
   * The worked example: 50 units of container time over 100 units of host
   * time on four cores is 200%.
   */
  lemma CpuPercentExample(a: int, b: int, c: int, d: int)
    ensures CpuPercent(
      Snapshot(Some(CpuStats(Some(CpuUsage(Some(100), None)), Some(1000))), None, None, None),
      Snapshot(Some(CpuStats(Some(CpuUsage(Some(150), Some([a, b, c, d]))), Some(1100))), None, None, None))
      == 200.0
  {
  }

  /**
   * v2 `monitor_container_live`: no CPU figure without a previous sample;
   * both samples need a `cpu_usage` key, but a missing `total_usage`
   * defaults to 0 here instead of raising.
   */
  function LiveCpuPercent(prev: Option<Snapshot>, curr: Snapshot): (r: real)
    ensures r >= 0.0
    ensures prev.None? ==> r == 0.0
  {
    if prev.None? then 0.0
    else
      var p := prev.value.cpuStats.GetOr(CpuStats(None, None));
      var c := curr.cpuStats.GetOr(CpuStats(None, None));
      if c.cpuUsage.Some? && p.cpuUsage.Some? then
        CpuFormula(c.cpuUsage.value.totalUsage.GetOr(0) - p.cpuUsage.value.totalUsage.GetOr(0),
                   SystemUsage(c) - SystemUsage(p),
                   OnlineCpus(c.cpuUsage.value))
      else 0.0
  }

  /** With every key present, the live monitor computes exactly what the one-shot screens do. */
  lemma LiveCpuAgrees(prev: Snapshot, curr: Snapshot)
    requires TotalUsage(prev).Some? && TotalUsage(curr).Some?
    ensures LiveCpuPercent(Some(prev), curr) == CpuPercent(prev, curr)
  {
  }

  /**
   * Memory percentage: `usage / limit * 100` when the limit is positive,
   * else 0; usage defaults to 0 and limit to 1.
   */
  function MemoryPercent(m: MemoryStats): (r: real)
    ensures m.limit.GetOr(1) > 0 ==> r * m.limit.GetOr(1) as real == (m.usage.GetOr(0) * 100) as real
    ensures m.limit.GetOr(1) <= 0 ==> r == 0.0
  {
    var usage, limit := m.usage.GetOr(0), m.limit.GetOr(1);
    if limit > 0 then
      var q := usage as real / limit as real;
      assert q * limit as real == usage as real;
      q * 100.0
    else 0.0
  }

  /** Expressing usage and limit in MB before dividing, as the screens do, leaves the percentage unchanged. */
  lemma MemoryPercentInMb(usage: int, limit: int)
    ensures limit > 0 ==>
      (usage as real / MB) / (limit as real / MB) * 100.0 == MemoryPercent(MemoryStats(Some(usage), Some(limit)))
  {
    if limit > 0 {
      var u, l := usage as real, limit as real;
      assert (u / MB) / (l / MB) == u / l;
    }
  }

  /** The bytes of one interface in one direction, 0 when the key is absent. */
  function Bytes(n: NetworkIface, received: bool): int
  {
    if received then n.rxBytes.GetOr(0) else n.txBytes.GetOr(0)
  }

  /** The total over all interfaces, in one direction. */
  function Traffic(nets: seq<NetworkIface>, received: bool): int
  {
    if nets == [] then 0 else Traffic(nets[..|nets| - 1], received) + Bytes(nets[|nets| - 1], received)
  }

  lemma {:induction false} TrafficAppend(a: seq<NetworkIface>, b: seq<NetworkIface>, received: bool)
    ensures Traffic(a + b, received) == Traffic(a, received) + Traffic(b, received)
  {
    if b != [] {
      assert (a + b)[..|a + b| - 1] == a + b[..|b| - 1];
      TrafficAppend(a, b[..|b| - 1], received);
    } else {
      assert a + b == a;
    }
  }

  lemma TrafficRemoveAt(b: seq<NetworkIface>, j: int, received: bool)
    requires 0 <= j < |b|
    ensures Traffic(b, received) == Traffic(b[..j] + b[j + 1..], received) + Bytes(b[j], received)
  {
    assert b == b[..j] + ([b[j]] + b[j + 1..]);
    TrafficAppend(b[..j], [b[j]] + b[j + 1..], received);
    TrafficAppend([b[j]], b[j + 1..], received);
    TrafficAppend(b[..j], b[j + 1..], received);
    assert Traffic([b[j]], received) == Bytes(b[j], received);
  }

  lemma MultisetRemoveAt(b: seq<NetworkIface>, j: int)
    requires 0 <= j < |b|
    ensures multiset(b[..j] + b[j + 1..]) == multiset(b) - multiset{b[j]}
  {
    assert b == b[..j] + [b[j]] + b[j + 1..];
  }

  /**
   * The totals do not depend on the order in which the engine lists the
   * interfaces (the pilot sums over a dictionary's values).
   */
  lemma {:induction false} TrafficPermutation(a: seq<NetworkIface>, b: seq<NetworkIface>, received: bool)
    requires multiset(a) == multiset(b)
    ensures Traffic(a, received) == Traffic(b, received)
    decreases |a|
  {
    if a != [] {
      var x := a[|a| - 1];
      assert x in multiset(b);
      var j :| 0 <= j < |b| && b[j] == x;
      MultisetRemoveAt(b, j);
      MultisetRemoveAt(a, |a| - 1);
      assert a[..|a| - 1] + a[|a|..] == a[..|a| - 1];
      TrafficPermutation(a[..|a| - 1], b[..j] + b[j + 1..], received);
      TrafficRemoveAt(b, j, received);
    } else {
      assert b == [];
    }
  }

  /** v2 `stats_container`: the receive/transmit accumulation loop. */
  method NetworkTotals(nets: seq<NetworkIface>) returns (rx: int, tx: int)
    ensures rx == Traffic(nets, true) && tx == Traffic(nets, false)
  {
    rx, tx := 0, 0;
    var i := 0;
    while i < |nets|
      invariant i <= |nets|
      invariant rx == Traffic(nets[..i], true) && tx == Traffic(nets[..i], false)
    {
      assert nets[..i + 1][..i] == nets[..i];
      rx := rx + nets[i].rxBytes.GetOr(0);
      tx := tx + nets[i].txBytes.GetOr(0);
      i := i + 1;
    }
    assert nets[..i] == nets;
  }

  /**
   * v3 `get_container_stats`: one dashboard measurement from two snapshots
   * (the second gives memory, network and process figures), stamped `at`.
   */
  function Measure(prev: Snapshot, curr: Snapshot, at: int): (s: ContainerStats)
    ensures s.cpuPercent == CpuPercent(prev, curr)
    ensures var m := curr.memoryStats.GetOr(MemoryStats(None, None));
            s.memoryUsageMb * MB == m.usage.GetOr(0) as real && s.memoryLimitMb * MB == m.limit.GetOr(1) as real
    ensures s.memoryPercent == MemoryPercent(curr.memoryStats.GetOr(MemoryStats(None, None)))
    ensures s.networkRxMb * MB == Traffic(curr.networks.GetOr([]), true) as real
    ensures s.networkTxMb * MB == Traffic(curr.networks.GetOr([]), false) as real
    ensures curr.pidsStats.None? || curr.pidsStats.value.current.None? ==> s.pids == 0
    ensures curr.pidsStats.Some? && curr.pidsStats.value.current.Some? ==> s.pids == curr.pidsStats.value.current.value
    ensures s.timestamp == at
  {
    var m := curr.memoryStats.GetOr(MemoryStats(None, None));
    var usageMb := m.usage.GetOr(0) as real / MB;
    var limitMb := m.limit.GetOr(1) as real / MB;
    var nets := curr.networks.GetOr([]);
    MemoryPercentInMb(m.usage.GetOr(0), m.limit.GetOr(1));
    ContainerStats(
      CpuPercent(prev, curr),
      usageMb,
      limitMb,
      if limitMb > 0.0 then (usageMb / limitMb) * 100.0 else 0.0,
      Traffic(nets, true) as real / MB,
      Traffic(nets, false) as real / MB,
      Pids(curr),
      at)
  }

  /** What v2 `stats_container` reports (sizes in bytes). */
  datatype Report = Report(
    cpuPercent: real,
    memoryUsage: int,
    memoryLimit: int,
    memoryPercent: real,
    rxBytes: int,
    txBytes: int,
    pids: Option<int>)

  /**
   * v2 `stats_container`. Unlike the dashboard it indexes `memory_stats`
   * directly, so a snapshot without it ends the screen with an error
   * (`None` here); the process count is shown only when `pids_stats` is
   * present, as 0 when it has no `current`.
   */
  method StatsReport(prev: Snapshot, curr: Snapshot) returns (report: Option<Report>)
    ensures report.None? <==> curr.memoryStats.None?
    ensures report.Some? ==> report.value.cpuPercent == CpuPercent(prev, curr)
    ensures report.Some? ==> report.value.memoryUsage == curr.memoryStats.value.usage.GetOr(0)
    ensures report.Some? ==> report.value.memoryLimit == curr.memoryStats.value.limit.GetOr(1)
    ensures report.Some? ==> report.value.memoryPercent == MemoryPercent(curr.memoryStats.value)
    ensures report.Some? ==> report.value.rxBytes == Traffic(curr.networks.GetOr([]), true)
    ensures report.Some? ==> report.value.txBytes == Traffic(curr.networks.GetOr([]), false)
    ensures report.Some? ==> (report.value.pids.Some? <==> curr.pidsStats.Some?)
    ensures report.Some? && curr.pidsStats.Some? ==> report.value.pids == Some(curr.pidsStats.value.current.GetOr(0))
  {
    var cpu := CpuPercent(prev, curr);
    if curr.memoryStats.None? {
      return None;
    }
    var m := curr.memoryStats.value;
    var rx, tx := NetworkTotals(curr.networks.GetOr([]));
    report := Some(Report(cpu, m.usage.GetOr(0), m.limit.GetOr(1), MemoryPercent(m), rx, tx,
                         if curr.pidsStats.Some? then Some(Pids(curr)) else None));
  }

  /** One screen of the v2 live monitor. */
  datatype LiveReading = LiveReading(cpuPercent: real, memoryPercent: real)

  /**
   * The readings the live monitor shows for a stream of samples; `None`
   * stands for a sample that was not a JSON object and is skipped without
   * becoming the previous sample.
   */
  function LiveReadings(stream: seq<Option<Snapshot>>, prev: Option<Snapshot>): seq<LiveReading>
  {
    if stream == [] then []
    else match stream[0]
      case None => LiveReadings(stream[1..], prev)
      case Some(s) =>
        [LiveReading(LiveCpuPercent(prev, s), MemoryPercent(s.memoryStats.GetOr(MemoryStats(None, None))))]
        + LiveReadings(stream[1..], Some(s))
  }

  /** The number of usable samples in a stream. */
  function Usable(stream: seq<Option<Snapshot>>): nat
  {
    if stream == [] then 0 else (if stream[0].Some? then 1 else 0) + Usable(stream[1..])
  }

  /**
   * Every usable sample gives one reading, no CPU figure is negative, and
   * the first reading without a previous sample shows 0% CPU.
   */
  lemma {:induction false} LiveReadingsShape(stream: seq<Option<Snapshot>>, prev: Option<Snapshot>)
    ensures |LiveReadings(stream, prev)| == Usable(stream)
    ensures forall i :: 0 <= i < |LiveReadings(stream, prev)| ==> LiveReadings(stream, prev)[i].cpuPercent >= 0.0
    ensures prev.None? && Usable(stream) > 0 ==> LiveReadings(stream, prev)[0].cpuPercent == 0.0
  {
    if stream != [] {
      LiveReadingsShape(stream[1..], prev);
      if stream[0].Some? {
        LiveReadingsShape(stream[1..], stream[0]);
      }
    }
  }

  /**
   * v2 `monitor_container_live`: the sampling loop, which keeps the last
   * usable sample in `prev` (the time budget is the length of the stream).
   */
  method MonitorLive(stream: seq<Option<Snapshot>>) returns (readings: seq<LiveReading>)
    ensures readings == LiveReadings(stream, None)
  {
    var prev: Option<Snapshot> := None;
    readings := [];
    var i := 0;
    while i < |stream|
      invariant i <= |stream|
      invariant readings + LiveReadings(stream[i..], prev) == LiveReadings(stream, None)
    {
      assert stream[i..][1..] == stream[i + 1..];
      if stream[i].Some? {
        var s := stream[i].value;
        var reading := LiveReading(LiveCpuPercent(prev, s), MemoryPercent(s.memoryStats.GetOr(MemoryStats(None, None))));
        readings := readings + [reading];
        prev := Some(s);
      }
      i := i + 1;
    }
  }
}

=== FILE: text.dfy ===
/**
 * The pieces of Python's string handling that the pilot's parsers rely on:
 * `str.strip()`, `str.split(sep)`, `str.lower()`, `int()` and `float()`;
 * case folding and numbers are restricted to ASCII and to plain decimal
 * notation.
 */
module Text {
  import opened Wrappers

  /**
   * The characters `str.strip()` removes, those for which `str.isspace()`
   * holds: the ASCII blanks and controls 0x09-0x0D and 0x1C-0x1F, and the
   * Unicode spaces and line and paragraph separators.
   */
  predicate IsSpace(c: char) {
    if c <= ' ' then '\t' <= c <= '\r' || '\U{001C}' <= c
    else '\U{0085}' <= c &&
         (c == '\U{0085}' || c == '\U{00A0}' || c == '\U{1680}' || '\U{2000}' <= c <= '\U{200A}' ||
          c == '\U{2028}' || c == '\U{2029}' || c == '\U{202F}' || c == '\U{205F}' || c == '\U{3000}')
  }

  predicate IsDigit(c: char) {
    '0' <= c <= '9'
  }

  predicate AllDigits(s: string) {
    forall i :: 0 <= i < |s| ==> IsDigit(s[i])
  }

  /**
   * The whitespace Python's `int()` and `float()` skip around a number:
   * every non-ASCII `str.isspace()` character is read as a space, but of the
   * ASCII ones only 0x09-0x0D and the space itself; the separators
   * 0x1C-0x1F are refused.
   */
  predicate IsNumberSpace(c: char) {
    IsSpace(c) && !('\U{001C}' <= c <= '\U{001F}')
  }

  /** Which whitespace a reader skips: `str.strip()`'s, or that of `int()` and `float()`. */
  datatype Blanks = StrBlanks | NumberBlanks

  predicate IsBlank(c: char, b: Blanks) {
    if b == StrBlanks then IsSpace(c) else IsNumberSpace(c)
  }

  /** Text made only of whitespace, the empty text included. */
  predicate Blank(s: string, b: Blanks) {
    forall i :: 0 <= i < |s| ==> IsBlank(s[i], b)
  }

  /** The index of the first character at or after `i` that is not whitespace, or the length. */
  function SkipSpaces(s: string, i: nat, b: Blanks): (k: nat)
    requires i <= |s|
    ensures i <= k <= |s| && (k == |s| || !IsBlank(s[k], b))
    ensures forall m :: i <= m < k ==> IsBlank(s[m], b)
    decreases |s| - i
  {
    if i < |s| && IsBlank(s[i], b) then SkipSpaces(s, i + 1, b) else i
  }

  /** The end of `s[..j]` once its trailing whitespace is dropped. */
  function SkipSpacesBack(s: string, j: nat, b: Blanks): (k: nat)
    requires j <= |s|
    ensures k <= j && (k == 0 || !IsBlank(s[k - 1], b))
    ensures forall m :: k <= m < j ==> IsBlank(s[m], b)
  {
    if j > 0 && IsBlank(s[j - 1], b) then SkipSpacesBack(s, j - 1, b) else j
  }

  function TrimLeft(s: string, b: Blanks): (r: string)
    ensures r == [] || !IsBlank(r[0], b)
  {
    s[SkipSpaces(s, 0, b)..]
  }

  function TrimRight(s: string, b: Blanks): (r: string)
    ensures r == [] || !IsBlank(r[|r| - 1], b)
  {
    s[..SkipSpacesBack(s, |s|, b)]
  }

  /** Drop leading and trailing whitespace of the kind `b`; blank text strips to nothing. */
  function StripBlanks(s: string, b: Blanks): (r: string)
    ensures |r| <= |s|
    ensures r == [] || (!IsBlank(r[0], b) && !IsBlank(r[|r| - 1], b))
    ensures r == [] <==> Blank(s, b)
  {
    TrimRight(TrimLeft(s, b), b)
  }

  /** `str.strip()`: drop leading and trailing whitespace; blank text strips to nothing. */
  function Strip(s: string): (r: string)
    ensures |r| <= |s|
    ensures r == [] || (!IsSpace(r[0]) && !IsSpace(r[|r| - 1]))
    ensures r == [] <==> Blank(s, StrBlanks)
  {
    StripBlanks(s, StrBlanks)
  }

  /** Text without surrounding whitespace is left alone by stripping. */
  lemma StripKeepsTrimmed(s: string, b: Blanks)
    requires s == [] || (!IsBlank(s[0], b) && !IsBlank(s[|s| - 1], b))
    ensures StripBlanks(s, b) == s
  {
    if s != [] {
      assert SkipSpaces(s, 0, b) == 0;
      assert s[0..] == s;
      assert SkipSpacesBack(s, |s|, b) == |s|;
      assert s[..|s|] == s;
    }
  }

  /** Stripping twice is stripping once. */
  lemma StripIdempotent(s: string)
    ensures Strip(Strip(s)) == Strip(s)
  {
    StripKeepsTrimmed(Strip(s), StrBlanks);
  }

  function LowerChar(c: char): (d: char)
  {
    if 'A' <= c <= 'Z' then (c as int - 'A' as int + 'a' as int) as char else c
  }

  /** `str.lower()` on ASCII letters; every other character is kept. */
  function Lower(s: string): (r: string)
    ensures |r| == |s|
    ensures forall i :: 0 <= i < |s| ==> r[i] == LowerChar(s[i])
  {
    seq(|s|, i requires 0 <= i < |s| => LowerChar(s[i]))
  }

  /** `str.split(sep)` for a one-character separator: never empty, pieces keep their order. */
  function Split(s: string, sep: char): (parts: seq<string>)
    ensures |parts| >= 1
    ensures forall i :: 0 <= i < |parts| ==> sep !in parts[i]
  {
    if s == [] then [""]
    else
      var rest := Split(s[1..], sep);
      if s[0] == sep then [""] + rest else [[s[0]] + rest[0]] + rest[1..]
  }

  /** `sep.join(parts)`. */
  function Join(parts: seq<string>, sep: string): string
  {
    if parts == [] then ""
    else if |parts| == 1 then parts[0]
    else parts[0] + sep + Join(parts[1..], sep)
  }

  lemma JoinPrepend(c: char, p: string, ps: seq<string>, sep: string)
    ensures Join([[c] + p] + ps, sep) == [c] + Join([p] + ps, sep)
  {
    var xs := [[c] + p] + ps;
    var ys := [p] + ps;
    if ps != [] {
      assert xs[1..] == ps && ys[1..] == ps;
    }
  }

  /** Joining the pieces of a split with the same separator gives the text back. */
  lemma {:induction false} JoinSplit(s: string, sep: char)
    ensures Join(Split(s, sep), [sep]) == s
  {
    if s != [] {
      var rest := Split(s[1..], sep);
      JoinSplit(s[1..], sep);
      if s[0] == sep {
        assert ([""] + rest)[1..] == rest;
      } else {
        assert rest == [rest[0]] + rest[1..];
        JoinPrepend(s[0], rest[0], rest[1..], [sep]);
      }
      assert s == [s[0]] + s[1..];
    }
  }

  /** Text without the separator splits into itself. */
  lemma {:induction false} SplitNoSep(s: string, sep: char)
    requires sep !in s
    ensures Split(s, sep) == [s]
  {
    if s != [] {
      SplitNoSep(s[1..], sep);
      assert [s[0]] + s[1..] == s;
    }
  }

  /** The first separator ends the first piece. */
  lemma {:induction false} SplitAround(a: string, b: string, sep: char)
    requires sep !in a
    ensures Split(a + [sep] + b, sep) == [a] + Split(b, sep)
  {
    var s := a + [sep] + b;
    if a == [] {
      assert s[1..] == b;
    } else {
      SplitAround(a[1..], b, sep);
      assert s[1..] == a[1..] + [sep] + b;
      assert [a[0]] + a[1..] == a;
    }
  }

  /** Splitting the join of separator-free pieces gives the pieces back. */
  lemma {:induction false} SplitJoin(parts: seq<string>, sep: char)
    requires parts != []
    requires forall i :: 0 <= i < |parts| ==> sep !in parts[i]
    ensures Split(Join(parts, [sep]), sep) == parts
  {
    if |parts| == 1 {
      SplitNoSep(parts[0], sep);
    } else {
      SplitJoin(parts[1..], sep);
      SplitAround(parts[0], Join(parts[1..], [sep]), sep);
      assert [parts[0]] + parts[1..] == parts;
    }
  }

  /** A join of non-empty pieces starts where its first piece starts and ends where its last piece ends. */
  lemma {:induction false} JoinEnds(parts: seq<string>, sep: string)
    requires parts != [] && forall i :: 0 <= i < |parts| ==> parts[i] != []
    ensures var j := Join(parts, sep); j != [] && j[0] == parts[0][0] && j[|j| - 1] == parts[|parts| - 1][|parts[|parts| - 1]| - 1]
  {
    if |parts| > 1 {
      JoinEnds(parts[1..], sep);
    }
  }

  lemma {:induction false} SkipPadding(left: string, s: string, i: nat, b: Blanks)
    requires i <= |left|
    requires forall k :: 0 <= k < |left| ==> IsBlank(left[k], b)
    requires s == [] || !IsBlank(s[0], b)
    ensures SkipSpaces(left + s, i, b) == |left|
    decreases |left| - i
  {
    if i < |left| {
      assert (left + s)[i] == left[i];
      SkipPadding(left, s, i + 1, b);
    } else if s != [] {
      assert (left + s)[i] == s[0];
    }
  }

  lemma {:induction false} SkipPaddingBack(s: string, right: string, j: nat, b: Blanks)
    requires |s| <= j <= |s| + |right|
    requires forall k :: 0 <= k < |right| ==> IsBlank(right[k], b)
    requires s == [] || !IsBlank(s[|s| - 1], b)
    ensures SkipSpacesBack(s + right, j, b) == |s|
    decreases j
  {
    if j > |s| {
      assert (s + right)[j - 1] == right[j - 1 - |s|];
      SkipPaddingBack(s, right, j - 1, b);
    } else if s != [] {
      assert (s + right)[j - 1] == s[|s| - 1];
    }
  }

  /** `TrimLeft` drops exactly a run of leading whitespace. */
  lemma TrimLeftPadded(left: string, s: string, b: Blanks)
    requires forall i :: 0 <= i < |left| ==> IsBlank(left[i], b)
    requires s == [] || !IsBlank(s[0], b)
    ensures TrimLeft(left + s, b) == s
  {
    SkipPadding(left, s, 0, b);
    assert (left + s)[|left|..] == s;
  }

  /** `TrimRight` drops exactly a run of trailing whitespace. */
  lemma TrimRightPadded(s: string, right: string, b: Blanks)
    requires forall i :: 0 <= i < |right| ==> IsBlank(right[i], b)
    requires s == [] || !IsBlank(s[|s| - 1], b)
    ensures TrimRight(s + right, b) == s
  {
    SkipPaddingBack(s, right, |s| + |right|, b);
    assert (s + right)[..|s|] == s;
  }

  /** Stripping removes whitespace padding and nothing else. */
  lemma StripPadded(left: string, s: string, right: string, b: Blanks)
    requires forall i :: 0 <= i < |left| ==> IsBlank(left[i], b)
    requires forall i :: 0 <= i < |right| ==> IsBlank(right[i], b)
    requires s != [] && !IsBlank(s[0], b) && !IsBlank(s[|s| - 1], b)
    ensures StripBlanks(left + s + right, b) == s
  {
    assert left + s + right == left + (s + right);
    TrimLeftPadded(left, s + right, b);
    TrimRightPadded(s, right, b);
  }

  /** The number of occurrences of `c` in `s`. */
  function Count(s: string, c: char): nat
  {
    if s == [] then 0 else (if s[0] == c then 1 else 0) + Count(s[1..], c)
  }

  /** A split has one more piece than the text has separators. */
  lemma {:induction false} SplitCount(s: string, sep: char)
    ensures |Split(s, sep)| == Count(s, sep) + 1
  {
    if s != [] {
      SplitCount(s[1..], sep);
    }
  }

  function DigitValue(c: char): nat
    requires IsDigit(c)
  {
    c as int - '0' as int
  }

  function DigitChar(d: nat): (c: char)
    requires d < 10
    ensures IsDigit(c) && DigitValue(c) == d
  {
    ('0' as int + d) as char
  }

  /** The value of a string of decimal digits, most significant first. */
  function DigitsValue(s: string): nat
    requires AllDigits(s)
  {
    if s == [] then 0 else DigitsValue(s[..|s| - 1]) * 10 + DigitValue(s[|s| - 1])
  }

  /** A non-empty run of decimal digits, as `int()` reads it after stripping. */
  function ParseNat(s: string): (r: Option<nat>)
    ensures r.Some? <==> s != [] && AllDigits(s)
  {
    if s != [] && AllDigits(s) then Some(DigitsValue(s)) else None
  }

  /** The decimal rendering of `n` (Python's `str(n)`), without leading zeros. */
  function NatToString(n: nat): (s: string)
    ensures s != [] && AllDigits(s)
    ensures n >= 10 ==> s[0] != '0'
  {
    if n < 10 then [DigitChar(n)] else NatToString(n / 10) + [DigitChar(n % 10)]
  }

  lemma {:induction false} ParseNatToString(n: nat)
    ensures ParseNat(NatToString(n)) == Some(n)
  {
    var s := NatToString(n);
    if n >= 10 {
      ParseNatToString(n / 10);
      assert s[..|s| - 1] == NatToString(n / 10);
      assert DigitsValue(s) == DigitsValue(NatToString(n / 10)) * 10 + n % 10;
    }
  }

  /** Python's `int(s)` on ASCII digits: the whitespace it skips, an optional sign, then digits. */
  function ParseInt(s: string): (r: Option<int>)
    ensures r.Some? ==> StripBlanks(s, NumberBlanks) != []
    ensures var t := StripBlanks(s, NumberBlanks);
            var digits := if t != [] && (t[0] == '+' || t[0] == '-') then t[1..] else t;
            r.Some? <==> digits != [] && AllDigits(digits)
    ensures r.Some? ==> (StripBlanks(s, NumberBlanks)[0] == '-' ==> r.value <= 0) && (StripBlanks(s, NumberBlanks)[0] != '-' ==> r.value >= 0)
  {
    var t := StripBlanks(s, NumberBlanks);
    if t != [] && (t[0] == '+' || t[0] == '-') then
      match ParseNat(t[1..])
      case Some(n) => var v: int := if t[0] == '-' then 0 - n else n; Some(v)
      case None => None
    else
      match ParseNat(t)
      case Some(n) => Some(n)
      case None => None
  }

  /** `int(str(n))` gives `n` back. */
  lemma ParseIntToString(n: nat)
    ensures ParseInt(NatToString(n)) == Some(n)
  {
    var s := NatToString(n);
    assert IsDigit(s[0]) && IsDigit(s[|s| - 1]);
    StripKeepsTrimmed(s, NumberBlanks);
    assert s[0] != '+' && s[0] != '-';
    ParseNatToString(n);
    assert ParseNat(s) == Some(n);
  }

  /** A digit string made only of zeros is worth nothing. */
  lemma {:induction false} ZerosValue(z: string)
    requires forall i :: 0 <= i < |z| ==> z[i] == '0'
    ensures AllDigits(z) && DigitsValue(z) == 0
  {
    if z != [] {
      ZerosValue(z[..|z| - 1]);
    }
  }

  /** Leading zeros do not change the value of a digit string. */
  lemma {:induction false} LeadingZerosValue(z: string, d: string)
    requires forall i :: 0 <= i < |z| ==> z[i] == '0'
    requires AllDigits(d)
    ensures AllDigits(z + d) && DigitsValue(z + d) == DigitsValue(d)
    decreases |d|
  {
    ZerosValue(z);
    if d == [] {
      assert z + d == z;
    } else {
      assert (z + d)[..|z + d| - 1] == z + d[..|d| - 1];
      LeadingZerosValue(z, d[..|d| - 1]);
    }
  }

  /** `k` zeros in front of the rendering of `n` still read as `n`. */
  lemma ParseNatLeadingZeros(k: nat, n: nat)
    ensures ParseNat(seq(k, _ => '0') + NatToString(n)) == Some(n)
  {
    LeadingZerosValue(seq(k, _ => '0'), NatToString(n));
    ParseNatToString(n);
  }

  /**
   * `int()` of whitespace, an optional sign, digits and whitespace is the
   * value of the digits, negated after a minus sign.
   */
  lemma ParseIntPadded(left: string, sign: string, digits: string, right: string)
    requires forall i :: 0 <= i < |left| ==> IsNumberSpace(left[i])
    requires forall i :: 0 <= i < |right| ==> IsNumberSpace(right[i])
    requires sign == "" || sign == "+" || sign == "-"
    requires digits != [] && AllDigits(digits)
    ensures ParseNat(digits).Some?
    ensures var v: int := if sign == "-" then 0 - ParseNat(digits).value else ParseNat(digits).value;
            ParseInt(left + sign + digits + right) == Some(v)
  {
    StripSignedDigits(left, sign, digits, right);
    ParseIntOfStripped(left + sign + digits + right, sign, digits);
  }

  lemma StripSignedDigits(left: string, sign: string, digits: string, right: string)
    requires forall i :: 0 <= i < |left| ==> IsNumberSpace(left[i])
    requires forall i :: 0 <= i < |right| ==> IsNumberSpace(right[i])
    requires sign == "" || sign == "+" || sign == "-"
    requires digits != [] && AllDigits(digits)
    ensures StripBlanks(left + sign + digits + right, NumberBlanks) == sign + digits
  {
    var core := sign + digits;
    assert IsDigit(digits[0]) && IsDigit(digits[|digits| - 1]);
    assert core[0] == if sign == "" then digits[0] else sign[0];
    assert core[|core| - 1] == digits[|digits| - 1];
    assert left + sign + digits + right == left + core + right;
    StripPadded(left, core, right, NumberBlanks);
  }

  /** `int()` of text that strips to a sign and digits. */
  lemma ParseIntOfStripped(s: string, sign: string, digits: string)
    requires sign == "" || sign == "+" || sign == "-"
    requires digits != [] && AllDigits(digits)
    requires StripBlanks(s, NumberBlanks) == sign + digits
    ensures ParseNat(digits).Some?
    ensures var v: int := if sign == "-" then 0 - ParseNat(digits).value else ParseNat(digits).value;
            ParseInt(s) == Some(v)
  {
    var t := StripBlanks(s, NumberBlanks);
    assert IsDigit(digits[0]);
    if sign == "" {
      assert t == digits;
    } else {
      assert t[0] == sign[0] && t[1..] == digits;
    }
  }

  /** `int(" 8080 ")` is 8080: the port answer with stray spaces. */
  lemma ParseIntSpacedPort()
    ensures ParseInt(" 8080 ") == Some(8080)
  {
    var p := "8080";
    assert ParseNat(p) == Some(8080) by {
      assert p[..3] == "808" && "808"[..2] == "80" && "80"[..1] == "8" && "8"[..0] == "";
    }
    assert IsNumberSpace(' ');
    StripSignedDigits(" ", "", p, " ");
    assert " " + "" + p + " " == " 8080 ";
    ParseIntOfStripped(" 8080 ", "", p);
  }

  /** `int("-5")` is -5 and `int("+7")` is 7. */
  lemma ParseIntSignedExamples()
    ensures ParseInt("-5") == Some(-5)
    ensures ParseInt("+7") == Some(7)
  {
    ParseIntPadded("", "-", "5", "");
    assert "" + "-" + "5" + "" == "-5";
    ParseIntPadded("", "+", "7", "");
    assert "" + "+" + "7" + "" == "+7";
  }

  /** `int("007")` is 7. */
  lemma ParseIntZeroPadded()
    ensures ParseInt("007") == Some(7)
  {
    var d := "007";
    assert ParseNat(d) == Some(7) by {
      assert d[..2] == "00" && "00"[..1] == "0" && "0"[..0] == "";
    }
    assert IsDigit(d[0]) && IsDigit(d[2]);
    StripKeepsTrimmed(d, NumberBlanks);
    ParseIntOfStripped(d, "", d);
  }

  /**
   * `str.strip()` removes a leading U+001C, but `int()` and `float()` refuse
   * it: `int("\x1c5")` raises `ValueError`.
   */
  lemma SeparatorRefused()
    ensures Strip("\U{001C}5") == "5"
    ensures ParseInt("\U{001C}5").None?
    ensures ParseDecimal("\U{001C}5").None?
  {
    var t := "\U{001C}5";
    StripPadded(t[..1], "5", "", StrBlanks);
    assert t[..1] + "5" + "" == t;
    StripKeepsTrimmed(t, NumberBlanks);
    assert !IsDigit(t[0]);
    SplitNoSep(t, '.');
  }

  /** `d` divided by ten `k` times, the value of `k` fractional digits reading `d`. */
  function Shifted(d: nat, k: nat): (x: real)
    ensures x >= 0.0
  {
    if k == 0 then d as real else Shifted(d, k - 1) / 10.0
  }

  /** The value of `digits.fraction`, both possibly empty. */
  function DecimalValue(whole: string, fraction: string): real
    requires AllDigits(whole) && AllDigits(fraction)
  {
    DigitsValue(whole) as real + Shifted(DigitsValue(fraction), |fraction|)
  }

  /** An unsigned decimal numeral: digits, or digits and a point with digits on at least one side. */
  function ParseUnsignedDecimal(t: string): (r: Option<real>)
    ensures r.Some? ==> r.value >= 0.0
  {
    var parts := Split(t, '.');
    if |parts| == 1 then
      (match ParseNat(t) case Some(n) => Some(n as real) case None => None)
    else if |parts| == 2 && AllDigits(parts[0]) && AllDigits(parts[1]) && parts[0] + parts[1] != [] then
      Some(DecimalValue(parts[0], parts[1]))
    else None
  }

  /**
   * Python's `float(s)` on plain decimal text: surrounding whitespace, an
   * optional sign, then a decimal numeral; the value is the exact rational.
   */
  function ParseDecimal(s: string): (r: Option<real>)
  {
    var t := StripBlanks(s, NumberBlanks);
    if t != [] && (t[0] == '+' || t[0] == '-') then
      match ParseUnsignedDecimal(t[1..])
      case Some(x) => Some(if t[0] == '-' then -x else x)
      case None => None
    else ParseUnsignedDecimal(t)
  }

  lemma DigitsLackChar(s: string, c: char)
    requires AllDigits(s) && !IsDigit(c)
    ensures c !in s
  {
  }

  /** Text with no surrounding space and no sign reads as an unsigned numeral. */
  lemma ParseDecimalPlain(t: string)
    requires t != [] && !IsNumberSpace(t[0]) && !IsNumberSpace(t[|t| - 1]) && t[0] != '+' && t[0] != '-'
    ensures ParseDecimal(t) == ParseUnsignedDecimal(t)
  {
    StripKeepsTrimmed(t, NumberBlanks);
  }

  /** A run of digits reads as its value. */
  lemma ParseDecimalDigits(w: string)
    requires w != [] && AllDigits(w)
    ensures ParseDecimal(w) == Some(DigitsValue(w) as real)
  {
    assert IsDigit(w[0]) && IsDigit(w[|w| - 1]);
    ParseDecimalPlain(w);
    DigitsLackChar(w, '.');
    SplitNoSep(w, '.');
  }

  /** Digits, a point and digits read as the exact decimal value. */
  lemma ParseDecimalPoint(w: string, f: string)
    requires w != [] && AllDigits(w) && f != [] && AllDigits(f)
    ensures ParseDecimal(w + "." + f) == Some(DecimalValue(w, f))
  {
    var t := w + "." + f;
    assert IsDigit(t[0]) && IsDigit(t[|t| - 1]);
    ParseDecimalPlain(t);
    DigitsLackChar(w, '.');
    DigitsLackChar(f, '.');
    SplitAround(w, f, '.');
    SplitNoSep(f, '.');
    assert Split(t, '.') == [w, f];
  }

  /** Python's `int(x)` on a float: truncation toward zero. */
  function Truncate(x: real): (n: int)
    ensures x >= 0.0 ==> n as real <= x < n as real + 1.0
    ensures x < 0.0 ==> n as real - 1.0 < x <= n as real
  {
    if x >= 0.0 then x.Floor else -((-x).Floor)
  }

  lemma TruncateWhole(k: int)
    ensures Truncate(k as real) == k
  {
  }
}

=== FILE: wrappers.dfy ===
/** Optional values: a dictionary key or a container that may be absent. */
module Wrappers {

  datatype Option<+T> = None | Some(value: T) {

    /** The value, or `default` when absent (Python's `dict.get(key, default)`). */
    function GetOr(default: T): T {
      match this
      case Some(v) => v
      case None => default
    }
  }
}
